=== FILE: README.md ===
# Neovate Code Desktop: the chat input, tool messages and terminal registry in Dafny

This project models the core logic of the Neovate Code desktop client, an
Electron and React application. It states and proves properties about that
logic. The modelled parts are:

- **Terminal registry** (`src/main/pty/manager.ts`). The main process keeps a
  map from terminal id to pseudo-terminal. `PtyManager` models this as a
  pure state machine: a registry, the effects each call has (spawn, write,
  resize, kill, broadcast), and the oracles it consults. The oracles are the
  platform, the environment variables, the home directory, the directories
  that exist, the fresh UUID, and the outcome of the spawn.
- **`@`-tokens** (`src/renderer/lib/tokenUtils.ts`). `TokenUtils` models the
  global regular expression `(?:^|\s)(@(?:"[^"]*"?|[^\s]*))` as a scan of
  well-formed matches, and the slash-command cursor test.
- **Input state hook** (`src/renderer/hooks/useInputState.ts`). `InputState`
  covers the session-gated store writes, reset, the workspace history, and
  the plan-mode and thinking cycles.
- **Input handlers** (`src/renderer/hooks/useInputHandlers.ts`).
  - `LineEditing` models the Emacs-style Ctrl and Meta editing keys on a
    value and a cursor, including the word regular expressions.
  - `InputHandlers` models history navigation, the splicing of a file
    suggestion, the submit gate, Tab, the arrows, and `onChange`.
- **File suggestions** (`src/renderer/hooks/useFileSuggestion.ts`).
  `FileSuggestion` covers:
  - the `@` and Tab matches;
  - the precedence of the `@` match;
  - the list filter;
  - the quoting of a selection;
  - request ids, so that only the latest search is shown.
- **Chat input component and suggestion list** (`ChatInput.tsx`,
  `SuggestionDropdown.tsx`).
  - `ChatInput` covers the model name and its `provider/model` split, the
    provider filter, provider and model changes, the send guard, and the
    bash/memory prefix the text area hides.
  - `SuggestionDropdown` covers the path split, the directory test and the
    visible window.
- **Tool messages** (`src/renderer/components/messages/ToolMessage.tsx`,
  `src/renderer/client/types/message.ts`).
  - `Message` covers the tool-result part shapes and the conversion between
    them.
  - `ToolMessage` covers the header, which result body shows, the result
    text, the diff viewer inputs and todo normalisation.
- **Sidebar and workspace panel** (`RepoSidebar.tsx`, `WorkspacePanel.tsx`).
  These cover the expanded-folder set, the selected repository, the active
  session and how it follows a changed workspace, and the send guard.
- **Dot paths** (`src/renderer/lib/utils.ts`). `NestedValue` models
  `getNestedValue` and `setNestedValue` on a JSON tree.

JavaScript semantics that matter are written out in `Chars`:
- the `\s` class;
- `trim`;
- the falsiness of `""`;
- `||` on optional strings;
- clamped `slice`;
- `substring`, which clamps its arguments and swaps them when they are in
  the wrong order;
- `indexOf`, `lastIndexOf`, `split` and `join`.

Strict-mode module code throws when it assigns a property on a primitive.
`NestedValue.SetPath` models that as a `Failure`.

`Wrappers` holds `Option`, `Result` and map lookup.

## Model

| member | source | states |
|---|---|---|
| PtyManager.DefaultShell | src/main/pty/manager.ts:30-35 | On Windows the shell is `COMSPEC`, else `cmd.exe`. Elsewhere it is `SHELL`, else `/bin/zsh`. An empty variable counts as unset, so the result is never empty. |
| PtyManager.ResolveShell | src/main/pty/manager.ts:82 | An explicit non-empty shell option wins; otherwise the platform default is used. |
| PtyManager.ResolveCwd | src/main/pty/manager.ts:40-62 | A missing or blank cwd, or one that is not an existing directory, falls back to the home directory. An existing directory is kept. |
| PtyManager.ClampDimension | src/main/pty/manager.ts:84-85 | Unset or 0 takes the default (80 columns, 24 rows). A negative value becomes 1. A positive value is kept. The result is always at least 1. |
| PtyManager.Create | src/main/pty/manager.ts:80-120 | It spawns with the resolved shell, cwd and dimensions and the `xterm-256color` name. It succeeds exactly when the spawn does, and then registers the fresh id with its cwd. A failure leaves the registry alone and reports `Failed to create terminal: ` followed by the message or `Unknown error`. |
| PtyManager.Write | src/main/pty/manager.ts:125-130 | Data goes verbatim to a live terminal. An unknown id does nothing. The registry is unchanged. |
| PtyManager.Resize | src/main/pty/manager.ts:135-140 | The dimensions go to a live terminal unclamped. An unknown id does nothing. |
| PtyManager.Destroy | src/main/pty/manager.ts:145-151 | It kills and forgets exactly that id; every other entry is kept. An unknown id is a no-op. |
| PtyManager.DestroyAll | src/main/pty/manager.ts:156-160 | The registry ends empty, with one kill per terminal that was live. |
| PtyManager.OnData | src/main/pty/manager.ts:101-103 | Output is broadcast tagged with its terminal id. The registry does not change. |
| PtyManager.OnExit | src/main/pty/manager.ts:106-109 | The exit is broadcast, and only that id leaves the registry. |
| PtyManager.CreateCountsOne | src/main/pty/manager.ts:111-113 | A successful create with an id that is not live raises the count by exactly one. |
| PtyManager.CreateFailureKeepsCount | src/main/pty/manager.ts:114-119 | A failed spawn leaves the count unchanged and reports a failure. |
| PtyManager.ZeroGeometryGetsDefault | src/main/pty/manager.ts:84-85 | Requesting 0×0 yields an 80×24 terminal. |
| PtyManager.DestroyIdempotent | src/main/pty/manager.ts:145-151 | A second destroy of the same id does nothing. |
| PtyManager.ExitThenNoOps | src/main/pty/manager.ts:106-109 | After an exit, write, resize and destroy for that id have no effect. |
| PtyManager.ApplyKeepsValid | src/main/pty/manager.ts:80-160 | Every operation keeps the live ids among the issued ids. |
| PtyManager.RetiredIdStaysRetired | src/main/pty/manager.ts:108 | With fresh UUIDs, an id that was destroyed or has exited never becomes live again. |
| PtyManager.RunKeepsValid | src/main/pty/manager.ts:25 | Over any run of operations, the live ids stay among the ids handed out. |
| TokenUtils.AtFrom | src/renderer/lib/tokenUtils.ts:15 | A match starts at an `@` at the start of the text or after whitespace, at most one character past the scan position. |
| TokenUtils.TokenEnd | src/renderer/lib/tokenUtils.ts:15 | `@"` runs to the closing quote, or to the end when there is none. `@` runs over non-whitespace. |
| TokenUtils.FindAtTokenAtCursor | src/renderer/lib/tokenUtils.ts:11-56 | The result is the first match whose range covers the cursor, with both ends included. It is null exactly when no match of the whole text covers the cursor. |
| TokenUtils.IsCursorInSlashCommand | src/renderer/lib/tokenUtils.ts:62-72 | It is false unless the text starts with `/`. Otherwise it holds when the cursor is at or before the first space, or at or before the end of the text if there is no space. |
| TokenUtils.MatchWellFormed | src/renderer/lib/tokenUtils.ts:15 | A match at an admissible `@` has a well-formed quoted or unquoted body. |
| TokenUtils.FindFromWellFormed | src/renderer/lib/tokenUtils.ts:31-51 | Every range the scan returns is well formed and covers the cursor. |
| TokenUtils.FindFromIsFirstCovering | src/renderer/lib/tokenUtils.ts:31-55 | The scan stops at the first covering match, and fails exactly when none covers. |
| TokenUtils.TokensFromWellFormed | src/renderer/lib/tokenUtils.ts:31-35 | Every match in the sequence is well formed and lies after the scan start. |
| TokenUtils.TokensFromOrdered | src/renderer/lib/tokenUtils.ts:31-35 | Matches are strictly increasing, with a gap between consecutive ones. |
| TokenUtils.NextMatchAfterGap | src/renderer/lib/tokenUtils.ts:15 | A match cannot start exactly where the previous one ends, because a separator is needed. |
| InputState.SetSessionInput | src/renderer/hooks/useInputState.ts:110-126 | Store writes happen only with a non-empty session id. Without one, nothing changes. |
| InputState.SetValue | src/renderer/hooks/useInputState.ts:65-78 | The local value becomes the new text at once. The cursor, the store entry, the history and both ids are kept. |
| InputState.SetCursor | src/renderer/hooks/useInputState.ts:80-93 | The local cursor becomes the new position at once. The value, the store entry, the history and both ids are kept. |
| InputState.Reset | src/renderer/hooks/useInputState.ts:95-104 | With a session, the value and cursor are cleared and the entry returns to the default, keeping the history. Without one, nothing changes. |
| InputState.AddToHistory | src/renderer/hooks/useInputState.ts:128-135 | With a workspace, the input is appended to its history; otherwise nothing changes. |
| InputState.TogglePlanMode | src/renderer/hooks/useInputState.ts:142-152 | The mode steps normal → plan → brainstorm → normal, and only with a session. |
| InputState.ToggleThinking | src/renderer/hooks/useInputState.ts:154-166 | The level steps off → low → medium → high → off, and only with a session and thinking enabled. |
| InputState.PlanModeCycle | src/renderer/hooks/useInputState.ts:142-152 | Three toggles restore the hook. One or two toggles change the mode. |
| InputState.ThinkingCycle | src/renderer/hooks/useInputState.ts:154-166 | Four toggles restore the hook. Each toggle changes the level. |
| InputState.SettersNeedSession | src/renderer/hooks/useInputState.ts:95-166 | Without a session every store setter is a no-op. Without a workspace, adding to history is one too. |
| InputState.MergeChangesOneField | src/renderer/hooks/useInputState.ts:113 | A partial update changes only its own field of the session entry. |
| LineEditing.WordBack | src/renderer/hooks/useInputHandlers.ts:377-378 | `/\S+\s*$/` matches exactly when the text is not all whitespace. The returned length is the leftmost such match. |
| LineEditing.WordAhead | src/renderer/hooks/useInputHandlers.ts:440-441 | `/^\s*\S+/` matches exactly when the text is not all whitespace, and the length is that of the match. |
| LineEditing.LineStart | src/renderer/hooks/useInputHandlers.ts:323-327 | Ctrl-A moves the cursor to 0. |
| LineEditing.LineEnd | src/renderer/hooks/useInputHandlers.ts:328-335 | Ctrl-E moves the cursor to the end. |
| LineEditing.CharForward | src/renderer/hooks/useInputHandlers.ts:345-354 | Ctrl-F moves one character right, but not past the end. |
| LineEditing.CharBackward | src/renderer/hooks/useInputHandlers.ts:355-364 | Ctrl-B moves one character left, but not before 0. |
| LineEditing.DeleteCharForward | src/renderer/hooks/useInputHandlers.ts:336-344 | Ctrl-D deletes exactly the character under the cursor. |
| LineEditing.DeleteCharBackward | src/renderer/hooks/useInputHandlers.ts:390-399 | Ctrl-H deletes exactly the character before the cursor and moves the cursor back. At 0 it does nothing. |
| LineEditing.KillToEnd | src/renderer/hooks/useInputHandlers.ts:365-368 | Ctrl-K: the kept text followed by the text after the cursor is the old text. |
| LineEditing.KillToStart | src/renderer/hooks/useInputHandlers.ts:369-374 | Ctrl-U: the text before the cursor followed by the kept text is the old text, and the cursor is at 0. |
| LineEditing.DeleteWordBackward | src/renderer/hooks/useInputHandlers.ts:375-389 | Ctrl-W removes exactly the leftmost `\S+\s*` run that ends at the cursor. Text after the cursor is unchanged. All-blank text before the cursor means no change. |
| LineEditing.WordBackward | src/renderer/hooks/useInputHandlers.ts:418-426 | Meta-B moves to the start of that run, or to 0. The text is unchanged. |
| LineEditing.WordForward | src/renderer/hooks/useInputHandlers.ts:427-437 | Meta-F moves past the next `\s*\S+`, or to the end. The text is unchanged. |
| LineEditing.DeleteWordForward | src/renderer/hooks/useInputHandlers.ts:438-449 | Meta-D removes exactly the next `\s*\S+`, and the cursor stays. |
| LineEditing.ApplyKey | src/renderer/hooks/useInputHandlers.ts:321-463 | Every editing key keeps an in-range cursor in range. |
| LineEditing.SingleLine | src/renderer/hooks/useInputHandlers.ts:246-258 | In text without a line break the cursor is on both the first and the last line. |
| InputHandlers.HistoryUp | src/renderer/hooks/useInputHandlers.ts:183-214 | From the typed text it goes to the newest entry and saves a draft; from an entry it goes one older, stopping at the oldest. The cursor goes to 0. With an open list or empty history the input is unchanged. The index stays valid. |
| InputHandlers.HistoryDown | src/renderer/hooks/useInputHandlers.ts:216-244 | From an entry it goes one newer. From the newest it returns to the draft and leaves navigation. Outside navigation it does nothing. |
| InputHandlers.UpThenDownRestoresDraft | src/renderer/hooks/useInputHandlers.ts:196-230 | Up then down from the typed text restores that text and ends navigation. |
| InputHandlers.UpThenDownReturns | src/renderer/hooks/useInputHandlers.ts:200-233 | One step older then one newer returns to the same entry. |
| InputHandlers.SpliceAsWritten | src/renderer/hooks/useInputHandlers.ts:100-115 | The code as written: the value is the trimmed text of before, prefix, selection, a space and the trimmed rest. The cursor is the length of that text up to the space, before trimming. |
| InputHandlers.SpliceAsWrittenOvershoots | src/renderer/hooks/useInputHandlers.ts:110-113 | On `@sr` with selection `src/a.ts`, the value is `@src/a.ts` but the cursor is 10, one past the end. |
| InputHandlers.OvershotBackspaceDeletesNothing | src/renderer/hooks/useInputHandlers.ts:390-399 | At the overshot cursor 10 in `@src/a.ts`, Ctrl-H deletes nothing and only moves the cursor to 9. |
| InputHandlers.SpliceSuggestion | src/renderer/hooks/useInputHandlers.ts:100-115 | The corrected splice. Without a selection there is none. The value is the one the code stores. The cursor is within the value and never right of the as-written cursor. |
| InputHandlers.CorrectSplice | src/renderer/hooks/useInputHandlers.ts:110-113 | The value is the trimmed joined text. The cursor is within it and within the inserted text. |
| InputHandlers.KeptBefore | src/renderer/hooks/useInputHandlers.ts:106 | The text before the token loses only its leading whitespace: the result is a suffix of it that does not start with whitespace. |
| InputHandlers.SpliceExact | src/renderer/hooks/useInputHandlers.ts:106-113 | For a selection that begins and ends with non-whitespace: the value is the text before the token without its leading whitespace, the prefix, the selection, then a space and the trimmed rest when there is one. The cursor is right after that space, or at the end when nothing follows. |
| InputHandlers.CorrectSpliceExact | src/renderer/hooks/useInputHandlers.ts:110-113 | The same exact shape, stated for any text before, prefix, word-bounded selection and trimmed rest. |
| InputHandlers.SpliceLeadingSpace | src/renderer/hooks/useInputHandlers.ts:106-113 | On ` @sr x` with selection `src/a.ts`, both splices give `@src/a.ts x`. The code's cursor is 11, at the end. The corrected cursor is 10, right after the space. |
| InputHandlers.ApplyFileSuggestion | src/renderer/hooks/useInputHandlers.ts:100-115 | The handler as written. Without a selection nothing changes. Otherwise the trimmed spliced value is stored with the cursor counted before the trim, the Tab flag drops, and the store entry, history and ids are kept. |
| InputHandlers.HandlerOvershoots | src/renderer/hooks/useInputHandlers.ts:110-113 | After splicing `src/a.ts` into `@sr`, the handler stores `@src/a.ts` with cursor 10, one past the end. |
| InputHandlers.ApplyFileSuggestionCorrected | src/renderer/hooks/useInputHandlers.ts:100-115 | The handler with the corrected cursor: the same stored value, a cursor within it and never right of the as-written one. |
| InputHandlers.SubmitDecision | src/renderer/hooks/useInputHandlers.ts:117-160 | A submit goes out exactly when nothing is processing, no list is open, the text is not blank, the mode is not plan and the input mode is the prompt. It carries the trimmed text, which is never empty. |
| InputHandlers.HandleSubmit | src/renderer/hooks/useInputHandlers.ts:117-169 | While processing nothing changes. An open slash-command list stores the completed command with the cursor at its end. An open file list applies the suggestion as the handler does. Blank text, plan mode and the bash or memory mode return with the state untouched. Otherwise a message goes out: the trimmed text with pasted text and then image references expanded, with the images only when there are any. With a session and a workspace the trimmed text, not the expanded one, is appended to the history and the input is reset. |
| InputHandlers.SubmitOnce | src/renderer/hooks/useInputHandlers.ts:117-181 | A second Enter right after a submit sends nothing. |
| InputHandlers.TabKey | src/renderer/hooks/useInputHandlers.ts:281-299 | Shift-Tab cycles the plan mode. With a slash-command list open, Tab stores the completed command with the cursor at its end. With a file list open, it applies the suggestion. With no list open, it sets the Tab flag exactly when the text is not blank, and the text is unchanged. |
| InputHandlers.TabMatchesEnter | src/renderer/hooks/useInputHandlers.ts:127-137 | With a list open, Tab and Enter leave the same state: both complete the command or both splice the file suggestion. |
| InputHandlers.EditKey | src/renderer/hooks/useInputHandlers.ts:321-463 | The editing keys change only the value and cursor, as the line editor says, and keep the cursor in range. |
| InputHandlers.HookKey | src/renderer/hooks/useInputHandlers.ts:400-411 | Ctrl-T cycles thinking. Ctrl-N and Ctrl-P step the history from any line. The history index stays valid. |
| InputHandlers.ArrowUp | src/renderer/hooks/useInputHandlers.ts:301-311 | With Alt or Meta held nothing changes. Otherwise it steps the history up exactly when a list is open or the cursor is on the first line, and else leaves the state alone. The index stays valid. |
| InputHandlers.ArrowDown | src/renderer/hooks/useInputHandlers.ts:313-319 | It steps the history down exactly when a list is open or the cursor is on the last line, and otherwise leaves the state alone. The index stays valid. |
| InputHandlers.ArrowsRestoreDraft | src/renderer/hooks/useInputHandlers.ts:301-319 | On single-line text with a single-line newest entry, up then down restores the typed text and ends navigation. |
| InputHandlers.OnChange | src/renderer/hooks/useInputHandlers.ts:525-539 | The typed text and caret are stored and navigation ends. The Tab flag survives exactly when the text has no `@` and is not blank. |
| FileSuggestion.Unquote | src/renderer/hooks/useFileSuggestion.ts:59-61 | A query starting with `"` loses that quote and at most one closing quote. Any other query is kept. |
| FileSuggestion.AtMatch | src/renderer/hooks/useFileSuggestion.ts:44-70 | There is a query exactly when a token covers the cursor. The query is the unquoted text after `@` up to the cursor, or `@` when the cursor is on the `@`. |
| FileSuggestion.TabMatch | src/renderer/hooks/useFileSuggestion.ts:72-104 | With the flag, there is a query exactly when a non-empty word ends at the cursor and no `@`-word ends there. The query is that word, which starts after whitespace or at 0. |
| FileSuggestion.AtWordIff | src/renderer/hooks/useFileSuggestion.ts:84-86 | The trailing word contains `@` exactly when `/@[^\s]*$/` matches. |
| FileSuggestion.ActiveMatch | src/renderer/hooks/useFileSuggestion.ts:106 | The `@` match wins over the Tab match. |
| FileSuggestion.AtPrecedence | src/renderer/hooks/useFileSuggestion.ts:106 | Under an `@` token the Tab flag is irrelevant. Without a token and without the flag there is no query. |
| FileSuggestion.MatchedPaths | src/renderer/hooks/useFileSuggestion.ts:143-147 | The paths are hidden without a query, or when the only result is the query itself. Otherwise they are shown as they came. |
| FileSuggestion.GetSelected | src/renderer/hooks/useFileSuggestion.ts:151-155 | Nothing selected gives `''`. A path with a space is quoted; any other path is kept. |
| FileSuggestion.SelectedUnquotes | src/renderer/hooks/useFileSuggestion.ts:59-61 | A selection inserted after `@` reads back as the same query, whether quoted or plain. |
| FileSuggestion.OnQueryChange | src/renderer/hooks/useFileSuggestion.ts:110-115 | A changed query clears the results and is remembered. |
| FileSuggestion.Issue | src/renderer/hooks/useFileSuggestion.ts:117-130 | Without a query the results clear. With one, a request with a larger id goes out and loading starts. |
| FileSuggestion.Receive | src/renderer/hooks/useFileSuggestion.ts:131-140 | A stale response is ignored. The latest one replaces the paths, or keeps them on failure, and stops loading. |
| FileSuggestion.LatestWins | src/renderer/hooks/useFileSuggestion.ts:123-140 | With two requests in flight, the earlier response is ignored in either arrival order, and the later results are shown. |
| SuggestionDropdown.ParseFilePath | src/renderer/components/ChatInput/SuggestionDropdown.tsx:12-21 | With a `/`, directory + `/` + file name is the path, and the file name has no `/`. Without one, the path is the file name. |
| SuggestionDropdown.ParseOfJoin | src/renderer/components/ChatInput/SuggestionDropdown.tsx:12-21 | Parsing a joined directory and slash-free name gives them back. |
| SuggestionDropdown.TopLevelSlashLost | src/renderer/components/ChatInput/SuggestionDropdown.tsx:12-21 | `/a` and `a` parse the same way, so a leading slash is not shown. |
| SuggestionDropdown.IsDirectory | src/renderer/components/ChatInput/SuggestionDropdown.tsx:23-25 | A path is a directory exactly when it ends in `/` or has no `.`. |
| SuggestionDropdown.WindowStart | src/renderer/components/ChatInput/SuggestionDropdown.tsx:35-41 | The first shown index is never negative. It is 0 when everything fits, and otherwise leaves a full window before the end. |
| SuggestionDropdown.Window | src/renderer/components/ChatInput/SuggestionDropdown.tsx:33-42 | An empty list renders nothing. Otherwise the window is a contiguous slice of `min(maxVisible, count)` items. |
| SuggestionDropdown.SelectionVisible | src/renderer/components/ChatInput/SuggestionDropdown.tsx:35-56 | A valid selection always lies inside the window, and the item highlighted at its offset is the selected item. |
| ChatInput.EffectiveModelName | src/renderer/components/ChatInput/ChatInput.tsx:174 | The session's model wins when it is non-empty. |
| ChatInput.ParseModelName | src/renderer/components/ChatInput/ChatInput.tsx:177-184 | The provider is the text before the first `/` and the model is the rest. With no `/` the provider is empty. |
| ChatInput.SplitCount | src/renderer/components/ChatInput/ChatInput.tsx:179-180 | A name splits into two or more parts exactly when it contains `/`. |
| ChatInput.ModelNameRoundTrip | src/renderer/components/ChatInput/ChatInput.tsx:177-184 | `provider/model` parses back to that provider and model when the provider has no `/`. |
| ChatInput.FilterProviders | src/renderer/components/ChatInput/ChatInput.tsx:203-205 | Exactly the providers with a valid environment or an API key are kept. |
| ChatInput.FilterAppend | src/renderer/components/ChatInput/ChatInput.tsx:203-205 | Filtering distributes over concatenation, so order is kept. |
| ChatInput.FilterIdempotent | src/renderer/components/ChatInput/ChatInput.tsx:203-205 | Filtering twice equals filtering once. |
| ChatInput.ProviderChange | src/renderer/components/ChatInput/ChatInput.tsx:246-274 | Nothing is stored exactly when there is no connection, the provider is unchanged, or it has no models. Otherwise the first model and `provider/model` are stored. |
| ChatInput.ProviderChangeStoresParsable | src/renderer/components/ChatInput/ChatInput.tsx:246-274 | The stored name parses back to the new provider and its first model. |
| ChatInput.ModelChange | src/renderer/components/ChatInput/ChatInput.tsx:277-328 | Connected, it stores `provider/model` and enables thinking at low exactly when the model reports a thinking configuration. Otherwise it does nothing. |
| ChatInput.CanSend | src/renderer/components/ChatInput/ChatInput.tsx:330-331 | Sending is possible exactly when the text is not all whitespace. |
| ChatInput.SendClick | src/renderer/components/ChatInput/ChatInput.tsx:368-384 | A click dispatches Enter exactly when there is text, the input is enabled or busy, and no list is open. |
| ChatInput.ClickReachesSubmit | src/renderer/components/ChatInput/ChatInput.tsx:368-384 | A dispatched click gets past the blank and open-list checks of the submit handler. |
| ChatInput.DisplayValue | src/renderer/components/ChatInput/ChatInput.tsx:333-338 | Bash and memory mode hide the first character. |
| ChatInput.HandleChange | src/renderer/components/ChatInput/ChatInput.tsx:340-354 | The mode's marker is put back in front of the typed text. |
| ChatInput.DisplayRoundTrip | src/renderer/components/ChatInput/ChatInput.tsx:333-354 | Showing after typing gives the typed text. Typing back what is shown restores a value that starts with its mode's marker. |
| NestedValue.Walk | src/renderer/lib/utils.ts:22-31 | Any non-empty walk from something that is not an object gives nothing. |
| NestedValue.GetNested | src/renderer/lib/utils.ts:12-34 | Falsy or non-object input gives the default, as does a walk that ends on nothing. Otherwise the value found is returned. |
| NestedValue.GetNestedExample | src/renderer/lib/utils.ts:10 | `getNestedValue({a: {b: 1}}, 'a.b')` is 1. |
| NestedValue.SetPath | src/renderer/lib/utils.ts:46-56 | A success is an object. Writing into a non-object fails, as a strict-mode property assignment on a primitive throws. |
| NestedValue.SetNested | src/renderer/lib/utils.ts:41-57 | A successful write returns an object. |
| NestedValue.SetNestedExample | src/renderer/lib/utils.ts:39 | Setting `a.c` to 2 in `{a: {b: 1}}` gives `{a: {b: 1, c: 2}}`. |
| NestedValue.KeysOfTwo | src/renderer/lib/utils.ts:19 | A path of two dot-free keys splits into those keys. |
| NestedValue.SetThenGetPath | src/renderer/lib/utils.ts:50-55 | Walking the written path finds the written value. |
| NestedValue.SetThenGet | src/renderer/lib/utils.ts:12-57 | `get` after a successful `set` of the same path returns the value. |
| NestedValue.SetKeepsSiblings | src/renderer/lib/utils.ts:46-56 | The top-level keys only gain the first key, and other fields are kept unchanged. |
| NestedValue.SetPathKeepsSiblings | src/renderer/lib/utils.ts:50-55 | One level of the write: the first key is added or replaced, other fields are kept, and below a longer path the first key holds the write one level down. |
| NestedValue.SetPathKeepsSiblingsAt | src/renderer/lib/utils.ts:39-56 | At every depth along the path the result holds an object. Its keys are the old object's keys plus the next key, with none where the write creates the object. Its other fields are the old ones. |
| NestedValue.SetPathIntoEmpty | src/renderer/lib/utils.ts:50-53 | Any path can be created below an empty object. |
| NestedValue.SetPathFailsIff | src/renderer/lib/utils.ts:50-55 | A write fails exactly when the root is not an object or a primitive lies on the path. |
| NestedValue.WalkThroughNothing | src/renderer/lib/utils.ts:23-30 | From nothing, `null` or `{}`, any non-empty walk finds nothing. |
| Message.ToToolResultPart | src/renderer/client/types/message.ts:173-183 | The converted part carries the `tool_result` tag, with `toolCallId` as `id`, `toolName` as `name`, and the input and result kept. |
| Message.ToToolResultPart2 | src/renderer/client/types/message.ts:173-183 | The source has no reverse conversion. This is the inverse of that conversion, defined for the round trip: it carries the `tool-result` tag and renames the fields back. |
| Message.ConversionRoundTrip | src/renderer/client/types/message.ts:173-183 | Converting and converting back is the identity, in both directions. |
| Message.ConversionInjective | src/renderer/client/types/message.ts:173-183 | Distinct parts stay distinct, up to their tag. |
| ToolMessage.ExtractValue | src/renderer/components/messages/ToolMessage.tsx:13-24 | A string is returned as is. An object with `inputKey` reads that input field. Anything else is undefined. |
| ToolMessage.ExtractByReference | src/renderer/components/messages/ToolMessage.tsx:20-22 | A reference reads the named field, and a reference to a string field gives the same as that string. |
| ToolMessage.Either | src/renderer/components/messages/ToolMessage.tsx:118 | `input[a] \|\| input[b]`: the first field when it is truthy, otherwise the second. |
| ToolMessage.DiffContents | src/renderer/components/messages/ToolMessage.tsx:116-130 | A set string `old_string` is the old contents. Without it, a set string `originalContent` is. With neither set, the old contents are `''`. A set reference reads the field it names when that field is set. The new contents follow the same rules with `new_string` and `newContent`. The path is a set `file_path`, else a set `filePath`, else `file`. |
| ToolMessage.DiffExample | src/renderer/components/messages/ToolMessage.tsx:116-130 | Mixed snake-case and camel-case fields each land in their slot. |
| ToolMessage.DiffReferenceExample | src/renderer/components/messages/ToolMessage.tsx:116-130 | An old text given as a reference to `content` shows that field, and the missing new text and path give `''` and `file`. |
| ToolMessage.TextsOfAppend | src/renderer/components/messages/ToolMessage.tsx:190-192 | Selecting text parts distributes over concatenation, so it keeps their order. |
| ToolMessage.GetResultText | src/renderer/components/messages/ToolMessage.tsx:180-196 | A string display wins. Then string content is returned, or the text parts joined by line breaks. |
| ToolMessage.ResultLinesAreTextParts | src/renderer/components/messages/ToolMessage.tsx:189-193 | Single-line text parts split back out of the joined text. |
| ToolMessage.NormalizeTodo | src/renderer/components/messages/ToolMessage.tsx:141-149 | The id is kept and content is `content \|\| text`. A set status is kept; otherwise it is completed or pending, following the flag. A set priority is kept; otherwise it is `medium`. |
| ToolMessage.NormalizeIdempotent | src/renderer/components/messages/ToolMessage.tsx:141-149 | A normalised todo reported again normalises to itself, except that empty content reads as absent. |
| ToolMessage.NormalizeTodos | src/renderer/components/messages/ToolMessage.tsx:141-149 | Each todo is normalised, in order. |
| ToolMessage.OneBody | src/renderer/components/messages/ToolMessage.tsx:95-170 | At most one body shows, and exactly one unless the display is an unknown object kind. Errors win. Plain text shows exactly when there is no display or a string display. |
| ToolMessage.Header | src/renderer/components/messages/ToolMessage.tsx:34-88 | The display name is used, or else the tool name. The call is pending exactly when there is no result. |
| ToolMessage.ShownBodies | src/renderer/components/messages/ToolMessage.tsx:92-172 | A pending call shows no result body. |
| RepoSidebar.ToggleFolder | src/renderer/components/RepoSidebar.tsx:48-58 | The path becomes a member exactly when it was not one. Every other path keeps its membership. |
| RepoSidebar.ToggleTwice | src/renderer/components/RepoSidebar.tsx:48-58 | Toggling the same path twice restores the set. |
| RepoSidebar.ToggleCommutes | src/renderer/components/RepoSidebar.tsx:48-58 | Toggles of two paths commute. |
| RepoSidebar.FindFrom | src/renderer/components/RepoSidebar.tsx:45 | `find` returns the first index with the path, or none when no repository has it. |
| RepoSidebar.SelectedRepo | src/renderer/components/RepoSidebar.tsx:44-46 | An empty or missing path gives null. Otherwise the result is a listed repository with that path, and null only when none has it. |
| RepoSidebar.SelectedIsFirst | src/renderer/components/RepoSidebar.tsx:44-46 | Among repositories that share the path, the first one is selected. |
| WorkspacePanel.FirstSession | src/renderer/components/WorkspacePanel.tsx:56 | The result is the first session id if it is non-empty, else null. |
| WorkspacePanel.Initial | src/renderer/components/WorkspacePanel.tsx:53-57 | The panel starts with no input and not loading. The active id is the workspace's first session id when that is non-empty, and null otherwise. |
| WorkspacePanel.InitialIsReconciled | src/renderer/components/WorkspacePanel.tsx:53-82 | The first run of the workspace effect keeps the initial active id. |
| WorkspacePanel.Reconcile | src/renderer/components/WorkspacePanel.tsx:73-82 | Without a workspace the active id is null. An id of the workspace is kept. Otherwise the id falls back to the first session, so the result is null or a member. |
| WorkspacePanel.ReconcileIdempotent | src/renderer/components/WorkspacePanel.tsx:73-82 | Running the effect again changes nothing, so it settles after one step. |
| WorkspacePanel.SendMessage | src/renderer/components/WorkspacePanel.tsx:84-94 | Blank content or a send in progress is a no-op. Otherwise the active session (or `''`) receives the content, and the input clears only on success. Loading ends in every case, and a rejection propagates. |
| WorkspacePanel.SetActiveSession | src/renderer/components/WorkspacePanel.tsx:97-100 | Switching sessions clears the input. |

## Left out

- The operating-system side of terminals is not modelled: `node-pty` processes, `crypto.randomUUID`, `fs.statSync` and `BrowserWindow` broadcasting. Their answers are parameters, and their effects are returned as a list.
- Console logging, in the terminal manager and the token scan, has no observable result and is not modelled.
- PtyManager.DestroyAll: the kill order follows Map insertion order in the source. The model's order is unspecified and only the set of kills is stated.
- Debouncing is not modelled. The 150 ms copy of value and cursor into the store, and the debounced search query, are timer-driven.
- The store, `getInputMode`, the list navigation, slash commands, paste and image managers, double Escape and toasts come from modules outside this model. What the handlers read from them is passed in.
- `useInputState` re-seeding the local value from the store on a session change is not modelled. It is a React effect over the store, which is outside this model.
- The default session entry is taken to be empty. Its definition lives in the store, outside this model.
- The paste and image managers' expansions in `handleSubmit` are opaque functions passed in. The model states only that their results go out.
- Text is a sequence of Dafny characters, while JavaScript strings count UTF-16 code units. Lengths, cursors and `substring` agree only for text in the Basic Multilingual Plane. Surrogate pairs, such as emoji, are not modelled.
- PtyManager.ClampDimension works on integers. `NaN || 80` and the rounding of fractional sizes (0.5 becomes 1) are not modelled.
- InputHandlers.HistoryUp and InputHandlers.HistoryDown require the history index to name an entry or be null. The hook keeps it that way, but the store's own guarantee is outside this model.
- `onPaste` and `onSelect` are not modelled. They hand off to the paste managers or only copy the caret.
- The network requests (`providers.list`, `models.list`, `session.config.set`, `session.getModel`, `utils.searchPaths`) are not modelled. Their answers are parameters.
- The wiring of the file search is not modelled. `useInputHandlers` passes `fetchPaths`, but `useFileSuggestion` reads `request` and `cwd`. The model takes the search answers as parameters.
- ToolMessage.GetResultText: the `JSON.stringify` fallback cannot be reached with the declared content types, so it is not modelled.
- Layout and styling are not modelled: `cn`, colours, the border colour, and the rendering of the todo list and diff viewer.
- JSON arrays, non-integer numbers and the quirks of the `JSON.parse(JSON.stringify(...))` clone are not modelled, for example dropped `undefined` and `__proto__` keys. Only objects, strings, integers, booleans and null are modelled.
- Property lookups in `getNestedValue`, `setNestedValue` and `extractValue` see only an object's own fields. JavaScript also finds inherited properties, so `getNestedValue({}, 'toString')` returns a function where the model returns the default, and `{inputKey: 'toString'}` reads a function from any input.
- The workspace panel's store lookups of sessions are commented out in the source, which uses empty placeholders, and are not modelled.
- The repository sidebar's nested components (header, folder, footer) only render context values, and are not modelled.

## Findings

| source | as written | input that shows it | evidently intended | confidence | as-written member | corrected member |
|---|---|---|---|---|---|---|
| src/renderer/hooks/useInputHandlers.ts:110-113 | The cursor is set to the length of `before + prefix + selected + " "`, measured before the new value is trimmed. The trim removes leading whitespace of `before`, so the cursor lands right of the separator by that much even when text follows. When nothing follows the token, the trailing space is trimmed away too and the cursor lands past the end of the value. | Value `@sr`, cursor 3, selection `src/a.ts`: the value becomes `@src/a.ts` (length 9) and the cursor 10. A following Ctrl-H at that cursor only moves the cursor and deletes nothing. Value ` @sr x`: the value becomes `@src/a.ts x` and the cursor 11, after `x` instead of after the space. | The cursor sits right after the inserted path and separator in the trimmed value, and never beyond its end. | not executed; medium (the text area clamps its own caret, but the hook's cursor state does not) | InputHandlers.SpliceAsWritten, InputHandlers.SpliceAsWrittenOvershoots, InputHandlers.SpliceLeadingSpace, InputHandlers.OvershotBackspaceDeletesNothing, InputHandlers.ApplyFileSuggestion, InputHandlers.HandlerOvershoots | InputHandlers.SpliceSuggestion, InputHandlers.CorrectSplice, InputHandlers.SpliceExact, InputHandlers.CorrectSpliceExact, InputHandlers.ApplyFileSuggestionCorrected |

=== FILE: chars.dfy ===
/** JavaScript string semantics the renderer relies on: the `\s` character
    class, `trim`, the clamping of `slice`/`substring`, `indexOf`,
    `lastIndexOf`, `split` and `join`. Strings are sequences of UTF-16 code
    units in JavaScript; here they are `seq<char>`. */
module Chars {
  import opened Wrappers

  /** Membership in the ECMAScript `\s` class (WhiteSpace and LineTerminator),
      which is also the set of characters `String.prototype.trim` strips. */
  predicate IsSpace(c: char) {
    || c == ' ' || ('\t' <= c <= '\r') || c == '\U{00A0}' || c == '\U{1680}'
    || ('\U{2000}' <= c <= '\U{200A}')
    || c == '\U{2028}' || c == '\U{2029}' || c == '\U{202F}' || c == '\U{205F}'
    || c == '\U{3000}' || c == '\U{FEFF}'
  }

  /** JavaScript truthiness of an optional string: present and non-empty. */
  predicate Truthy(o: Option<string>) {
    o.Some? && o.value != ""
  }

  /** `o || fallback` for an optional string. */
  function Or(o: Option<string>, fallback: string): string {
    if Truthy(o) then o.value else fallback
  }

  ghost predicate AllSpace(s: string) {
    forall k :: 0 <= k < |s| ==> IsSpace(s[k])
  }

  ghost predicate NoSpace(s: string) {
    forall k :: 0 <= k < |s| ==> !IsSpace(s[k])
  }

  function Min(a: int, b: int): int { if a <= b then a else b }

  function Max(a: int, b: int): int { if a <= b then b else a }

  /** `s.slice(0, n)` for a non-negative `n`: past the end it stops at the end. */
  function Take(s: string, n: nat): (r: string)
    ensures |r| == Min(n, |s|)
    ensures r == s[..|r|]
  {
    s[..Min(n, |s|)]
  }

  /** `s.slice(n)` for a non-negative `n`: past the end it is empty. */
  function Drop(s: string, n: nat): (r: string)
    ensures |r| == |s| - Min(n, |s|)
    ensures r == s[Min(n, |s|)..]
  {
    s[Min(n, |s|)..]
  }

  /** `s.substring(a, b)`: both ends are clamped to `[0, |s|]` and swapped
      when the first exceeds the second. */
  function Substring(s: string, a: int, b: int): (r: string)
    ensures 0 <= a <= b <= |s| ==> r == s[a..b]
    ensures 0 <= b <= a <= |s| ==> r == s[b..a]
  {
    var lo := Min(Max(a, 0), |s|);
    var hi := Min(Max(b, 0), |s|);
    if lo <= hi then s[lo..hi] else s[hi..lo]
  }

  predicate StartsWith(s: string, c: char) {
    |s| > 0 && s[0] == c
  }

  predicate EndsWith(s: string, c: char) {
    |s| > 0 && s[|s| - 1] == c
  }

  /** `s.indexOf(c, from)`: the first index at or after `from` holding `c`. */
  function IndexFrom(s: string, c: char, from: nat): (r: Option<nat>)
    decreases |s| - from
    ensures r.Some? ==> from <= r.value < |s| && s[r.value] == c
    ensures r.Some? ==> forall k :: from <= k < r.value ==> s[k] != c
    ensures r.None? ==> forall k :: from <= k < |s| ==> s[k] != c
  {
    if from >= |s| then None
    else if s[from] == c then Some(from)
    else IndexFrom(s, c, from + 1)
  }

  function IndexOf(s: string, c: char): (r: Option<nat>)
    ensures r.Some? ==> r.value < |s| && s[r.value] == c
    ensures r.Some? ==> forall k :: 0 <= k < r.value ==> s[k] != c
    ensures r.None? ==> forall k :: 0 <= k < |s| ==> s[k] != c
  {
    IndexFrom(s, c, 0)
  }

  predicate Contains(s: string, c: char)
  {
    IndexOf(s, c).Some?
  }

  lemma ContainsIff(s: string, c: char)
    ensures Contains(s, c) <==> exists k :: 0 <= k < |s| && s[k] == c
  {
  }

  /** `s.lastIndexOf(c)`. */
  function LastIndexOf(s: string, c: char): (r: Option<nat>)
    ensures r.Some? ==> r.value < |s| && s[r.value] == c
    ensures r.Some? ==> forall k :: r.value < k < |s| ==> s[k] != c
    ensures r.None? ==> forall k :: 0 <= k < |s| ==> s[k] != c
  {
    if |s| == 0 then None
    else if s[|s| - 1] == c then Some(|s| - 1)
    else LastIndexOf(s[..|s| - 1], c)
  }

  /** First index at or after `from` whose character is in `\s`, or `|s|`. */
  function SpaceFrom(s: string, from: nat): (r: nat)
    requires from <= |s|
    decreases |s| - from
    ensures from <= r <= |s|
    ensures forall k :: from <= k < r ==> !IsSpace(s[k])
    ensures r < |s| ==> IsSpace(s[r])
  {
    if from == |s| || IsSpace(s[from]) then from else SpaceFrom(s, from + 1)
  }

  /** First index at or after `from` whose character is not in `\s`, or `|s|`. */
  function NonSpaceFrom(s: string, from: nat): (r: nat)
    requires from <= |s|
    decreases |s| - from
    ensures from <= r <= |s|
    ensures forall k :: from <= k < r ==> IsSpace(s[k])
    ensures r < |s| ==> !IsSpace(s[r])
  {
    if from == |s| || !IsSpace(s[from]) then from else NonSpaceFrom(s, from + 1)
  }

  /** Start of the all-`\s` run that ends at `to`. */
  function SpaceRunBefore(s: string, to: nat): (r: nat)
    requires to <= |s|
    ensures r <= to
    ensures forall k :: r <= k < to ==> IsSpace(s[k])
    ensures r > 0 ==> !IsSpace(s[r - 1])
  {
    if to == 0 || !IsSpace(s[to - 1]) then to else SpaceRunBefore(s, to - 1)
  }

  /** Length of the longest all-`\s` prefix. */
  function LeadingSpaces(s: string): (n: nat)
    ensures n <= |s|
    ensures forall k :: 0 <= k < n ==> IsSpace(s[k])
    ensures n < |s| ==> !IsSpace(s[n])
  {
    NonSpaceFrom(s, 0)
  }

  /** Length of the longest all-`\s` suffix. */
  function TrailingSpaces(s: string): (n: nat)
    ensures n <= |s|
    ensures forall k :: |s| - n <= k < |s| ==> IsSpace(s[k])
    ensures n < |s| ==> !IsSpace(s[|s| - n - 1])
  {
    |s| - SpaceRunBefore(s, |s|)
  }

  /** Length of the longest `\s`-free suffix. */
  function TrailingWord(s: string): (n: nat)
    ensures n <= |s|
    ensures forall k :: |s| - n <= k < |s| ==> !IsSpace(s[k])
    ensures n < |s| ==> IsSpace(s[|s| - n - 1])
  {
    if |s| == 0 || IsSpace(s[|s| - 1]) then 0
    else
      var n := 1 + TrailingWord(s[..|s| - 1]);
      assert forall k :: 0 <= k < |s| - 1 ==> s[k] == s[..|s| - 1][k];
      n
  }

  /** `s.trim()`: the text between the leading and the trailing whitespace. */
  function Trim(s: string): (r: string)
    ensures exists i :: 0 <= i <= |s| - |r| && r == s[i..i + |r|] && AllSpace(s[..i]) && AllSpace(s[i + |r|..])
    ensures |r| > 0 ==> !IsSpace(r[0]) && !IsSpace(r[|r| - 1])
    ensures |r| == 0 <==> AllSpace(s)
  {
    var i := LeadingSpaces(s);
    var rest := s[i..];
    var t := TrailingSpaces(rest);
    var r := rest[..|rest| - t];
    TrimFacts(s, i, t, r);
    r
  }

  /** What the two scans of `Trim` leave on either side of the result. */
  lemma TrimFacts(s: string, i: nat, t: nat, r: string)
    requires i <= |s| && t <= |s| - i
    requires forall k :: 0 <= k < i ==> IsSpace(s[k])
    requires i < |s| ==> !IsSpace(s[i])
    requires forall k :: |s| - t <= k < |s| ==> IsSpace(s[k])
    requires t < |s| - i ==> !IsSpace(s[|s| - t - 1])
    requires r == s[i..|s| - t]
    ensures r == s[i..i + |r|] && AllSpace(s[..i]) && AllSpace(s[i + |r|..])
    ensures |r| > 0 ==> !IsSpace(r[0]) && !IsSpace(r[|r| - 1])
    ensures |r| == 0 <==> AllSpace(s)
  {
    var b := i + |r|;
    assert forall k :: 0 <= k < i ==> s[..i][k] == s[k];
    assert forall k :: 0 <= k < |s| - b ==> s[b..][k] == s[b + k];
    if |r| > 0 {
      assert r[0] == s[i] && r[|r| - 1] == s[b - 1];
      assert !AllSpace(s) by { assert !IsSpace(s[i]); }
    } else {
      assert i == |s|;
    }
  }

  /** The trim of `s` is `s[i..j]` when whitespace is all that lies outside
      it and it begins and ends with non-whitespace. */
  lemma TrimOf(s: string, i: nat, j: nat)
    requires i < j <= |s|
    requires forall k :: 0 <= k < i ==> IsSpace(s[k])
    requires forall k :: j <= k < |s| ==> IsSpace(s[k])
    requires !IsSpace(s[i]) && !IsSpace(s[j - 1])
    ensures Trim(s) == s[i..j]
  {
    TrimScans(s, i, j);
    assert s[i..][..j - i] == s[i..j];
  }

  /** The two scans of `Trim` stop at `i` and at `j`. */
  lemma TrimScans(s: string, i: nat, j: nat)
    requires i < j <= |s|
    requires forall k :: 0 <= k < i ==> IsSpace(s[k])
    requires forall k :: j <= k < |s| ==> IsSpace(s[k])
    requires !IsSpace(s[i]) && !IsSpace(s[j - 1])
    ensures LeadingSpaces(s) == i
    ensures TrailingSpaces(s[i..]) == |s| - j
  {
    SameLeading(s, LeadingSpaces(s), i);
    var rest := s[i..];
    assert forall k :: 0 <= k < |rest| ==> rest[k] == s[i + k];
    SameTrailing(rest, TrailingSpaces(rest), |s| - j);
  }

  /** Two lengths of an all-`\s` prefix that each end at non-whitespace
      are the same. */
  lemma SameLeading(s: string, l: nat, i: nat)
    requires l <= |s| && i < |s|
    requires forall k :: 0 <= k < l ==> IsSpace(s[k])
    requires l < |s| ==> !IsSpace(s[l])
    requires forall k :: 0 <= k < i ==> IsSpace(s[k])
    requires !IsSpace(s[i])
    ensures l == i
  {
  }

  /** The same for all-`\s` suffixes. */
  lemma SameTrailing(s: string, t: nat, u: nat)
    requires t <= |s| && u < |s|
    requires forall k :: |s| - t <= k < |s| ==> IsSpace(s[k])
    requires t < |s| ==> !IsSpace(s[|s| - t - 1])
    requires forall k :: |s| - u <= k < |s| ==> IsSpace(s[k])
    requires !IsSpace(s[|s| - u - 1])
    ensures t == u
  {
  }

  /** `s.split(c)` for a one-character separator: the maximal `c`-free pieces,
      always at least one. */
  function Split(s: string, c: char): (parts: seq<string>)
    decreases |s|
    ensures |parts| >= 1
    ensures forall k :: 0 <= k < |parts| ==> c !in parts[k]
  {
    match IndexOf(s, c)
    case None => [s]
    case Some(i) => [s[..i]] + Split(s[i + 1..], c)
  }

  /** `parts.join(c)`. */
  function Join(parts: seq<string>, c: char): string
  {
    if |parts| == 0 then ""
    else if |parts| == 1 then parts[0]
    else parts[0] + [c] + Join(parts[1..], c)
  }

  /** Joining the pieces of a split with the same separator gives back the
      original string. */
  lemma {:induction false} JoinSplit(s: string, c: char)
    decreases |s|
    ensures Join(Split(s, c), c) == s
  {
    match IndexOf(s, c)
    case None =>
    case Some(i) =>
      var rest := s[i + 1..];
      assert Split(s, c) == [s[..i]] + Split(rest, c);
      JoinSplit(rest, c);
      JoinCons(s[..i], Split(rest, c), c);
      Reassemble(s, i);
  }

  /** Joining a piece in front of a non-empty list puts one separator
      between it and the join of the rest. */
  lemma JoinCons(x: string, parts: seq<string>, c: char)
    requires |parts| >= 1
    ensures Join([x] + parts, c) == x + [c] + Join(parts, c)
  {
    assert ([x] + parts)[1..] == parts;
  }

  /** A string is its part before `i`, the character at `i` and its part
      after `i`. */
  lemma Reassemble(s: string, i: nat)
    requires i < |s|
    ensures s == s[..i] + [s[i]] + s[i + 1..]
  {
  }

  /** In `p + [c] + t` with `c` not in `p`, the first `c` is the one after
      `p`. */
  lemma FirstSeparator(p: string, c: char, t: string)
    requires c !in p
    ensures IndexOf(p + [c] + t, c) == Some(|p|)
    ensures (p + [c] + t)[..|p|] == p && (p + [c] + t)[|p| + 1..] == t
  {
    var s := p + [c] + t;
    assert s[|p|] == c;
    assert forall k :: 0 <= k < |p| ==> s[k] == p[k];
  }

  /** Splitting a join of `c`-free pieces gives the pieces back. */
  lemma {:induction false} SplitJoin(parts: seq<string>, c: char)
    requires |parts| >= 1
    requires forall k :: 0 <= k < |parts| ==> c !in parts[k]
    ensures Split(Join(parts, c), c) == parts
    decreases |parts|
  {
    if |parts| == 1 {
      assert IndexOf(parts[0], c).None?;
    } else {
      var p := parts[0];
      var rest := parts[1..];
      assert parts == [p] + rest;
      JoinCons(p, rest, c);
      FirstSeparator(p, c, Join(rest, c));
      assert Split(Join(parts, c), c) == [p] + Split(Join(rest, c), c);
      SplitJoin(rest, c);
    }
  }
}

=== FILE: chat_input.dfy ===
/** The logic of the chat input component
    (src/renderer/components/ChatInput/ChatInput.tsx): which model name is in
    effect and how it splits into provider and model, the provider filter,
    what a provider or model change stores, the send button's guard, and the
    mode prefix the text area hides from the user. The requests to the main
    process are left out; their answers are parameters. */
module ChatInput {
  import opened Wrappers
  import opened Chars
  import opened InputState
  import InputHandlers

  /** `sessionConfigModel || modelName`: the session's own model wins when
      it is set and non-empty. */
  function EffectiveModelName(sessionConfigModel: Option<string>, modelName: Option<string>): (r: Option<string>)
    ensures Truthy(sessionConfigModel) ==> r == sessionConfigModel
    ensures !Truthy(sessionConfigModel) ==> r == modelName
  {
    if Truthy(sessionConfigModel) then sessionConfigModel else modelName
  }

  /** The provider and the model of a model name: the text before the first
      `/`, and everything after it. */
  function ParseModelName(name: Option<string>): (r: (string, string))
    ensures !Truthy(name) ==> r == ("", "")
    ensures Truthy(name) && '/' !in name.value ==> r == ("", name.value)
    ensures Truthy(name) && '/' in name.value ==> r.0 + "/" + r.1 == name.value && '/' !in r.0
  {
    if !Truthy(name) then ("", "")
    else
      var parts := Split(name.value, '/');
      SplitCount(name.value, '/');
      if |parts| >= 2 then
        JoinSplit(name.value, '/');
        assert parts == [parts[0]] + parts[1..];
        JoinCons(parts[0], parts[1..], '/');
        (parts[0], Join(parts[1..], '/'))
      else ("", name.value)
  }

  /** A string splits into more than one piece exactly when it holds the
      separator. */
  lemma SplitCount(s: string, c: char)
    ensures |Split(s, c)| >= 2 <==> c in s
  {
    match IndexOf(s, c)
    case None =>
    case Some(i) =>
  }

  /** What a provider change stores, `provider/modelId`, reads back as that
      provider and model, whenever the provider id has no `/`. */
  lemma ModelNameRoundTrip(provider: string, modelId: string)
    requires '/' !in provider
    ensures ParseModelName(Some(provider + "/" + modelId)) == (provider, modelId)
  {
    var s := provider + "/" + modelId;
    assert s[|provider|] == '/';
    assert forall k :: 0 <= k < |provider| ==> s[k] == provider[k];
    assert IndexOf(s, '/') == Some(|provider|);
    assert s[..|provider|] == provider;
    assert s[|provider| + 1..] == modelId;
    assert Split(s, '/') == [provider] + Split(modelId, '/');
    JoinSplit(modelId, '/');
  }

  datatype Provider = Provider(id: string, validEnvs: seq<string>, hasApiKey: bool)

  predicate Configured(p: Provider) {
    |p.validEnvs| > 0 || p.hasApiKey
  }

  /** The providers offered in the selector: those with a valid environment
      or an API key, in the order received. */
  function FilterProviders(ps: seq<Provider>): (r: seq<Provider>)
    ensures |r| <= |ps|
    ensures forall k :: 0 <= k < |r| ==> Configured(r[k]) && r[k] in ps
    ensures forall k :: 0 <= k < |ps| && Configured(ps[k]) ==> ps[k] in r
  {
    if |ps| == 0 then []
    else if Configured(ps[0]) then [ps[0]] + FilterProviders(ps[1..])
    else FilterProviders(ps[1..])
  }

  /** Filtering keeps order: filtering a concatenation concatenates the
      filtered parts. */
  lemma {:induction false} FilterAppend(a: seq<Provider>, b: seq<Provider>)
    decreases |a|
    ensures FilterProviders(a + b) == FilterProviders(a) + FilterProviders(b)
  {
    if |a| == 0 {
      assert a + b == b;
    } else {
      assert (a + b)[1..] == a[1..] + b;
      FilterAppend(a[1..], b);
    }
  }

  /** Filtering an already filtered list changes nothing. */
  lemma {:induction false} FilterIdempotent(ps: seq<Provider>)
    decreases |ps|
    ensures FilterProviders(FilterProviders(ps)) == FilterProviders(ps)
  {
    if |ps| > 0 {
      FilterIdempotent(ps[1..]);
      if Configured(ps[0]) {
        var rest := FilterProviders(ps[1..]);
        assert ([ps[0]] + rest)[1..] == rest;
      }
    }
  }

  /** Whether the component can reach the main process for a session: a
      request function, a working directory and a session id. */
  datatype Context = Context(hasRequest: bool, cwd: Option<string>, sessionId: Option<string>)

  predicate Connected(c: Context) {
    c.hasRequest && Truthy(c.cwd) && Truthy(c.sessionId)
  }

  /** `handleProviderChange`: for a different provider, the first of its
      models is selected and `provider/modelId` is stored as the session's
      model. Returns the selected model id and the stored value. */
  function ProviderChange(c: Context, current: string, newProvider: string, fetched: seq<string>): (r: Option<(string, string)>)
    ensures !Connected(c) || newProvider == current || |fetched| == 0 <==> r.None?
    ensures r.Some? ==> r.value.0 == fetched[0] && r.value.1 == newProvider + "/" + fetched[0]
  {
    if !Connected(c) || newProvider == current then None
    else if |fetched| > 0 then Some((fetched[0], newProvider + "/" + fetched[0]))
    else None
  }

  /** After a provider change the stored model names the new provider and
      its first model. */
  lemma ProviderChangeStoresParsable(c: Context, current: string, newProvider: string, fetched: seq<string>)
    requires '/' !in newProvider
    requires ProviderChange(c, current, newProvider, fetched).Some?
    ensures ParseModelName(Some(ProviderChange(c, current, newProvider, fetched).value.1)) == (newProvider, fetched[0])
  {
    ModelNameRoundTrip(newProvider, fetched[0]);
  }

  /** The answer to the model-info request after a model change. */
  datatype ModelInfo = WithThinking | WithoutThinking | NoModelInfo | InfoFailed

  /** `handleModelChange`: the stored value is the chosen provider (or the
      current one) and the model; thinking is switched on at the lowest level
      exactly when the model supports it. Without a connection nothing
      happens. */
  function ModelChange(c: Context, providerValue: Option<string>, current: string, newModel: string,
                       info: ModelInfo): (r: Option<(string, bool, Option<ThinkingLevel>)>)
    ensures !Connected(c) <==> r.None?
    ensures r.Some? ==> r.value.0 == Or(providerValue, current) + "/" + newModel
    ensures r.Some? ==> (r.value.1 <==> info == WithThinking)
    ensures r.Some? ==> (r.value.1 <==> r.value.2.Some?)
    ensures r.Some? && r.value.1 ==> r.value.2 == Some(Low)
  {
    if !Connected(c) then None
    else
      var stored := Or(providerValue, current) + "/" + newModel;
      if info == WithThinking then Some((stored, true, Some(Low))) else Some((stored, false, None))
  }

  /** `canSend`: the text has a non-whitespace character. */
  function CanSend(value: string): (r: bool)
    ensures r <==> !AllSpace(value)
  {
    |Trim(value)| > 0
  }

  /** `handleSendClick`: dispatch an Enter only when there is something to
      send, the input is enabled or busy (the handler then warns), and no
      suggestion list is open. */
  function SendClick(value: string, disabled: bool, isProcessing: bool, suggestionVisible: bool): (r: bool)
    ensures r <==> !AllSpace(value) && (!disabled || isProcessing) && !suggestionVisible
  {
    CanSend(value) && (!disabled || isProcessing) && !suggestionVisible
  }

  /** A click that dispatches always gets past the blank-text and open-list
      checks of the submit handler: it submits, or it is stopped only by
      processing, plan mode or the input mode. */
  lemma ClickReachesSubmit(value: string, disabled: bool, isProcessing: bool,
                           planMode: PlanMode, mode: InputHandlers.InputMode)
    requires SendClick(value, disabled, isProcessing, false)
    ensures var d := InputHandlers.SubmitDecision(isProcessing, false, false, value, planMode, mode);
      d.Submitted? || d == InputHandlers.Busy || d == InputHandlers.PlanNotImplemented
      || d == InputHandlers.ModeNotImplemented
  {
  }

  function ModePrefix(mode: InputHandlers.InputMode): string {
    match mode
    case BashMode => "!"
    case MemoryMode => "#"
    case PromptMode => ""
  }

  /** `displayValue`: in bash and memory mode the text area hides the first
      character, the mode's marker. */
  function DisplayValue(mode: InputHandlers.InputMode, value: string): (r: string)
    ensures mode == InputHandlers.PromptMode ==> r == value
    ensures mode != InputHandlers.PromptMode ==> r == Drop(value, 1)
  {
    if mode != InputHandlers.PromptMode then Drop(value, 1) else value
  }

  /** `handleChange`: what the user typed in the text area gets the mode's
      marker back in front. */
  function HandleChange(mode: InputHandlers.InputMode, typed: string): (r: string)
    ensures r == ModePrefix(mode) + typed
    ensures mode != InputHandlers.PromptMode ==> |r| == |typed| + 1
  {
    if mode == InputHandlers.BashMode then "!" + typed
    else if mode == InputHandlers.MemoryMode then "#" + typed
    else typed
  }

  /** Showing and typing back are inverse: what is typed is shown as typed,
      and a value that begins with its mode's marker survives being shown
      and handed back. */
  lemma DisplayRoundTrip(mode: InputHandlers.InputMode, typed: string, value: string)
    ensures DisplayValue(mode, HandleChange(mode, typed)) == typed
    ensures (mode == InputHandlers.PromptMode || (|value| > 0 && [value[0]] == ModePrefix(mode))) ==>
      HandleChange(mode, DisplayValue(mode, value)) == value
  {
    if mode != InputHandlers.PromptMode && |value| > 0 && [value[0]] == ModePrefix(mode) {
      assert value == [value[0]] + value[1..];
    }
  }
}

=== FILE: file_suggestion.dfy ===
/** The file-suggestion hook (src/renderer/hooks/useFileSuggestion.ts): the
    query under the cursor, taken from an `@`-token or, when Tab forced it,
    from the word before the cursor; the filtering of search results; the
    quoting of the selected path; and the rule that only the latest search
    request may update the results. The search itself is a call into the
    main process and appears here only as its response. */
module FileSuggestion {
  import opened Wrappers
  import opened Chars
  import TokenUtils

  datatype Trigger = AtTrigger | TabTrigger

  datatype MatchResult = MatchResult(
    hasQuery: bool,
    fullMatch: string,
    query: string,
    startIndex: int,
    trigger: Option<Trigger>)

  /** The result both matchers give when they find nothing. */
  const NoMatch: MatchResult := MatchResult(false, "", "", -1, None)

  /** A query that starts with `"` loses that quote and at most one closing
      quote at its end; any other query is kept. */
  function Unquote(q: string): (r: string)
    ensures !StartsWith(q, '"') ==> r == q
    ensures StartsWith(q, '"') ==> r == q[1..] || r + "\"" == q[1..]
    ensures StartsWith(q, '"') && r != q[1..] ==> EndsWith(q[1..], '"')
  {
    if StartsWith(q, '"') then
      var rest := q[1..];
      if EndsWith(rest, '"') then rest[..|rest| - 1] else rest
    else q
  }

  /** `atMatch`: the `@`-token under the cursor, with the query being the
      text from after the `@` up to the cursor, unquoted. With the cursor on
      the `@` itself, `substring` swaps its arguments and the query is the
      `@`. */
  function AtMatch(value: string, cursor: nat): (m: MatchResult)
    ensures m.hasQuery <==> TokenUtils.FindAtTokenAtCursor(value, cursor).Some?
    ensures !m.hasQuery ==> m == NoMatch
    ensures m.hasQuery ==>
      && m.trigger == Some(AtTrigger)
      && 0 <= m.startIndex <= cursor <= |value|
      && m.startIndex < |value| && value[m.startIndex] == '@'
      && m.startIndex + |m.fullMatch| <= |value|
      && m.fullMatch == value[m.startIndex..m.startIndex + |m.fullMatch|]
      && cursor <= m.startIndex + |m.fullMatch|
    ensures m.hasQuery && m.startIndex < cursor ==> m.query == Unquote(value[m.startIndex + 1..cursor])
    ensures m.hasQuery && m.startIndex == cursor ==> m.query == "@"
  {
    match TokenUtils.FindAtTokenAtCursor(value, cursor)
    case None => NoMatch
    case Some(t) =>
      var raw := Substring(value, t.startIndex + 1, cursor);
      assert t.startIndex == cursor ==> raw == value[t.startIndex..t.startIndex + 1];
      MatchResult(true, t.fullMatch, Unquote(raw), t.startIndex, Some(AtTrigger))
  }

  /** `/@[^\s]*$/` matches `s`: some `@` is followed only by non-whitespace
      up to the end. */
  ghost predicate EndsWithAtWord(s: string) {
    exists p :: 0 <= p < |s| && s[p] == '@' && forall k :: p < k < |s| ==> !IsSpace(s[k])
  }

  /** `tabMatch`: only when Tab forced it, the non-whitespace word ending at
      the cursor, unless it is empty or an `@` word ends there. */
  function TabMatch(value: string, cursor: nat, force: bool): (m: MatchResult)
    ensures !force ==> m == NoMatch
    ensures !m.hasQuery ==> m == NoMatch
    ensures force ==> (m.hasQuery <==>
      var before := Take(value, cursor);
      |before| > 0 && !IsSpace(before[|before| - 1]) && !EndsWithAtWord(before))
    ensures m.hasQuery ==>
      && m.trigger == Some(TabTrigger)
      && m.fullMatch == m.query && |m.query| > 0
      && 0 <= m.startIndex && m.startIndex + |m.query| == Min(cursor, |value|)
      && value[m.startIndex..m.startIndex + |m.query|] == m.query
      && NoSpace(m.query) && '@' !in m.query
      && (m.startIndex == 0 || IsSpace(value[m.startIndex - 1]))
  {
    if !force then NoMatch
    else
      var before := Take(value, cursor);
      var w := TrailingWord(before);
      var word := before[|before| - w..];
      AtWordIff(before, w);
      assert w > 0 <==> |before| > 0 && !IsSpace(before[|before| - 1]);
      if w == 0 || Contains(word, '@') then NoMatch
      else
        ContainsIff(word, '@');
        MatchResult(true, word, word, |before| - w, Some(TabTrigger))
  }

  /** Searching the trailing word for `@` decides the `/@[^\s]*$/` test. */
  lemma AtWordIff(s: string, w: nat)
    requires w == TrailingWord(s)
    ensures Contains(s[|s| - w..], '@') <==> EndsWithAtWord(s)
  {
    var word := s[|s| - w..];
    ContainsIff(word, '@');
    SuffixHasAt(s, w, word);
    assert Contains(word, '@') <==> exists j :: |s| - w <= j < |s| && s[j] == '@';
    AtWordIndexed(s, w);
  }

  lemma SuffixHasAt(s: string, w: nat, word: string)
    requires w <= |s| && word == s[|s| - w..]
    ensures (exists j :: 0 <= j < |word| && word[j] == '@')
        <==> (exists j :: |s| - w <= j < |s| && s[j] == '@')
  {
    if j :| 0 <= j < |word| && word[j] == '@' {
      assert s[|s| - w + j] == '@';
    }
    if j :| |s| - w <= j < |s| && s[j] == '@' {
      assert word[j - (|s| - w)] == '@';
    }
  }

  lemma AtWordIndexed(s: string, w: nat)
    requires w <= |s| && forall k :: |s| - w <= k < |s| ==> !IsSpace(s[k])
    requires w < |s| ==> IsSpace(s[|s| - w - 1])
    ensures (exists j :: |s| - w <= j < |s| && s[j] == '@') <==> EndsWithAtWord(s)
  {
    if exists j :: |s| - w <= j < |s| && s[j] == '@' {
      AtInWordEnds(s, w);
    }
    if EndsWithAtWord(s) {
      AtEndsInWord(s, w);
    }
  }

  lemma AtInWordEnds(s: string, w: nat)
    requires w <= |s| && forall k :: |s| - w <= k < |s| ==> !IsSpace(s[k])
    requires exists j :: |s| - w <= j < |s| && s[j] == '@'
    ensures EndsWithAtWord(s)
  {
    var j :| |s| - w <= j < |s| && s[j] == '@';
    assert forall k :: j < k < |s| ==> !IsSpace(s[k]);
  }

  lemma AtEndsInWord(s: string, w: nat)
    requires w <= |s| && (w < |s| ==> IsSpace(s[|s| - w - 1]))
    requires EndsWithAtWord(s)
    ensures exists j :: |s| - w <= j < |s| && s[j] == '@'
  {
    var p :| 0 <= p < |s| && s[p] == '@' && forall k :: p < k < |s| ==> !IsSpace(s[k]);
    AtInsideWord(s, w, p);
  }

  /** An `@` followed only by non-whitespace lies inside the trailing word:
      the whitespace that bounds the word cannot come after it. */
  lemma AtInsideWord(s: string, w: nat, p: nat)
    requires w <= |s| && (w < |s| ==> IsSpace(s[|s| - w - 1]))
    requires p < |s| && s[p] == '@' && forall k :: p < k < |s| ==> !IsSpace(s[k])
    ensures p >= |s| - w
  {
  }

  /** `activeMatch`: the `@`-token wins over the Tab word. */
  function ActiveMatch(value: string, cursor: nat, force: bool): (m: MatchResult)
    ensures AtMatch(value, cursor).hasQuery ==> m == AtMatch(value, cursor)
    ensures !AtMatch(value, cursor).hasQuery ==> m == TabMatch(value, cursor, force)
    ensures m.hasQuery ==> m.trigger.Some?
  {
    var at := AtMatch(value, cursor);
    if at.hasQuery then at else TabMatch(value, cursor, force)
  }

  /** With an `@`-token under the cursor the Tab flag makes no difference;
      without one and without the flag there is no query at all. */
  lemma AtPrecedence(value: string, cursor: nat, force: bool)
    ensures TokenUtils.FindAtTokenAtCursor(value, cursor).Some? ==>
      ActiveMatch(value, cursor, force) == ActiveMatch(value, cursor, !force)
      && ActiveMatch(value, cursor, force).trigger == Some(AtTrigger)
    ensures TokenUtils.FindAtTokenAtCursor(value, cursor).None? && !force ==>
      ActiveMatch(value, cursor, force) == NoMatch
  {
  }

  /** `matchedPaths`: nothing without a query, nothing when the only result
      is the query itself, otherwise the results as they came. */
  function MatchedPaths(active: MatchResult, paths: seq<string>): (r: seq<string>)
    ensures r == [] || r == paths
    ensures !active.hasQuery ==> r == []
    ensures active.hasQuery ==> (r == [] <==> paths == [] || paths == [active.query])
  {
    if !active.hasQuery then []
    else if |paths| == 1 && paths[0] == active.query then []
    else paths
  }

  /** `getSelected`: nothing selected (or an empty path) gives `""`; a path
      with a space is wrapped in double quotes. */
  function GetSelected(selected: Option<string>): (r: string)
    ensures !Truthy(selected) <==> r == ""
    ensures Truthy(selected) && ' ' in selected.value ==> r == "\"" + selected.value + "\""
    ensures Truthy(selected) && ' ' !in selected.value ==> r == selected.value
  {
    if !Truthy(selected) then ""
    else if ' ' in selected.value then "\"" + selected.value + "\""
    else selected.value
  }

  /** Quoting and the at-query's unquoting are inverse: a quoted selection
      typed after `@` reads back as the path, and so does an unquoted one
      that does not itself begin with a quote. */
  lemma SelectedUnquotes(p: string)
    requires p != ""
    requires ' ' in p || !StartsWith(p, '"')
    ensures Unquote(GetSelected(Some(p))) == p
  {
    if ' ' in p {
      var q := "\"" + p + "\"";
      assert q[1..] == p + "\"";
      assert (p + "\"")[..|p|] == p;
    }
  }

  /** The search state: the latest issued request id, the results shown and
      the loading flag. */
  datatype Search = Search(latestId: nat, paths: seq<string>, isLoading: bool)

  const InitialSearch: Search := Search(0, [], false)

  datatype Response = Found(found: seq<string>) | SearchFailed

  /** The query-change effect: a query different from the last one seen
      clears the results. */
  function OnQueryChange(s: Search, lastQuery: string, query: string): (r: (Search, string))
    ensures r.1 == query
    ensures query != lastQuery ==> r.0 == s.(paths := [])
    ensures query == lastQuery ==> r.0 == s
  {
    if query != lastQuery then (s.(paths := []), query) else (s, lastQuery)
  }

  /** The search effect: with no query the results are cleared and nothing
      is requested; otherwise a request with the next id goes out and the
      state is loading. */
  function Issue(s: Search, hasQuery: bool): (r: (Search, Option<nat>))
    ensures !hasQuery ==> r.0 == s.(paths := []) && r.1 == None
    ensures hasQuery ==> r.1 == Some(r.0.latestId) && r.0.latestId > s.latestId
    ensures hasQuery ==> r.0.isLoading && r.0.paths == s.paths
  {
    if !hasQuery then (s.(paths := []), None)
    else
      var id := s.latestId + 1;
      (Search(id, s.paths, true), Some(id))
  }

  /** A response is applied only when its request is still the latest:
      results replace the shown paths, a failure keeps them, and either
      way loading stops. A stale response changes nothing. */
  function Receive(s: Search, id: nat, response: Response): (r: Search)
    ensures id != s.latestId ==> r == s
    ensures id == s.latestId ==> r.latestId == s.latestId && !r.isLoading
    ensures id == s.latestId && response.Found? ==> r.paths == response.found
    ensures id == s.latestId && response.SearchFailed? ==> r.paths == s.paths
  {
    if id != s.latestId then s
    else
      match response
      case Found(p) => s.(paths := p, isLoading := false)
      case SearchFailed => s.(isLoading := false)
  }

  /** Two searches in flight: whatever order their responses arrive in, the
      shown results are those of the later one and the earlier one's
      response is ignored. */
  lemma LatestWins(s: Search, first: Response, second: seq<string>)
    ensures
      var (s1, a) := Issue(s, true);
      var (s2, b) := Issue(s1, true);
      && a.Some? && b.Some? && a != b
      && Receive(s2, a.value, first) == s2
      && Receive(Receive(s2, a.value, first), b.value, Found(second)).paths == second
      && Receive(Receive(s2, b.value, Found(second)), a.value, first) == Receive(s2, b.value, Found(second))
  {
  }
}

=== FILE: input_handlers.dfy ===
/** The key and change handlers of the chat input
    (src/renderer/hooks/useInputHandlers.ts) over the state of the input
    hook: history navigation, splicing a file suggestion into the text, the
    gating of a submit, Tab, the editing keys and `onChange`. The slash-command
    list, the list navigation, the paste managers, the toast and the input
    mode come from hooks whose source is not part of this model; what the
    handlers read from them is passed in. */
module InputHandlers {
  import opened Wrappers
  import opened Chars
  import opened InputState
  import LineEditing
  import FileSuggestion

  /** The handler state: the input hook and the `forceTabTrigger` flag. */
  datatype Handlers = Handlers(hook: Hook, forceTab: bool)

  /** The history index names an entry of the history, or none. */
  predicate ValidIndex(h: Hook) {
    h.session.historyIndex.None? || h.session.historyIndex.value < |h.history|
  }

  /** `handleHistoryUp` without an open suggestion list: from the typed text
      to the newest entry (saving the text as the draft), then to older
      entries, stopping at the oldest; the cursor goes to the start. With an
      open list the arrow moves in the list instead, which leaves the input
      as it is. */
  function HistoryUp(h: Hook, hasSuggestions: bool): (r: Hook)
    requires ValidIndex(h)
    ensures hasSuggestions || |h.history| == 0 ==> r == h
    ensures r.history == h.history && r.sessionId == h.sessionId && r.workspaceId == h.workspaceId
    ensures !hasSuggestions && |h.history| > 0 ==> r.cursor == 0
    ensures !hasSuggestions && |h.history| > 0 && h.session.historyIndex.None? ==>
      && r.value == h.history[|h.history| - 1]
      && (HasSession(h) ==> r.session.historyIndex == Some(|h.history| - 1) && r.session.draftInput == h.value)
    ensures !hasSuggestions && h.session.historyIndex.Some? && h.session.historyIndex.value > 0 ==>
      && r.value == h.history[h.session.historyIndex.value - 1]
      && (HasSession(h) ==> r.session.historyIndex == Some(h.session.historyIndex.value - 1))
    ensures !hasSuggestions && h.session.historyIndex == Some(0) ==> r == h.(cursor := 0)
    ensures ValidIndex(r)
  {
    if hasSuggestions || |h.history| == 0 then h
    else
      var last := |h.history| - 1;
      match h.session.historyIndex
      case None =>
        var h1 := SetSessionInput(h, DraftPatch(h.value));
        var h2 := SetSessionInput(h1, HistoryIndexPatch(Some(last)));
        SetCursor(SetValue(h2, h.history[last]), 0)
      case Some(i) =>
        if i > 0 then
          var h1 := SetSessionInput(h, HistoryIndexPatch(Some(i - 1)));
          SetCursor(SetValue(h1, h.history[i - 1]), 0)
        else SetCursor(h, 0)
  }

  /** `handleHistoryDown` without an open suggestion list: from an entry to
      the next newer one, and from the newest back to the saved draft. Not
      navigating, it does nothing. */
  function HistoryDown(h: Hook, hasSuggestions: bool): (r: Hook)
    requires ValidIndex(h)
    ensures hasSuggestions || h.session.historyIndex.None? ==> r == h
    ensures r.history == h.history && r.sessionId == h.sessionId && r.cursor == h.cursor
    ensures !hasSuggestions && h.session.historyIndex == Some(|h.history| - 1) ==>
      && r.value == h.session.draftInput
      && (HasSession(h) ==> r.session.historyIndex == None)
    ensures !hasSuggestions && h.session.historyIndex.Some? && h.session.historyIndex.value < |h.history| - 1 ==>
      && r.value == h.history[h.session.historyIndex.value + 1]
      && (HasSession(h) ==> r.session.historyIndex == Some(h.session.historyIndex.value + 1))
    ensures ValidIndex(r)
  {
    if hasSuggestions then h
    else
      match h.session.historyIndex
      case None => h
      case Some(i) =>
        if i == |h.history| - 1 then
          SetValue(SetSessionInput(h, HistoryIndexPatch(None)), h.session.draftInput)
        else
          SetValue(SetSessionInput(h, HistoryIndexPatch(Some(i + 1))), h.history[i + 1])
  }

  /** Stepping into the history and straight back out restores the typed
      text and leaves history navigation. */
  lemma UpThenDownRestoresDraft(h: Hook)
    requires HasSession(h) && |h.history| > 0 && h.session.historyIndex.None?
    ensures HistoryDown(HistoryUp(h, false), false).value == h.value
    ensures HistoryDown(HistoryUp(h, false), false).session.historyIndex == None
  {
  }

  /** One step older and one step newer lands on the same entry again. */
  lemma UpThenDownReturns(h: Hook, i: nat)
    requires HasSession(h) && ValidIndex(h) && h.session.historyIndex == Some(i) && i > 0
    ensures HistoryDown(HistoryUp(h, false), false).session.historyIndex == Some(i)
    ensures HistoryDown(HistoryUp(h, false), false).value == h.history[i]
  {
  }

  /** The result of `applyFileSuggestion` before it is stored: the new value
      and cursor. */
  datatype Splice = Splice(value: string, cursor: nat)

  /** The text before the matched token, the inserted text up to and
      including its trailing space, and the text after the token, trimmed. */
  function Before(value: string, m: FileSuggestion.MatchResult): string {
    Substring(value, 0, m.startIndex)
  }

  function Prefix(m: FileSuggestion.MatchResult): string {
    if m.trigger == Some(FileSuggestion.AtTrigger) then "@" else ""
  }

  function Inserted(value: string, m: FileSuggestion.MatchResult, selected: string): string {
    Before(value, m) + Prefix(m) + selected + " "
  }

  function After(value: string, m: FileSuggestion.MatchResult): string {
    Trim(Substring(value, m.startIndex + |m.fullMatch|, |value|))
  }

  /** `applyFileSuggestion` as written: the token is replaced by the
      selection (after `@` for an at-trigger) and a space, the whole is
      trimmed, and the cursor is put after that space, counted before the
      trim. Nothing happens without a selection. */
  function SpliceAsWritten(value: string, m: FileSuggestion.MatchResult, selected: string): (r: Option<Splice>)
    ensures r.None? <==> selected == ""
    ensures r.Some? ==> r.value.cursor == |Inserted(value, m, selected)|
    ensures r.Some? ==> r.value.value == Trim(Inserted(value, m, selected) + After(value, m))
  {
    if selected == "" then None
    else Some(Splice(Trim(Inserted(value, m, selected) + After(value, m)), |Inserted(value, m, selected)|))
  }

  /** When nothing follows the token, the trim removes the space that the
      cursor was counted after: the cursor ends one past the end of the
      value. */
  lemma SpliceAsWrittenOvershoots()
    ensures SpliceAsWritten("@sr", SampleAtMatch, "src/a.ts") == Some(Splice("@src/a.ts", 10))
    ensures SpliceAsWritten("@sr", SampleAtMatch, "src/a.ts").value.cursor
          == |SpliceAsWritten("@sr", SampleAtMatch, "src/a.ts").value.value| + 1
  {
    SampleParts();
    SampleTrim();
  }

  lemma SampleTrim()
    ensures Trim("@src/a.ts " + "") == "@src/a.ts"
  {
    var ins := "@src/a.ts ";
    TrimOf(ins, 0, 9);
    assert ins[0..9] == "@src/a.ts";
    assert ins + "" == ins;
  }

  /** At the overshot cursor, Ctrl-H deletes nothing and only steps the
      cursor back onto the end. */
  lemma OvershotBackspaceDeletesNothing()
    ensures LineEditing.DeleteCharBackward(LineEditing.Editor("@src/a.ts", 10)) == LineEditing.Editor("@src/a.ts", 9)
  {
    assert Take("@src/a.ts", 9) == "@src/a.ts";
  }

  lemma SampleParts()
    ensures Inserted("@sr", SampleAtMatch, "src/a.ts") == "@src/a.ts "
    ensures After("@sr", SampleAtMatch) == ""
  {
    assert Before("@sr", SampleAtMatch) == "";
    assert Substring("@sr", 3, 3) == "";
  }

  /** Leading whitespace moves the as-written cursor too far right even
      when text follows: splicing `src/a.ts` into ` @sr x` stores the
      cursor at the end, after `x`, where the corrected splice puts it
      after the inserted space. */
  lemma SpliceLeadingSpace()
    ensures SpliceAsWritten(" @sr x", SampleLeadMatch, "src/a.ts") == Some(Splice("@src/a.ts x", 11))
    ensures SpliceSuggestion(" @sr x", SampleLeadMatch, "src/a.ts") == Some(Splice("@src/a.ts x", 10))
  {
    LeadParts();
    LeadTrim();
    SpliceExact(" @sr x", SampleLeadMatch, "src/a.ts");
  }

  lemma LeadParts()
    ensures Before(" @sr x", SampleLeadMatch) == " "
    ensures Inserted(" @sr x", SampleLeadMatch, "src/a.ts") == " @src/a.ts "
    ensures KeptBefore(" @sr x", SampleLeadMatch) == ""
    ensures After(" @sr x", SampleLeadMatch) == "x"
  {
    LeadBefore();
    LeadAfter();
  }

  lemma LeadBefore()
    ensures Before(" @sr x", SampleLeadMatch) == " "
    ensures KeptBefore(" @sr x", SampleLeadMatch) == ""
  {
    assert Before(" @sr x", SampleLeadMatch) == " ";
    assert LeadingSpaces(" ") == 1;
  }

  lemma LeadAfter()
    ensures After(" @sr x", SampleLeadMatch) == "x"
  {
    assert Substring(" @sr x", 4, 6) == " x";
    TrimOf(" x", 1, 2);
    assert " x"[1..2] == "x";
  }

  lemma LeadTrim()
    ensures Trim(" @src/a.ts " + "x") == "@src/a.ts x"
  {
    var s := " @src/a.ts x";
    assert " @src/a.ts " + "x" == s;
    TrimOf(s, 1, 12);
    assert s[1..12] == "@src/a.ts x";
  }

  /** The at-match for the input ` @sr x` with the cursor after `@sr`. */
  const SampleLeadMatch: FileSuggestion.MatchResult :=
    FileSuggestion.MatchResult(true, "@sr", "sr", 1, Some(FileSuggestion.AtTrigger))

  /** The at-match for the input `@sr` with the cursor at its end. */
  const SampleAtMatch: FileSuggestion.MatchResult :=
    FileSuggestion.MatchResult(true, "@sr", "sr", 0, Some(FileSuggestion.AtTrigger))

  /** `applyFileSuggestion` corrected: the cursor stands right after the
      inserted separator in the trimmed value. It moves left by the
      whitespace the trim removes in front, and where the trim has removed
      the separator itself it stops at the end. */
  function SpliceSuggestion(value: string, m: FileSuggestion.MatchResult, selected: string): (r: Option<Splice>)
    ensures r.None? <==> selected == ""
    ensures r.Some? ==> r.value.value == SpliceAsWritten(value, m, selected).value.value
    ensures r.Some? ==> r.value.cursor <= |r.value.value|
    ensures r.Some? ==> r.value.cursor <= SpliceAsWritten(value, m, selected).value.cursor
  {
    if selected == "" then None
    else Some(CorrectSplice(Inserted(value, m, selected), After(value, m)))
  }

  /** The corrected splice of the inserted text (the text before the token,
      the prefix, the selection and a space) and the trimmed text after the
      token: the cursor stands after the inserted text once the trim has
      removed the whitespace in front, and at most at the end. */
  function CorrectSplice(ins: string, after: string): (r: Splice)
    ensures r.value == Trim(ins + after)
    ensures r.cursor <= |r.value| && r.cursor <= |ins|
  {
    var lead := LeadingSpaces(ins + after);
    var v := Trim(ins + after);
    Splice(v, Min(if lead <= |ins| then |ins| - lead else 0, |v|))
  }

  /** The text before the token without the whitespace it begins with. */
  function KeptBefore(value: string, m: FileSuggestion.MatchResult): (r: string)
    ensures r == "" || !IsSpace(r[0])
    ensures exists l :: 0 <= l <= |Before(value, m)| && r == Before(value, m)[l..]
  {
    var b := Before(value, m);
    b[LeadingSpaces(b)..]
  }

  /** With a word-bounded selection the corrected splice is exactly: the
      text before the token without its leading whitespace, the prefix, the
      selection, and then a space and the rest of the text if there is any.
      The cursor stands after that space, or at the end when nothing
      follows. */
  lemma SpliceExact(value: string, m: FileSuggestion.MatchResult, selected: string)
    requires selected != "" && !IsSpace(selected[0]) && !IsSpace(selected[|selected| - 1])
    ensures After(value, m) != "" ==>
      SpliceSuggestion(value, m, selected)
        == Some(Splice(KeptBefore(value, m) + Prefix(m) + selected + " " + After(value, m),
                       |KeptBefore(value, m) + Prefix(m) + selected + " "|))
    ensures After(value, m) == "" ==>
      SpliceSuggestion(value, m, selected)
        == Some(Splice(KeptBefore(value, m) + Prefix(m) + selected, |KeptBefore(value, m) + Prefix(m) + selected|))
  {
    var b, p, rest := Before(value, m), Prefix(m), After(value, m);
    WordBounds(p, selected);
    assert rest == "" || !IsSpace(rest[|rest| - 1]);
    CorrectSpliceExact(b, p, selected, rest);
    assert SpliceSuggestion(value, m, selected) == Some(CorrectSplice(b + p + selected + " ", rest));
  }

  /** The prefix and the selection together are bounded by
      non-whitespace. */
  lemma WordBounds(p: string, selected: string)
    requires p == "" || p == "@"
    requires selected != "" && !IsSpace(selected[0]) && !IsSpace(selected[|selected| - 1])
    ensures var w := p + selected; |w| > 0 && !IsSpace(w[0]) && !IsSpace(w[|w| - 1])
  {
    var w := p + selected;
    assert w[|w| - 1] == selected[|selected| - 1];
    assert w[0] == if p == "" then selected[0] else '@';
  }

  /** `CorrectSplice` on a word-bounded insertion and a trimmed rest. */
  lemma CorrectSpliceExact(b: string, p: string, selected: string, rest: string)
    requires |p + selected| > 0 && !IsSpace((p + selected)[0]) && !IsSpace((p + selected)[|p + selected| - 1])
    requires rest == "" || !IsSpace(rest[|rest| - 1])
    ensures rest != "" ==>
      CorrectSplice(b + p + selected + " ", rest)
        == Splice(b[LeadingSpaces(b)..] + p + selected + " " + rest, |b[LeadingSpaces(b)..] + p + selected + " "|)
    ensures rest == "" ==>
      CorrectSplice(b + p + selected + " ", rest)
        == Splice(b[LeadingSpaces(b)..] + p + selected, |b[LeadingSpaces(b)..] + p + selected|)
  {
    if rest != "" {
      ExactWithRest(b, p, selected, rest);
    } else {
      ExactAtEnd(b, p, selected);
    }
  }

  /** With text after the token the trim only cuts the leading whitespace
      of `b`. */
  lemma ExactWithRest(b: string, p: string, selected: string, rest: string)
    requires |p + selected| > 0 && !IsSpace((p + selected)[0]) && !IsSpace((p + selected)[|p + selected| - 1])
    requires rest != "" && !IsSpace(rest[|rest| - 1])
    ensures CorrectSplice(b + p + selected + " ", rest)
        == Splice(b[LeadingSpaces(b)..] + p + selected + " " + rest, |b[LeadingSpaces(b)..] + p + selected + " "|)
  {
    var l := LeadingSpaces(b);
    var ins := b + p + selected + " ";
    ShapeWithRest(b, p, selected, rest, l);
    SpliceAt(ins, rest, l, |ins + rest|);
    SliceFrom(b, p, selected, rest, l);
  }

  /** With nothing after the token the trim also cuts the inserted space. */
  lemma ExactAtEnd(b: string, p: string, selected: string)
    requires |p + selected| > 0 && !IsSpace((p + selected)[0]) && !IsSpace((p + selected)[|p + selected| - 1])
    ensures CorrectSplice(b + p + selected + " ", "")
        == Splice(b[LeadingSpaces(b)..] + p + selected, |b[LeadingSpaces(b)..] + p + selected|)
  {
    var l := LeadingSpaces(b);
    var ins := b + p + selected + " ";
    ShapeAtEnd(b, p, selected, l);
    SpliceAtEnd(ins, l);
    SliceAtEnd(b, p, selected, l);
  }

  /** The whitespace of `s` lies only before `l` and from `j` on, and the
      characters at `l` and `j - 1` are not whitespace. */
  ghost predicate Framed(s: string, l: nat, j: nat) {
    && l < j <= |s|
    && (forall k :: 0 <= k < l ==> IsSpace(s[k]))
    && (forall k :: j <= k < |s| ==> IsSpace(s[k]))
    && !IsSpace(s[l]) && !IsSpace(s[j - 1])
  }

  /** On a framed string `CorrectSplice` keeps what the frame encloses and
      moves the cursor left by the whitespace in front. */
  lemma SpliceAt(ins: string, after: string, l: nat, j: nat)
    requires Framed(ins + after, l, j) && l <= |ins|
    ensures CorrectSplice(ins, after) == Splice((ins + after)[l..j], Min(|ins| - l, j - l))
  {
    SameLeading(ins + after, LeadingSpaces(ins + after), l);
    TrimOf(ins + after, l, j);
  }

  /** `SpliceAt` with nothing after the inserted text. */
  lemma SpliceAtEnd(ins: string, l: nat)
    requires |ins| > 0 && Framed(ins, l, |ins| - 1)
    ensures CorrectSplice(ins, "") == Splice(ins[l..|ins| - 1], |ins| - 1 - l)
  {
    assert ins + "" == ins;
    SpliceAt(ins, "", l, |ins| - 1);
  }

  /** Cutting the first `l` characters of `b + p + selected + " " + rest`
      cuts them from `b`. */
  lemma SliceFrom(b: string, p: string, selected: string, rest: string, l: nat)
    requires l <= |b|
    ensures var s := b + p + selected + " " + rest;
      s[l..|s|] == b[l..] + p + selected + " " + rest
  {
    var s := b + p + selected + " " + rest;
    assert s[l..|s|] == b[l..] + p + selected + " " + rest;
  }

  /** Cutting the first `l` characters and the final space of
      `b + p + selected + " "` leaves the rest of `b`, the prefix and the
      selection. */
  lemma SliceAtEnd(b: string, p: string, selected: string, l: nat)
    requires l <= |b|
    ensures var s := b + p + selected + " ";
      s[l..|s| - 1] == b[l..] + p + selected
  {
    var s := b + p + selected + " ";
    assert s[l..|s| - 1] == b[l..] + p + selected;
  }

  /** `b + p + selected + " " + rest` is framed by the leading whitespace
      `l` of `b` and its end. */
  lemma ShapeWithRest(b: string, p: string, selected: string, rest: string, l: nat)
    requires |p + selected| > 0 && !IsSpace((p + selected)[0]) && !IsSpace((p + selected)[|p + selected| - 1])
    requires l <= |b| && (forall k :: 0 <= k < l ==> IsSpace(b[k])) && (l < |b| ==> !IsSpace(b[l]))
    requires rest != "" && !IsSpace(rest[|rest| - 1])
    ensures Framed(b + p + selected + " " + rest, l, |b + p + selected + " " + rest|)
  {
    var w0 := p + selected;
    var s := b + p + selected + " " + rest;
    assert s == b + w0 + " " + rest;
    assert forall k :: 0 <= k < |b| ==> s[k] == b[k];
    assert s[|b|] == w0[0];
    assert s[|s| - 1] == rest[|rest| - 1];
  }

  /** `b + p + selected + " "` is framed by the leading whitespace `l` of
      `b` and the final space. */
  lemma ShapeAtEnd(b: string, p: string, selected: string, l: nat)
    requires |p + selected| > 0 && !IsSpace((p + selected)[0]) && !IsSpace((p + selected)[|p + selected| - 1])
    requires l <= |b| && (forall k :: 0 <= k < l ==> IsSpace(b[k])) && (l < |b| ==> !IsSpace(b[l]))
    ensures Framed(b + p + selected + " ", l, |b + p + selected + " "| - 1)
  {
    var w0 := p + selected;
    var s := b + p + selected + " ";
    assert s == b + w0 + " ";
    assert forall k :: 0 <= k < |b| ==> s[k] == b[k];
    assert s[|b|] == w0[0];
    assert s[|b| + |w0| - 1] == w0[|w0| - 1];
    assert s[|b| + |w0|] == ' ';
  }

  /** `applyFileSuggestion` on the handler state, as written: the trimmed
      value and the cursor counted before the trim are stored and the Tab
      flag is cleared; without a selection nothing changes. */
  function ApplyFileSuggestion(s: Handlers, m: FileSuggestion.MatchResult, selected: string): (r: Handlers)
    ensures selected == "" ==> r == s
    ensures selected != "" ==> !r.forceTab && r.hook.session == s.hook.session && r.hook.history == s.hook.history
    ensures selected != "" ==> r.hook.sessionId == s.hook.sessionId && r.hook.workspaceId == s.hook.workspaceId
    ensures selected != "" ==>
      && r.hook.value == Trim(Inserted(s.hook.value, m, selected) + After(s.hook.value, m))
      && r.hook.cursor == |Inserted(s.hook.value, m, selected)|
  {
    match SpliceAsWritten(s.hook.value, m, selected)
    case None => s
    case Some(sp) => Handlers(SetCursor(SetValue(s.hook, sp.value), sp.cursor), false)
  }

  /** The handler stores the overshooting cursor: after splicing `src/a.ts`
      into `@sr` the hook's cursor is one past the end of its value. */
  lemma HandlerOvershoots(s: Handlers)
    requires s.hook.value == "@sr"
    ensures ApplyFileSuggestion(s, SampleAtMatch, "src/a.ts").hook.value == "@src/a.ts"
    ensures ApplyFileSuggestion(s, SampleAtMatch, "src/a.ts").hook.cursor == 10
  {
    SpliceAsWrittenOvershoots();
  }

  /** `applyFileSuggestion` with the corrected cursor: the stored cursor is
      always within the stored value. */
  function ApplyFileSuggestionCorrected(s: Handlers, m: FileSuggestion.MatchResult, selected: string): (r: Handlers)
    ensures selected == "" ==> r == s
    ensures selected != "" ==> !r.forceTab && r.hook.session == s.hook.session && r.hook.history == s.hook.history
    ensures selected != "" ==> r.hook.value == ApplyFileSuggestion(s, m, selected).hook.value
    ensures selected != "" ==> r.hook.cursor <= |r.hook.value|
    ensures selected != "" ==> r.hook.cursor <= ApplyFileSuggestion(s, m, selected).hook.cursor
  {
    match SpliceSuggestion(s.hook.value, m, selected)
    case None => s
    case Some(sp) => Handlers(SetCursor(SetValue(s.hook, sp.value), sp.cursor), false)
  }

  /** The input mode, which the input derives from its first character
      through a helper that is not part of this model. */
  datatype InputMode = PromptMode | BashMode | MemoryMode

  /** What a press of Enter does, in the order `handleSubmit` checks. */
  datatype SubmitOutcome =
    | Busy                 // a message is still processing: a warning toast
    | CompleteCommand      // a slash-command list is open: complete it
    | ApplySuggestion      // a file list is open: splice the selection
    | Blank                // only whitespace: nothing
    | PlanNotImplemented   // plan mode: an info toast
    | ModeNotImplemented   // bash or memory mode: an info toast
    | Submitted(text: string)

  function SubmitDecision(isProcessing: bool, hasCommands: bool, hasPaths: bool,
                          value: string, planMode: PlanMode, mode: InputMode): (r: SubmitOutcome)
    ensures r.Submitted? <==>
      && !isProcessing && !hasCommands && !hasPaths
      && !AllSpace(value) && planMode != Plan && mode == PromptMode
    ensures r.Submitted? ==> r.text == Trim(value) && r.text != ""
    ensures isProcessing ==> r == Busy
  {
    if isProcessing then Busy
    else if hasCommands then CompleteCommand
    else if hasPaths then ApplySuggestion
    else if Trim(value) == "" then Blank
    else if planMode == Plan then PlanNotImplemented
    else if mode != PromptMode then ModeNotImplemented
    else Submitted(Trim(value))
  }

  /** What the image manager makes of a message: the message with its image
      references expanded and the images it refers to. */
  datatype Expansion = Expansion(message: string, images: seq<string>)

  /** What `handleSubmit` reads from hooks outside this model: whether a
      message is processing, the completed slash command when the command
      list is open, the file match, the selected path and whether the file
      list is open, the input mode, and the paste and image managers'
      expansions, which are not part of this model. */
  datatype SubmitContext = SubmitContext(
    isProcessing: bool,
    completedCommand: Option<string>,
    fileMatch: FileSuggestion.MatchResult,
    selected: string,
    hasPaths: bool,
    mode: InputMode,
    expandPaste: string -> string,
    expandImages: string -> Expansion)

  /** What `onSubmit` receives: the expanded message, and the images only
      when there are any. */
  datatype Outgoing = Outgoing(message: string, images: Option<seq<string>>)

  /** `handleSubmit`: the trimmed text goes to the history and the input is
      reset; the trimmed text with its pasted text and then its image
      references expanded goes out through `onSubmit`, returned here. */
  function HandleSubmit(s: Handlers, ctx: SubmitContext): (r: (Handlers, Option<Outgoing>))
    ensures r.1.Some? <==>
      SubmitDecision(ctx.isProcessing, ctx.completedCommand.Some?, ctx.hasPaths, s.hook.value, s.hook.session.planMode, ctx.mode).Submitted?
    ensures r.1.Some? ==>
      var e := ctx.expandImages(ctx.expandPaste(Trim(s.hook.value)));
      && r.1.value.message == e.message
      && (r.1.value.images.Some? <==> e.images != [])
      && (r.1.value.images.Some? ==> r.1.value.images.value == e.images)
    ensures r.1.Some? && HasSession(s.hook) && HasWorkspace(s.hook) ==>
      && r.0.hook.history == s.hook.history + [Trim(s.hook.value)]
      && r.0.hook.value == "" && r.0.hook.cursor == 0
      && r.0.hook.session == DefaultSessionInput
    ensures ctx.isProcessing ==> r.0 == s && r.1.None?
    ensures !ctx.isProcessing && ctx.completedCommand.Some? ==>
      && r.0.hook.value == ctx.completedCommand.value && r.0.hook.cursor == |ctx.completedCommand.value|
      && r.0.hook.session == s.hook.session && r.0.hook.history == s.hook.history
      && r.0.forceTab == s.forceTab && r.1.None?
    ensures !ctx.isProcessing && ctx.completedCommand.None? && ctx.hasPaths ==>
      r.0 == ApplyFileSuggestion(s, ctx.fileMatch, ctx.selected) && r.1.None?
    ensures (&& !ctx.isProcessing && ctx.completedCommand.None? && !ctx.hasPaths
             && (AllSpace(s.hook.value) || s.hook.session.planMode == Plan || ctx.mode != PromptMode)) ==>
      r.0 == s && r.1.None?
  {
    match SubmitDecision(ctx.isProcessing, ctx.completedCommand.Some?, ctx.hasPaths, s.hook.value, s.hook.session.planMode, ctx.mode)
    case CompleteCommand =>
      var c := ctx.completedCommand.value;
      (s.(hook := SetCursor(SetValue(s.hook, c), |c|)), None)
    case ApplySuggestion => (ApplyFileSuggestion(s, ctx.fileMatch, ctx.selected), None)
    case Submitted(t) =>
      var e := ctx.expandImages(ctx.expandPaste(t));
      (s.(hook := Reset(AddToHistory(s.hook, t))), Some(Outgoing(e.message, if |e.images| > 0 then Some(e.images) else None)))
    case _ => (s, None)
  }

  /** Submitting twice sends the text once: the reset input is blank. */
  lemma SubmitOnce(s: Handlers, ctx: SubmitContext)
    requires HasSession(s.hook)
    requires HandleSubmit(s, ctx).1.Some?
    ensures HandleSubmit(HandleSubmit(s, ctx).0, ctx).1.None?
  {
  }

  /** With a list open, Tab and Enter complete the slash command or splice
      the file suggestion in the same way. */
  lemma TabMatchesEnter(s: Handlers, ctx: SubmitContext)
    requires !ctx.isProcessing && (ctx.completedCommand.Some? || ctx.hasPaths)
    ensures TabKey(s, false, ctx.completedCommand, ctx.hasPaths, ctx.fileMatch, ctx.selected) == HandleSubmit(s, ctx).0
  {
  }

  /** Tab: with Shift it cycles the plan mode; with an open list it
      completes the command or splices the file; otherwise, on a non-blank
      input, it asks for a Tab match. */
  function TabKey(s: Handlers, shift: bool, completedCommand: Option<string>, hasPaths: bool,
                  m: FileSuggestion.MatchResult, selected: string): (r: Handlers)
    ensures shift ==> r == s.(hook := TogglePlanMode(s.hook))
    ensures !shift && completedCommand.Some? ==>
      && r.hook.value == completedCommand.value && r.hook.cursor == |completedCommand.value|
      && r.hook.session == s.hook.session && r.hook.history == s.hook.history
      && r.forceTab == s.forceTab
    ensures !shift && completedCommand.None? && hasPaths ==> r == ApplyFileSuggestion(s, m, selected)
    ensures !shift && completedCommand.None? && !hasPaths ==>
      r.hook == s.hook && (r.forceTab <==> s.forceTab || !AllSpace(s.hook.value))
  {
    if shift then s.(hook := TogglePlanMode(s.hook))
    else if completedCommand.Some? then
      var c := completedCommand.value;
      s.(hook := SetCursor(SetValue(s.hook, c), |c|))
    else if hasPaths then ApplyFileSuggestion(s, m, selected)
    else if Trim(s.hook.value) != "" then s.(forceTab := true)
    else s
  }

  /** The Ctrl and Meta editing keys act on the value and cursor only. */
  function EditKey(s: Handlers, k: LineEditing.EditKey): (r: Handlers)
    ensures r.forceTab == s.forceTab && r.hook.session == s.hook.session && r.hook.history == s.hook.history
    ensures s.hook.cursor <= |s.hook.value| ==> r.hook.cursor <= |r.hook.value|
    ensures LineEditing.Editor(r.hook.value, r.hook.cursor) == LineEditing.ApplyKey(LineEditing.Editor(s.hook.value, s.hook.cursor), k)
  {
    var e := LineEditing.ApplyKey(LineEditing.Editor(s.hook.value, s.hook.cursor), k);
    s.(hook := SetCursor(SetValue(s.hook, e.value), e.cursor))
  }

  /** The Ctrl keys that reach the input hook rather than the text. */
  datatype ControlKey = CtrlT | CtrlN | CtrlP

  /** Ctrl-T cycles the thinking level; Ctrl-N and Ctrl-P step through the
      history from any line, unlike the arrows. */
  function HookKey(s: Handlers, k: ControlKey, hasSuggestions: bool): (r: Handlers)
    requires ValidIndex(s.hook)
    ensures r.forceTab == s.forceTab
    ensures k == CtrlT ==> r.hook == ToggleThinking(s.hook)
    ensures k == CtrlN ==> r.hook == HistoryDown(s.hook, hasSuggestions)
    ensures k == CtrlP ==> r.hook == HistoryUp(s.hook, hasSuggestions)
    ensures ValidIndex(r.hook)
  {
    match k
    case CtrlT => s.(hook := ToggleThinking(s.hook))
    case CtrlN => s.(hook := HistoryDown(s.hook, hasSuggestions))
    case CtrlP => s.(hook := HistoryUp(s.hook, hasSuggestions))
  }

  /** Arrow keys go to the history only from the first (up) or last (down)
      line of the input, or when a list is open. Up with Alt or Meta held
      does nothing at all. */
  function ArrowUp(s: Handlers, altOrMeta: bool, hasSuggestions: bool): (r: Handlers)
    requires ValidIndex(s.hook)
    ensures altOrMeta ==> r == s
    ensures !hasSuggestions && !LineEditing.IsAtFirstLine(LineEditing.Editor(s.hook.value, s.hook.cursor)) ==> r == s
    ensures !altOrMeta && (hasSuggestions || LineEditing.IsAtFirstLine(LineEditing.Editor(s.hook.value, s.hook.cursor))) ==>
      r == s.(hook := HistoryUp(s.hook, hasSuggestions))
    ensures ValidIndex(r.hook)
  {
    if altOrMeta then s
    else if hasSuggestions || LineEditing.IsAtFirstLine(LineEditing.Editor(s.hook.value, s.hook.cursor)) then
      s.(hook := HistoryUp(s.hook, hasSuggestions))
    else s
  }

  /** Down has no Alt or Meta exception. */
  function ArrowDown(s: Handlers, hasSuggestions: bool): (r: Handlers)
    requires ValidIndex(s.hook)
    ensures !hasSuggestions && !LineEditing.IsAtLastLine(LineEditing.Editor(s.hook.value, s.hook.cursor)) ==> r == s
    ensures hasSuggestions || LineEditing.IsAtLastLine(LineEditing.Editor(s.hook.value, s.hook.cursor)) ==>
      r == s.(hook := HistoryDown(s.hook, hasSuggestions))
    ensures ValidIndex(r.hook)
  {
    if hasSuggestions || LineEditing.IsAtLastLine(LineEditing.Editor(s.hook.value, s.hook.cursor)) then
      s.(hook := HistoryDown(s.hook, hasSuggestions))
    else s
  }

  /** On single-line text, the up arrow and then the down arrow restore the
      typed text and leave history navigation, provided the newest entry is
      a single line too (from the first line of a longer entry the down
      arrow stays in the text). */
  lemma ArrowsRestoreDraft(s: Handlers)
    requires HasSession(s.hook) && |s.hook.history| > 0 && s.hook.session.historyIndex.None?
    requires !Contains(s.hook.value, '\n') && !Contains(s.hook.history[|s.hook.history| - 1], '\n')
    ensures ArrowDown(ArrowUp(s, false, false), false).hook.value == s.hook.value
    ensures ArrowDown(ArrowUp(s, false, false), false).hook.session.historyIndex == None
  {
    LineEditing.SingleLine(LineEditing.Editor(s.hook.value, s.hook.cursor));
    var u := ArrowUp(s, false, false);
    LineEditing.SingleLine(LineEditing.Editor(u.hook.value, u.hook.cursor));
    UpThenDownRestoresDraft(s.hook);
  }

  /** `onChange`: the typed text and caret are stored, history navigation
      ends, and the Tab flag drops once the text has an `@` or is blank. */
  function OnChange(s: Handlers, newValue: string, selectionStart: nat): (r: Handlers)
    ensures r.hook.value == newValue && r.hook.cursor == selectionStart
    ensures HasSession(s.hook) ==> r.hook.session.historyIndex == None
    ensures r.forceTab <==> s.forceTab && '@' !in newValue && !AllSpace(newValue)
    ensures ValidIndex(s.hook) ==> ValidIndex(r.hook)
  {
    var h := SetCursor(SetValue(s.hook, newValue), selectionStart);
    var h' := if s.hook.session.historyIndex.Some? then SetSessionInput(h, HistoryIndexPatch(None)) else h;
    ContainsIff(newValue, '@');
    var force := if Contains(newValue, '@') || Trim(newValue) == "" then false else s.forceTab;
    Handlers(h', force)
  }
}

=== FILE: input_state.dfy ===
/** The chat input's state hook (src/renderer/hooks/useInputState.ts): a
    local `(value, cursor)` pair plus the per-session entry of the store and
    the per-workspace history. Every write to the store goes through
    `SetSessionInput`, which does nothing unless a session is selected. */
module InputState {
  import opened Wrappers

  datatype PlanMode = Normal | Plan | Brainstorm

  datatype ThinkingLevel = Low | Medium | High

  /** The fields of the store's per-session input entry this hook reads and
      writes. */
  datatype SessionInput = SessionInput(
    historyIndex: Option<nat>,
    draftInput: string,
    planMode: PlanMode,
    thinking: Option<ThinkingLevel>,
    thinkingEnabled: bool,
    pastedTextMap: map<string, string>,
    pastedImageMap: map<string, string>)

  /** The store's default entry, used when there is no session. The store is
      not part of this model; these defaults are assumed. */
  const DefaultSessionInput: SessionInput :=
    SessionInput(None, "", Normal, None, false, map[], map[])

  /** The hook's view: the selected session and workspace ids, the local
      value and cursor, the session's store entry and the workspace history. */
  datatype Hook = Hook(
    sessionId: Option<string>,
    workspaceId: Option<string>,
    value: string,
    cursor: nat,
    session: SessionInput,
    history: seq<string>)

  /** `if (sessionId)`: the empty string counts as no session. */
  predicate HasSession(h: Hook) {
    h.sessionId.Some? && h.sessionId.value != ""
  }

  predicate HasWorkspace(h: Hook) {
    h.workspaceId.Some? && h.workspaceId.value != ""
  }

  /** One partial update `setSessionInput(sessionId, {...})` makes. */
  datatype Patch =
    | HistoryIndexPatch(index: Option<nat>)
    | DraftPatch(draft: string)
    | PlanModePatch(mode: PlanMode)
    | ThinkingPatch(level: Option<ThinkingLevel>)
    | ThinkingEnabledPatch(enabled: bool)
    | PastedTextPatch(texts: map<string, string>)
    | PastedImagePatch(images: map<string, string>)

  /** Merging a patch into an entry replaces exactly the patched field. */
  function Merge(s: SessionInput, p: Patch): SessionInput
  {
    match p
    case HistoryIndexPatch(i) => s.(historyIndex := i)
    case DraftPatch(d) => s.(draftInput := d)
    case PlanModePatch(m) => s.(planMode := m)
    case ThinkingPatch(l) => s.(thinking := l)
    case ThinkingEnabledPatch(b) => s.(thinkingEnabled := b)
    case PastedTextPatch(t) => s.(pastedTextMap := t)
    case PastedImagePatch(m) => s.(pastedImageMap := m)
  }

  /** The session-gated setter every store write of the hook goes through:
      `setHistoryIndex`, `setDraftInput`, `setThinkingEnabled`, `setThinking`,
      `setPastedTextMap` and `setPastedImageMap` are this with one patch. */
  function SetSessionInput(h: Hook, p: Patch): (r: Hook)
    ensures !HasSession(h) ==> r == h
    ensures HasSession(h) ==> r == h.(session := Merge(h.session, p))
  {
    if HasSession(h) then h.(session := Merge(h.session, p)) else h
  }

  /** `setValue`: the local value changes at once; the debounced copy into
      the store is not modelled. */
  function SetValue(h: Hook, v: string): (r: Hook)
    ensures r.value == v
    ensures r.cursor == h.cursor && r.session == h.session && r.history == h.history
    ensures r.sessionId == h.sessionId && r.workspaceId == h.workspaceId
  {
    h.(value := v)
  }

  function SetCursor(h: Hook, c: nat): (r: Hook)
    ensures r.cursor == c
    ensures r.value == h.value && r.session == h.session && r.history == h.history
    ensures r.sessionId == h.sessionId && r.workspaceId == h.workspaceId
  {
    h.(cursor := c)
  }

  /** `reset`: with a session, the local value and cursor go back to empty
      and the store entry to its default; without one, nothing happens. */
  function Reset(h: Hook): (r: Hook)
    ensures HasSession(h) ==> r.value == "" && r.cursor == 0 && r.session == DefaultSessionInput
    ensures HasSession(h) ==> r.history == h.history && r.sessionId == h.sessionId && r.workspaceId == h.workspaceId
    ensures !HasSession(h) ==> r == h
  {
    if HasSession(h) then h.(value := "", cursor := 0, session := DefaultSessionInput) else h
  }

  /** `addToHistory`: appends to the workspace history when a workspace is
      selected. The store's own history policy is not part of this model;
      appending is assumed. */
  function AddToHistory(h: Hook, input: string): (r: Hook)
    ensures HasWorkspace(h) ==> r.history == h.history + [input] && r == h.(history := r.history)
    ensures !HasWorkspace(h) ==> r == h
  {
    if HasWorkspace(h) then h.(history := h.history + [input]) else h
  }

  function NextPlanMode(m: PlanMode): PlanMode
  {
    match m
    case Normal => Plan
    case Plan => Brainstorm
    case Brainstorm => Normal
  }

  function NextThinking(t: Option<ThinkingLevel>): Option<ThinkingLevel>
  {
    match t
    case None => Some(Low)
    case Some(Low) => Some(Medium)
    case Some(Medium) => Some(High)
    case Some(High) => None
  }

  /** `togglePlanMode`: normal, plan, brainstorm, then normal again. */
  function TogglePlanMode(h: Hook): (r: Hook)
    ensures HasSession(h) ==> r == h.(session := h.session.(planMode := NextPlanMode(h.session.planMode)))
    ensures !HasSession(h) ==> r == h
  {
    SetSessionInput(h, PlanModePatch(NextPlanMode(h.session.planMode)))
  }

  /** `toggleThinking`: off, low, medium, high, then off again; only with a
      session and only when the model supports thinking. */
  function ToggleThinking(h: Hook): (r: Hook)
    ensures HasSession(h) && h.session.thinkingEnabled ==>
      r == h.(session := h.session.(thinking := NextThinking(h.session.thinking)))
    ensures !HasSession(h) || !h.session.thinkingEnabled ==> r == h
  {
    if HasSession(h) && h.session.thinkingEnabled then
      SetSessionInput(h, ThinkingPatch(NextThinking(h.session.thinking)))
    else h
  }

  /** The plan-mode cycle has length three: each mode comes back after
      three toggles and not before. */
  lemma PlanModeCycle(h: Hook)
    ensures TogglePlanMode(TogglePlanMode(TogglePlanMode(h))) == h
    ensures HasSession(h) ==> TogglePlanMode(h).session.planMode != h.session.planMode
    ensures HasSession(h) ==> TogglePlanMode(TogglePlanMode(h)).session.planMode != h.session.planMode
  {
  }

  /** The thinking cycle has length four. */
  lemma ThinkingCycle(h: Hook)
    ensures ToggleThinking(ToggleThinking(ToggleThinking(ToggleThinking(h)))) == h
    ensures HasSession(h) && h.session.thinkingEnabled ==>
      && ToggleThinking(h).session.thinking != h.session.thinking
      && ToggleThinking(ToggleThinking(h)).session.thinking != h.session.thinking
      && ToggleThinking(ToggleThinking(ToggleThinking(h))).session.thinking != h.session.thinking
  {
  }

  /** Without a session every store setter is a no-op; without a workspace
      `addToHistory` is. */
  lemma SettersNeedSession(h: Hook, p: Patch, input: string)
    ensures !HasSession(h) ==> SetSessionInput(h, p) == h && Reset(h) == h && TogglePlanMode(h) == h && ToggleThinking(h) == h
    ensures !HasWorkspace(h) ==> AddToHistory(h, input) == h
  {
  }

  /** A patch changes only its own field of the entry. */
  lemma MergeChangesOneField(s: SessionInput, p: Patch)
    ensures p.HistoryIndexPatch? ==> Merge(s, p).historyIndex == p.index
    ensures !p.HistoryIndexPatch? ==> Merge(s, p).historyIndex == s.historyIndex
    ensures !p.DraftPatch? ==> Merge(s, p).draftInput == s.draftInput
    ensures !p.PlanModePatch? ==> Merge(s, p).planMode == s.planMode
    ensures !p.ThinkingPatch? ==> Merge(s, p).thinking == s.thinking
    ensures !p.ThinkingEnabledPatch? ==> Merge(s, p).thinkingEnabled == s.thinkingEnabled
    ensures !p.PastedTextPatch? ==> Merge(s, p).pastedTextMap == s.pastedTextMap
    ensures !p.PastedImagePatch? ==> Merge(s, p).pastedImageMap == s.pastedImageMap
  {
  }
}

=== FILE: line_editing.dfy ===
/** The Emacs-style editing keys of the chat input (the Ctrl and Meta cases
    of `onKeyDown` in src/renderer/hooks/useInputHandlers.ts), as pure
    functions on a `(value, cursor)` pair. The regular expressions
    `\S+\s*$` and `^\s*\S+` are written as scans, and their meaning is
    stated separately (`WordRunAt`, `LeadingWordMatch`) so the scans can be
    checked against it. */
module LineEditing {
  import opened Wrappers
  import opened Chars

  datatype Editor = Editor(value: string, cursor: nat)

  /** `\S+\s*$` matches `s` from index `p` on: one or more non-whitespace
      characters, then only whitespace up to the end. */
  ghost predicate WordRunAt(s: string, p: nat) {
    exists m :: p < m <= |s| && RunAt(s, p, m)
  }

  /** `s[p..m]` is free of whitespace and `s[m..]` is all whitespace. */
  ghost predicate RunAt(s: string, p: nat, m: nat)
    requires p <= m <= |s|
  {
    && (forall k :: p <= k < m ==> !IsSpace(s[k]))
    && (forall k :: m <= k < |s| ==> IsSpace(s[k]))
  }

  /** `^\s*\S+` matches the first `n` characters of `s`: whitespace, then a
      non-empty run of non-whitespace that the greedy `\S+` takes whole. */
  ghost predicate LeadingWordMatch(s: string, n: nat) {
    && n <= |s|
    && (exists l :: 0 <= l < n && AllSpace(s[..l]) && NoSpace(s[l..n]))
    && (n == |s| || IsSpace(s[n]))
  }

  /** The length of the leftmost match of `\S+\s*$` in `before`, if any. */
  function WordBack(before: string): (n: Option<nat>)
    ensures n.None? <==> AllSpace(before)
    ensures n.Some? ==> 0 < n.value <= |before| && WordRunAt(before, |before| - n.value)
    ensures n.Some? ==> forall q :: 0 <= q < |before| - n.value ==> !WordRunAt(before, q)
  {
    var t := TrailingSpaces(before);
    var w := TrailingWord(before[..|before| - t]);
    WordBackFacts(before, t, w);
    if w == 0 then None else Some(w + t)
  }

  /** What the scan of `WordBack` finds, in terms of `WordRunAt`. */
  lemma WordBackFacts(before: string, t: nat, w: nat)
    requires t == TrailingSpaces(before)
    requires w == TrailingWord(before[..|before| - t])
    ensures w <= |before| - t
    ensures w == 0 <==> AllSpace(before)
    ensures w > 0 ==> WordRunAt(before, |before| - t - w)
    ensures w > 0 ==> forall q :: 0 <= q < |before| - t - w ==> !WordRunAt(before, q)
  {
    WordBeforeSpaces(before, t, w);
    if w == 0 {
      assert t == |before|;
    } else {
      assert !AllSpace(before) by { assert !IsSpace(before[|before| - t - 1]); }
      WordBackIsMatch(before, t, w);
      WordBackIsLeftmost(before, t, w);
    }
  }

  lemma WordBeforeSpaces(s: string, t: nat, w: nat)
    requires t <= |s|
    requires t < |s| ==> !IsSpace(s[|s| - t - 1])
    requires w == TrailingWord(s[..|s| - t])
    ensures w <= |s| - t
    ensures w == 0 <==> t == |s|
    ensures forall k :: |s| - t - w <= k < |s| - t ==> !IsSpace(s[k])
    ensures w < |s| - t ==> IsSpace(s[|s| - t - w - 1])
  {
    var head := s[..|s| - t];
    assert forall k :: 0 <= k < |head| ==> head[k] == s[k];
  }

  lemma WordBackIsMatch(before: string, t: nat, w: nat)
    requires t <= |before| && w <= |before| - t
    requires forall k :: |before| - t <= k < |before| ==> IsSpace(before[k])
    requires forall k :: |before| - t - w <= k < |before| - t ==> !IsSpace(before[k])
    requires w > 0
    ensures WordRunAt(before, |before| - t - w)
  {
    assert RunAt(before, |before| - t - w, |before| - t);
  }

  lemma WordBackIsLeftmost(before: string, t: nat, w: nat)
    requires t <= |before| && 0 < w <= |before| - t
    requires forall k :: |before| - t - w <= k < |before| - t ==> !IsSpace(before[k])
    requires w < |before| - t ==> IsSpace(before[|before| - t - w - 1])
    ensures forall q :: 0 <= q < |before| - t - w ==> !WordRunAt(before, q)
  {
    var p := |before| - t - w;
    forall q | 0 <= q < p ensures !WordRunAt(before, q) {
      // the character just before the word is whitespace and the word's
      // first character is not, so no single run can cover both
      assert IsSpace(before[p - 1]);
      assert !IsSpace(before[p]);
      forall m | q < m <= |before| ensures !RunAt(before, q, m) {
        if m > p - 1 {
          assert q <= p - 1 < m;
        } else {
          assert m <= p < |before|;
        }
      }
    }
  }

  /** The length of the match of `^\s*\S+` in `after`, if any. */
  function WordAhead(after: string): (n: Option<nat>)
    ensures n.None? <==> AllSpace(after)
    ensures n.Some? ==> 0 < n.value && LeadingWordMatch(after, n.value)
  {
    var l := LeadingSpaces(after);
    if l == |after| then
      assert after == after[..l];
      None
    else
      var e := SpaceFrom(after, l);
      assert forall k :: 0 <= k < l ==> after[..l][k] == after[k];
      assert forall k :: 0 <= k < e - l ==> after[l..e][k] == after[l + k];
      Some(e)
  }

  /** Ctrl-A: to the start of the input. */
  function LineStart(e: Editor): (r: Editor)
    ensures r.value == e.value && r.cursor == 0
  {
    e.(cursor := 0)
  }

  /** Ctrl-E: to the end of the input. */
  function LineEnd(e: Editor): (r: Editor)
    ensures r.value == e.value && r.cursor == |e.value|
  {
    e.(cursor := |e.value|)
  }

  /** Ctrl-F: one character right, never past the end. */
  function CharForward(e: Editor): (r: Editor)
    ensures r.value == e.value
    ensures e.cursor < |e.value| ==> r.cursor == e.cursor + 1
    ensures e.cursor >= |e.value| ==> r.cursor == e.cursor
    ensures e.cursor <= |e.value| ==> r.cursor <= |e.value|
  {
    if e.cursor < |e.value| then e.(cursor := e.cursor + 1) else e
  }

  /** Ctrl-B: one character left, never before the start. */
  function CharBackward(e: Editor): (r: Editor)
    ensures r.value == e.value
    ensures e.cursor > 0 ==> r.cursor == e.cursor - 1
    ensures e.cursor == 0 ==> r == e
  {
    if e.cursor > 0 then e.(cursor := e.cursor - 1) else e
  }

  /** Ctrl-D: delete the character under the cursor, if the input is not
      empty; the cursor stays. */
  function DeleteCharForward(e: Editor): (r: Editor)
    ensures r.cursor == e.cursor
    ensures e.cursor < |e.value| ==> r.value == e.value[..e.cursor] + e.value[e.cursor + 1..]
    ensures e.cursor >= |e.value| ==> r.value == e.value
  {
    if e.value != "" then e.(value := Take(e.value, e.cursor) + Drop(e.value, e.cursor + 1)) else e
  }

  /** Ctrl-H: delete the character before the cursor and step back; at the
      start, nothing. */
  function DeleteCharBackward(e: Editor): (r: Editor)
    ensures e.cursor == 0 ==> r == e
    ensures 0 < e.cursor <= |e.value| ==>
      && r.cursor == e.cursor - 1
      && r.value == e.value[..e.cursor - 1] + e.value[e.cursor..]
      && |r.value| == |e.value| - 1
  {
    if e.cursor > 0 then
      Editor(Take(e.value, e.cursor - 1) + Drop(e.value, e.cursor), e.cursor - 1)
    else e
  }

  /** Ctrl-K: delete from the cursor to the end; the cursor stays. */
  function KillToEnd(e: Editor): (r: Editor)
    ensures r.cursor == e.cursor
    ensures r.value + Drop(e.value, e.cursor) == e.value
    ensures e.cursor <= |e.value| ==> |r.value| == e.cursor
  {
    e.(value := Take(e.value, e.cursor))
  }

  /** Ctrl-U: delete from the start to the cursor; the cursor goes to 0. */
  function KillToStart(e: Editor): (r: Editor)
    ensures r.cursor == 0
    ensures Take(e.value, e.cursor) + r.value == e.value
  {
    Editor(Drop(e.value, e.cursor), 0)
  }

  /** Ctrl-W and Meta-Backspace: delete the word run `\S+\s*` that ends at
      the cursor and move the cursor to its start; with whitespace only
      before the cursor, nothing. */
  function DeleteWordBackward(e: Editor): (r: Editor)
    ensures e.cursor <= |e.value| && AllSpace(e.value[..e.cursor]) ==> r == e
    ensures e.cursor <= |e.value| && !AllSpace(e.value[..e.cursor]) ==>
      && r.cursor < e.cursor
      && r.value == e.value[..r.cursor] + e.value[e.cursor..]
      && r.value[r.cursor..] == e.value[e.cursor..]
      && WordRunAt(e.value[..e.cursor], r.cursor)
      && (forall q :: 0 <= q < r.cursor ==> !WordRunAt(e.value[..e.cursor], q))
  {
    match WordBack(Take(e.value, e.cursor))
    case None => e
    case Some(n) =>
      var p := e.cursor - n;
      Editor(Take(e.value, p) + Drop(e.value, e.cursor), p)
  }

  /** Meta-B: to the start of the word run ending at the cursor, or to the
      start of the input when there is none. */
  function WordBackward(e: Editor): (r: Editor)
    ensures r.value == e.value
    ensures r.cursor <= e.cursor
    ensures e.cursor <= |e.value| && AllSpace(e.value[..e.cursor]) ==> r.cursor == 0
    ensures e.cursor <= |e.value| && !AllSpace(e.value[..e.cursor]) ==>
      WordRunAt(e.value[..e.cursor], r.cursor) && forall q :: 0 <= q < r.cursor ==> !WordRunAt(e.value[..e.cursor], q)
  {
    match WordBack(Take(e.value, e.cursor))
    case None => e.(cursor := 0)
    case Some(n) => e.(cursor := e.cursor - n)
  }

  /** Meta-F: past the next word, or to the end of the input when there is
      none. */
  function WordForward(e: Editor): (r: Editor)
    ensures r.value == e.value
    ensures e.cursor <= |e.value| ==> e.cursor <= r.cursor <= |e.value|
    ensures e.cursor <= |e.value| && AllSpace(e.value[e.cursor..]) ==> r.cursor == |e.value|
    ensures e.cursor <= |e.value| && !AllSpace(e.value[e.cursor..]) ==>
      r.cursor > e.cursor && LeadingWordMatch(e.value[e.cursor..], r.cursor - e.cursor)
  {
    match WordAhead(Drop(e.value, e.cursor))
    case None => e.(cursor := |e.value|)
    case Some(n) => e.(cursor := e.cursor + n)
  }

  /** Meta-D: delete the next word and the whitespace before it; the cursor
      stays. */
  function DeleteWordForward(e: Editor): (r: Editor)
    ensures r.cursor == e.cursor
    ensures e.cursor <= |e.value| && AllSpace(e.value[e.cursor..]) ==> r == e
    ensures e.cursor <= |e.value| && !AllSpace(e.value[e.cursor..]) ==>
      exists n :: 0 < n <= |e.value| - e.cursor && LeadingWordMatch(e.value[e.cursor..], n)
        && r.value == e.value[..e.cursor] + e.value[e.cursor + n..]
  {
    var after := Drop(e.value, e.cursor);
    match WordAhead(after)
    case None => e
    case Some(n) =>
      assert after[n..] == e.value[e.cursor + n..];
      e.(value := Take(e.value, e.cursor) + Drop(after, n))
  }

  /** The editing keys of `onKeyDown`: Ctrl with a, e, d, f, b, k, u, w, h;
      Meta with b, f, d and Backspace. */
  datatype EditKey =
    | CtrlA | CtrlE | CtrlD | CtrlF | CtrlB | CtrlK | CtrlU | CtrlW | CtrlH
    | MetaB | MetaF | MetaD | MetaBackspace

  function ApplyKey(e: Editor, k: EditKey): (r: Editor)
    ensures e.cursor <= |e.value| ==> r.cursor <= |r.value|
  {
    match k
    case CtrlA => LineStart(e)
    case CtrlE => LineEnd(e)
    case CtrlD => DeleteCharForward(e)
    case CtrlF => CharForward(e)
    case CtrlB => CharBackward(e)
    case CtrlK => KillToEnd(e)
    case CtrlU => KillToStart(e)
    case CtrlW => DeleteWordBackward(e)
    case CtrlH => DeleteCharBackward(e)
    case MetaB => WordBackward(e)
    case MetaF => WordForward(e)
    case MetaD => DeleteWordForward(e)
    case MetaBackspace => DeleteWordBackward(e)
  }

  /** `isAtFirstLine`: no line break before the cursor. */
  predicate IsAtFirstLine(e: Editor) {
    !Contains(Take(e.value, e.cursor), '\n')
  }

  /** `isAtLastLine`: no line break after the cursor. */
  predicate IsAtLastLine(e: Editor) {
    !Contains(Drop(e.value, e.cursor), '\n')
  }

  /** A single-line input is on both its first and its last line, wherever
      the cursor is. */
  lemma SingleLine(e: Editor)
    requires !Contains(e.value, '\n')
    ensures IsAtFirstLine(e) && IsAtLastLine(e)
  {
    ContainsIff(e.value, '\n');
    ContainsIff(Take(e.value, e.cursor), '\n');
    ContainsIff(Drop(e.value, e.cursor), '\n');
    var d := Drop(e.value, e.cursor);
    assert forall k :: 0 <= k < |d| ==> d[k] == e.value[Min(e.cursor, |e.value|) + k];
  }
}

=== FILE: message.dfy ===
/** The tool-result parts of the client's message types
    (src/renderer/client/types/message.ts) and the conversion from the
    `tool-result` shape, keyed by `toolCallId` and `toolName`, to the
    `tool_result` shape keyed by `id` and `name`. */
module Message {
  import opened Wrappers
  import NestedValue

  /** A part of a tool's content for the model: text or an image. */
  datatype ContentPart =
    | TextPart(text: string)
    | ImagePart(data: string, mimeType: string)

  datatype LlmContent = LlmText(s: string) | LlmParts(parts: seq<ContentPart>)

  /** A todo as a tool reports it. The declared item has `id`, `text` and
      `completed`; the renderer also reads `content`, `status` and
      `priority` when present. */
  datatype RawTodo = RawTodo(
    id: string,
    content: Option<string>,
    text: Option<string>,
    status: Option<string>,
    completed: bool,
    priority: Option<string>)

  /** What a tool result asks the renderer to show. Besides the declared
      shapes, an object of any other `type` is possible at run time and is
      kept apart. */
  datatype ReturnDisplay =
    | TextDisplay(s: string)
    | DiffDisplay(diff: string)
    | TodoReadDisplay(todos: seq<RawTodo>)
    | TodoWriteDisplay(todos: seq<RawTodo>)
    | OtherObjectDisplay(kind: string)

  datatype ToolResult = ToolResult(
    llmContent: LlmContent,
    returnDisplay: Option<ReturnDisplay>,
    isError: bool)

  type Input = map<string, NestedValue.Json>

  datatype ToolUsePart = ToolUsePart(
    id: string,
    name: string,
    input: Input,
    displayName: Option<string>,
    description: Option<string>)

  const ToolResultTag: string := "tool_result"
  const ToolResultTag2: string := "tool-result"

  datatype ToolResultPart = ToolResultPart(kind: string, id: string, name: string, input: Input, result: ToolResult)

  datatype ToolResultPart2 = ToolResultPart2(kind: string, toolCallId: string, toolName: string, input: Input, result: ToolResult)

  /** `toolResultPart2ToToolResultPart`. */
  function ToToolResultPart(p: ToolResultPart2): (r: ToolResultPart)
    ensures r.kind == ToolResultTag
    ensures r.id == p.toolCallId && r.name == p.toolName
    ensures r.input == p.input && r.result == p.result
  {
    ToolResultPart(ToolResultTag, p.toolCallId, p.toolName, p.input, p.result)
  }

  /** The reverse renaming. */
  function ToToolResultPart2(p: ToolResultPart): (r: ToolResultPart2)
    ensures r.kind == ToolResultTag2
  {
    ToolResultPart2(ToolResultTag2, p.id, p.name, p.input, p.result)
  }

  /** The conversion loses nothing: each shape converts to the other and
      back unchanged. */
  lemma ConversionRoundTrip(p: ToolResultPart2, q: ToolResultPart)
    ensures p.kind == ToolResultTag2 ==> ToToolResultPart2(ToToolResultPart(p)) == p
    ensures q.kind == ToolResultTag ==> ToToolResultPart(ToToolResultPart2(q)) == q
  {
  }

  /** Two parts convert to the same part only if they were the same, up to
      their tag. */
  lemma ConversionInjective(p: ToolResultPart2, p': ToolResultPart2)
    requires ToToolResultPart(p) == ToToolResultPart(p')
    ensures p.(kind := p'.kind) == p'
  {
  }
}

=== FILE: nested_value.dfy ===
/** Dot-path access to JSON-like trees (`getNestedValue` and `setNestedValue`
    in src/renderer/lib/utils.ts). A path is split at `.` into keys. Reading
    walks down objects and gives the default as soon as it meets anything
    else or ends on nothing. Writing copies the tree, creates `{}` for a
    missing or null step and fails where the code would throw a TypeError:
    module code is strict, and there assigning a property on a string,
    number or boolean throws. */
module NestedValue {
  import opened Wrappers
  import opened Chars

  /** JSON values without arrays; numbers are integers here. */
  datatype Json =
    | Null
    | Bool(b: bool)
    | Num(n: int)
    | Str(s: string)
    | Obj(fields: map<string, Json>)

  predicate Primitive(j: Json) {
    j.Bool? || j.Num? || j.Str?
  }

  /** JavaScript falsiness of a JSON value. */
  predicate Falsy(j: Json) {
    j == Null || j == Bool(false) || j == Num(0) || j == Str("")
  }

  function Keys(path: string): (keys: seq<string>)
    ensures |keys| >= 1
  {
    Split(path, '.')
  }

  /** The loop of `getNestedValue`: step into an object's field, `None`
      standing for `undefined` and for every early `return defaultValue`. */
  function Walk(current: Option<Json>, keys: seq<string>): (r: Option<Json>)
    decreases |keys|
    ensures |keys| > 0 && !(current.Some? && current.value.Obj?) ==> r.None?
  {
    if |keys| == 0 then current
    else if current.Some? && current.value.Obj? then
      Walk(Lookup(current.value.fields, keys[0]), keys[1..])
    else None
  }

  /** `getNestedValue(obj, path, defaultValue)`. */
  function GetNested(obj: Option<Json>, path: string, default: Option<Json>): (r: Option<Json>)
    ensures obj.None? || obj == Some(Null) ==> r == default
    ensures obj.Some? && !obj.value.Obj? ==> r == default
    ensures obj.Some? && !Falsy(obj.value) && Walk(obj, Keys(path)).Some? ==> r == Walk(obj, Keys(path))
    ensures Walk(obj, Keys(path)).None? ==> r == default
  {
    if obj.None? || Falsy(obj.value) then default
    else
      match Walk(obj, Keys(path))
      case None => default
      case Some(v) => Some(v)
  }

  /** The documented example: `getNestedValue({a: {b: 1}}, 'a.b')` is 1. */
  lemma GetNestedExample()
    ensures GetNested(Some(Obj(map["a" := Obj(map["b" := Num(1)])])), "a.b", None) == Some(Num(1))
  {
    KeysOfTwo("a", "b");
    assert "a" + "." + "b" == "a.b";
  }

  /** The loop of `setNestedValue` on a copy: every key but the last steps
      into the field, replacing a missing or null one with `{}`; the last
      key is assigned. */
  function SetPath(current: Json, keys: seq<string>, value: Json): (r: Result<Json, string>)
    requires |keys| >= 1
    decreases |keys|
    ensures r.Success? ==> r.value.Obj?
    ensures !current.Obj? ==> r.Failure?
  {
    if !current.Obj? then Failure(TypeErrorMessage)
    else
      var f := current.fields;
      if |keys| == 1 then Success(Obj(f[keys[0] := value]))
      else
        var child := StepInto(f, keys[0]);
        match SetPath(child, keys[1..], value)
        case Failure(e) => Failure(e)
        case Success(c) => Success(Obj(f[keys[0] := c]))
  }

  /** The object `setNestedValue` steps into: the field, or a fresh `{}`
      in place of a missing or null one. */
  function StepInto(f: map<string, Json>, k: string): Json {
    if k in f && f[k] != Null then f[k] else Obj(map[])
  }

  const TypeErrorMessage: string := "TypeError: cannot create property on a primitive"

  /** `setNestedValue(obj, path, value)`. */
  function SetNested(obj: Json, path: string, value: Json): (r: Result<Json, string>)
    ensures r.Success? ==> r.value.Obj?
  {
    SetPath(obj, Keys(path), value)
  }

  /** The documented example: setting `a.c` to 2 in `{a: {b: 1}}` gives
      `{a: {b: 1, c: 2}}`. */
  lemma SetNestedExample()
    ensures SetNested(Obj(map["a" := Obj(map["b" := Num(1)])]), "a.c", Num(2))
         == Success(Obj(map["a" := Obj(map["b" := Num(1), "c" := Num(2)])]))
  {
    KeysOfTwo("a", "c");
    assert "a" + "." + "c" == "a.c";
    var inner := Obj(map["b" := Num(1)]);
    var keys: seq<string> := ["a", "c"];
    assert keys[1..] == ["c"];
    assert SetPath(inner, ["c"], Num(2)) == Success(Obj(map["b" := Num(1), "c" := Num(2)]));
    var f := map["a" := inner];
    assert "a" in f && f["a"] != Null && f["a"] == inner;
    assert keys[0] == "a" && |keys| == 2;
    assert f["a" := Obj(map["b" := Num(1), "c" := Num(2)])] == map["a" := Obj(map["b" := Num(1), "c" := Num(2)])];
    assert SetPath(Obj(f), keys, Num(2))
        == Success(Obj(map["a" := Obj(map["b" := Num(1), "c" := Num(2)])]));
  }

  /** A path of two dot-free keys splits into those keys. */
  lemma KeysOfTwo(a: string, b: string)
    requires '.' !in a && '.' !in b
    ensures Keys(a + "." + b) == [a, b]
  {
    SplitJoin([a, b], '.');
    assert Join([a, b], '.') == a + "." + b;
  }

  /** Reading back what was written gives the written value. */
  lemma {:induction false} SetThenGetPath(current: Json, keys: seq<string>, value: Json)
    requires |keys| >= 1
    requires SetPath(current, keys, value).Success?
    decreases |keys|
    ensures Walk(Some(SetPath(current, keys, value).value), keys) == Some(value)
  {
    var f := current.fields;
    var r := SetPath(current, keys, value).value;
    if |keys| == 1 {
      assert Walk(Lookup(r.fields, keys[0]), keys[1..]) == Some(value);
    } else {
      var child := StepInto(f, keys[0]);
      SetThenGetPath(child, keys[1..], value);
      assert r.fields[keys[0]] == SetPath(child, keys[1..], value).value;
    }
  }

  lemma SetThenGet(obj: Json, path: string, value: Json, default: Option<Json>)
    requires SetNested(obj, path, value).Success?
    ensures GetNested(Some(SetNested(obj, path, value).value), path, default) == Some(value)
  {
    SetThenGetPath(obj, Keys(path), value);
  }

  /** Fields other than the first key are kept as they were, and no field
      is dropped. */
  lemma SetKeepsSiblings(obj: Json, path: string, value: Json)
    requires SetNested(obj, path, value).Success?
    ensures obj.Obj?
    ensures var r := SetNested(obj, path, value).value;
      && r.fields.Keys == obj.fields.Keys + {Keys(path)[0]}
      && forall k :: k in obj.fields && k != Keys(path)[0] ==> r.fields[k] == obj.fields[k]
  {
    SetPathKeepsSiblings(obj, Keys(path), value);
  }

  /** One level of `SetPath`: the first key is added or replaced, every
      other field is kept, and the first key holds the write one level
      down. */
  lemma SetPathKeepsSiblings(current: Json, keys: seq<string>, value: Json)
    requires |keys| >= 1
    requires SetPath(current, keys, value).Success?
    ensures current.Obj?
    ensures var r := SetPath(current, keys, value).value;
      && r.fields.Keys == current.fields.Keys + {keys[0]}
      && (forall k :: k in current.fields && k != keys[0] ==> r.fields[k] == current.fields[k])
      && (|keys| > 1 ==>
            && SetPath(StepInto(current.fields, keys[0]), keys[1..], value).Success?
            && r.fields[keys[0]] == SetPath(StepInto(current.fields, keys[0]), keys[1..], value).value)
  {
  }

  /** The fields of a walked-to object, and none for anything else. */
  function FieldsOr(w: Option<Json>): map<string, Json> {
    if w.Some? && w.value.Obj? then w.value.fields else map[]
  }

  /** At every depth `i` along the path the written tree holds an object
      whose keys are the old object's keys (none where the write creates
      it) plus `keys[i]`, and whose other fields are the old ones. */
  lemma {:induction false} SetPathKeepsSiblingsAt(current: Json, keys: seq<string>, value: Json, i: nat)
    requires |keys| >= 1 && i < |keys|
    requires SetPath(current, keys, value).Success?
    decreases i
    ensures var w := Walk(Some(SetPath(current, keys, value).value), keys[..i]);
      var before := FieldsOr(Walk(Some(current), keys[..i]));
      && w.Some? && w.value.Obj?
      && w.value.fields.Keys == before.Keys + {keys[i]}
      && forall k :: k in before && k != keys[i] ==> w.value.fields[k] == before[k]
  {
    SetPathKeepsSiblings(current, keys, value);
    var r := SetPath(current, keys, value).value;
    if i == 0 {
      assert keys[..0] == [];
    } else {
      var f := current.fields;
      var child := StepInto(f, keys[0]);
      SetPathKeepsSiblingsAt(child, keys[1..], value, i - 1);
      var ks := keys[..i];
      assert ks[0] == keys[0] && ks[1..] == keys[1..][..i - 1];
      assert Walk(Some(r), ks) == Walk(Some(SetPath(child, keys[1..], value).value), keys[1..][..i - 1]);
      assert Walk(Some(current), ks) == Walk(Lookup(f, keys[0]), keys[1..][..i - 1]);
      if !(keys[0] in f && f[keys[0]] != Null) && i > 1 {
        WalkThroughNothing(Lookup(f, keys[0]), keys[1..][..i - 1]);
        WalkThroughNothing(Some(child), keys[1..][..i - 1]);
      }
    }
  }

  /** Below an empty object every path can be created. */
  lemma {:induction false} SetPathIntoEmpty(keys: seq<string>, value: Json)
    requires |keys| >= 1
    decreases |keys|
    ensures SetPath(Obj(map[]), keys, value).Success?
  {
    if |keys| > 1 {
      SetPathIntoEmpty(keys[1..], value);
    }
  }

  /** Writing fails exactly when the tree is not an object or a string,
      number or boolean sits where the path needs to go through. */
  lemma {:induction false} SetPathFailsIff(current: Json, keys: seq<string>, value: Json)
    requires |keys| >= 1
    decreases |keys|
    ensures SetPath(current, keys, value).Failure? <==>
      (!current.Obj? || exists i :: 1 <= i < |keys| && BlockedAt(current, keys, i))
  {
    if current.Obj? && |keys| > 1 {
      var f := current.fields;
      var k := keys[0];
      var child := StepInto(f, k);
      SetPathFailsIff(child, keys[1..], value);
      forall i | 2 <= i < |keys|
        ensures BlockedAt(current, keys, i) <==> BlockedAt(child, keys[1..], i - 1)
      {
        var ks := keys[..i];
        assert ks[0] == k && ks[1..] == keys[1..][..i - 1];
        assert Walk(Some(current), ks) == Walk(Lookup(f, k), ks[1..]);
        if k in f && f[k] != Null {
          assert Lookup(f, k) == Some(child);
        } else {
          WalkThroughNothing(Lookup(f, k), ks[1..]);
          WalkThroughNothing(Some(child), ks[1..]);
        }
      }
      assert BlockedAt(current, keys, 1) <==> !child.Obj? by {
        assert keys[..1][1..] == [];
        assert Walk(Some(current), keys[..1]) == Walk(Lookup(f, k), []);
      }
      if !(k in f && f[k] != Null) {
        SetPathIntoEmpty(keys[1..], value);
      }
      if exists i :: 1 <= i < |keys| && BlockedAt(current, keys, i) {
        var i :| 1 <= i < |keys| && BlockedAt(current, keys, i);
        if i >= 2 { assert BlockedAt(child, keys[1..], i - 1); }
      }
      if exists j :: 1 <= j < |keys| - 1 && BlockedAt(child, keys[1..], j) {
        var j :| 1 <= j < |keys| - 1 && BlockedAt(child, keys[1..], j);
        assert BlockedAt(current, keys, j + 1);
      }
    }
  }

  /** Walking the first `i` keys from `current` ends on a primitive. */
  ghost predicate BlockedAt(current: Json, keys: seq<string>, i: nat)
    requires i <= |keys|
  {
    var w := Walk(Some(current), keys[..i]);
    w.Some? && Primitive(w.value)
  }

  /** From nothing, from `null` or from `{}` a non-empty walk finds
      nothing. */
  lemma WalkThroughNothing(start: Option<Json>, keys: seq<string>)
    requires start.None? || start == Some(Null) || start == Some(Obj(map[]))
    requires |keys| >= 1
    ensures Walk(start, keys).None?
  {
  }
}

=== FILE: pty_manager.dfy ===
/** The main-process registry of pseudo-terminals (`PTYManager` in
    src/main/pty/manager.ts): a map from opaque id to live terminal, with the
    operating-system side (spawn, kill, resize, the environment, the home
    directory, `statSync`, `randomUUID`) turned into parameters, and every
    outward action recorded as an `Effect`. */
module PtyManager {
  import opened Wrappers
  import opened Chars

  type PtyId = string

  /** `process.platform`, reduced to the one distinction the code makes. */
  datatype Platform = Win32 | OtherPlatform

  /** What the host process knows about its surroundings. `directories` holds
      the paths `fs.statSync` reports as existing directories; every other
      path either fails to stat or is not a directory. */
  datatype Host = Host(
    platform: Platform,
    comspec: Option<string>,
    shellVar: Option<string>,
    homeDir: string,
    directories: set<string>)

  /** `PTYCreateOptions`: every field may be left out. */
  datatype CreateOptions = CreateOptions(
    cwd: Option<string>,
    shell: Option<string>,
    cols: Option<int>,
    rows: Option<int>)

  const TerminalName: string := "xterm-256color"
  const DefaultCols: int := 80
  const DefaultRows: int := 24
  const WindowsFallbackShell: string := "cmd.exe"
  const UnixFallbackShell: string := "/bin/zsh"
  const CreateErrorPrefix: string := "Failed to create terminal: "
  const UnknownError: string := "Unknown error"

  /** The arguments handed to `pty.spawn`; the environment is inherited. */
  datatype SpawnRequest = SpawnRequest(shell: string, name: string, cols: int, rows: int, cwd: string)

  /** What `pty.spawn` did: returned a process, or threw. A thrown `Error`
      carries its message; anything else thrown carries none. */
  datatype SpawnOutcome = Spawned(process: nat) | SpawnThrew(message: Option<string>)

  /** `PTYInstance`: the process handle and the directory it started in. */
  datatype Instance = Instance(process: nat, cwd: string)

  /** The registry. `issued` records every id ever handed out, which lets
      the model state that ids are not reused; the source keeps no such set. */
  datatype Registry = Registry(ptys: map<PtyId, Instance>, issued: set<PtyId>)

  /** Notifications broadcast to every renderer window. */
  datatype Event =
    | DataEvent(ptyId: PtyId, data: string)
    | ExitEvent(ptyId: PtyId, exitCode: int, signal: Option<int>)

  /** Calls into the operating system and the IPC fan-out. */
  datatype Effect =
    | Spawn(request: SpawnRequest)
    | WriteInput(process: nat, data: string)
    | ResizeTerminal(process: nat, cols: int, rows: int)
    | Kill(process: nat)
    | Send(event: Event)

  datatype Step = Step(reg: Registry, effects: seq<Effect>)

  /** The registry after `create`, the spawn it attempted, and either the
      new id or the error `create` throws. */
  datatype CreateResult = CreateResult(reg: Registry, request: SpawnRequest, outcome: Result<PtyId, string>)

  const Empty: Registry := Registry(map[], {})

  /** Every live id was handed out by some `create`. */
  ghost predicate Valid(reg: Registry) {
    reg.ptys.Keys <= reg.issued
  }

  /** `getDefaultShell`. */
  function DefaultShell(host: Host): (shell: string)
    ensures shell != ""
    ensures host.platform == Win32 && Truthy(host.comspec) ==> shell == host.comspec.value
    ensures host.platform == Win32 && !Truthy(host.comspec) ==> shell == WindowsFallbackShell
    ensures host.platform != Win32 && Truthy(host.shellVar) ==> shell == host.shellVar.value
    ensures host.platform != Win32 && !Truthy(host.shellVar) ==> shell == UnixFallbackShell
  {
    if host.platform == Win32 then Or(host.comspec, WindowsFallbackShell)
    else Or(host.shellVar, UnixFallbackShell)
  }

  /** `options.shell || getDefaultShell()`: the shell is never empty. */
  function ResolveShell(options: CreateOptions, host: Host): (shell: string)
    ensures shell != ""
    ensures Truthy(options.shell) ==> shell == options.shell.value
    ensures !Truthy(options.shell) ==> shell == DefaultShell(host)
  {
    Or(options.shell, DefaultShell(host))
  }

  /** `resolveCwd`: a missing, empty or blank directory and one that does
      not stat as a directory all fall back to the home directory. */
  function ResolveCwd(cwd: Option<string>, host: Host): (dir: string)
    ensures cwd.None? || Trim(cwd.value) == "" ==> dir == host.homeDir
    ensures cwd.Some? && Trim(cwd.value) != "" && cwd.value in host.directories ==> dir == cwd.value
    ensures cwd.Some? && cwd.value !in host.directories ==> dir == host.homeDir
    ensures dir == host.homeDir || dir in host.directories
  {
    if !Truthy(cwd) || Trim(cwd.value) == "" then host.homeDir
    else if cwd.value in host.directories then cwd.value
    else host.homeDir
  }

  /** `Math.max(requested || fallback, 1)`: unset and 0 take the default,
      negatives become 1, and the result is always at least 1. */
  function ClampDimension(requested: Option<int>, fallback: int): (n: int)
    ensures n >= 1
    ensures requested.None? || requested.value == 0 ==> n == Max(fallback, 1)
    ensures requested.Some? && requested.value >= 1 ==> n == requested.value
    ensures requested.Some? && requested.value < 0 ==> n == 1
  {
    var v := if requested.None? || requested.value == 0 then fallback else requested.value;
    Max(v, 1)
  }

  /** The spawn arguments `create` computes from its options. */
  function SpawnArgs(options: CreateOptions, host: Host): SpawnRequest
  {
    SpawnRequest(
      ResolveShell(options, host),
      TerminalName,
      ClampDimension(options.cols, DefaultCols),
      ClampDimension(options.rows, DefaultRows),
      ResolveCwd(options.cwd, host))
  }

  /** `create`: `freshId` is the value `crypto.randomUUID()` produced and
      `spawned` what `pty.spawn` did with the computed arguments. The entry is
      inserted only after a successful spawn; a failed spawn leaves the
      registry as it was and reports the prefixed error. */
  function Create(reg: Registry, options: CreateOptions, host: Host, freshId: PtyId, spawned: SpawnOutcome): (r: CreateResult)
    ensures r.request == SpawnArgs(options, host)
    ensures r.request.cols >= 1 && r.request.rows >= 1 && r.request.shell != ""
    ensures r.outcome.Success? <==> spawned.Spawned?
    ensures r.outcome.Success? ==>
      && r.outcome.value == freshId
      && r.reg.ptys == reg.ptys[freshId := Instance(spawned.process, r.request.cwd)]
      && r.reg.issued == reg.issued + {freshId}
    ensures r.outcome.Failure? ==>
      && r.reg == reg
      && r.outcome.error == CreateErrorPrefix + spawned.message.GetOr(UnknownError)
  {
    var request := SpawnArgs(options, host);
    match spawned
    case Spawned(process) =>
      var next := Registry(reg.ptys[freshId := Instance(process, request.cwd)], reg.issued + {freshId});
      CreateResult(next, request, Success(freshId))
    case SpawnThrew(message) =>
      CreateResult(reg, request, Failure(CreateErrorPrefix + message.GetOr(UnknownError)))
  }

  /** `write`: forwards the data verbatim to a known terminal; an unknown id
      does nothing. The registry never changes. */
  function Write(reg: Registry, ptyId: PtyId, data: string): (r: Step)
    ensures r.reg == reg
    ensures ptyId !in reg.ptys ==> r.effects == []
    ensures ptyId in reg.ptys ==> r.effects == [WriteInput(reg.ptys[ptyId].process, data)]
  {
    match Lookup(reg.ptys, ptyId)
    case Some(instance) => Step(reg, [WriteInput(instance.process, data)])
    case None => Step(reg, [])
  }

  /** `resize`: passes the dimensions through without clamping; an unknown
      id does nothing. The registry never changes. */
  function Resize(reg: Registry, ptyId: PtyId, cols: int, rows: int): (r: Step)
    ensures r.reg == reg
    ensures ptyId !in reg.ptys ==> r.effects == []
    ensures ptyId in reg.ptys ==> r.effects == [ResizeTerminal(reg.ptys[ptyId].process, cols, rows)]
  {
    match Lookup(reg.ptys, ptyId)
    case Some(instance) => Step(reg, [ResizeTerminal(instance.process, cols, rows)])
    case None => Step(reg, [])
  }

  /** `destroy`: kills and forgets a known terminal; an unknown id does
      nothing. Every other entry is kept as it was. */
  function Destroy(reg: Registry, ptyId: PtyId): (r: Step)
    ensures r.reg.ptys.Keys == reg.ptys.Keys - {ptyId}
    ensures forall k :: k in r.reg.ptys ==> r.reg.ptys[k] == reg.ptys[k]
    ensures r.reg.issued == reg.issued
    ensures ptyId in reg.ptys ==> r.effects == [Kill(reg.ptys[ptyId].process)]
    ensures ptyId !in reg.ptys ==> r == Step(reg, [])
  {
    match Lookup(reg.ptys, ptyId)
    case Some(instance) => Step(Registry(reg.ptys - {ptyId}, reg.issued), [Kill(instance.process)])
    case None => Step(reg, [])
  }

  /** `destroyAll`: destroys every registered terminal, one kill each, and
      leaves the registry empty. The source visits ids in insertion order;
      this model visits them in an unspecified order. */
  method DestroyAll(reg: Registry) returns (r: Step)
    ensures r.reg.ptys == map[]
    ensures r.reg.issued == reg.issued
    ensures |r.effects| == |reg.ptys.Keys|
    ensures forall k :: k in reg.ptys ==> Kill(reg.ptys[k].process) in r.effects
    ensures forall e :: e in r.effects ==> e.Kill?
  {
    var cur := reg;
    var effects: seq<Effect> := [];
    var remaining := reg.ptys.Keys;
    while remaining != {}
      invariant cur.ptys.Keys == remaining
      invariant remaining <= reg.ptys.Keys
      invariant forall k :: k in cur.ptys ==> cur.ptys[k] == reg.ptys[k]
      invariant cur.issued == reg.issued
      invariant |effects| + |remaining| == |reg.ptys.Keys|
      invariant forall k :: k in reg.ptys && k !in remaining ==> Kill(reg.ptys[k].process) in effects
      invariant forall e :: e in effects ==> e.Kill?
      decreases |remaining|
    {
      var ptyId :| ptyId in remaining;
      var step := Destroy(cur, ptyId);
      cur := step.reg;
      effects := effects + step.effects;
      remaining := remaining - {ptyId};
    }
    r := Step(cur, effects);
  }

  /** The `onData` subscription: output is broadcast tagged with its id. It
      does not consult the registry, so late output of a destroyed terminal
      is broadcast too and the renderer ignores it. */
  function OnData(reg: Registry, ptyId: PtyId, data: string): (r: Step)
    ensures r.reg == reg
    ensures r.effects == [Send(DataEvent(ptyId, data))]
  {
    Step(reg, [Send(DataEvent(ptyId, data))])
  }

  /** The `onExit` subscription: broadcast the exit tagged with its id, then
      forget the id. */
  function OnExit(reg: Registry, ptyId: PtyId, exitCode: int, signal: Option<int>): (r: Step)
    ensures ptyId !in r.reg.ptys
    ensures forall k :: k != ptyId ==> (k in r.reg.ptys <==> k in reg.ptys)
    ensures forall k :: k in r.reg.ptys ==> r.reg.ptys[k] == reg.ptys[k]
    ensures r.reg.issued == reg.issued
    ensures r.effects == [Send(ExitEvent(ptyId, exitCode, signal))]
  {
    Step(Registry(reg.ptys - {ptyId}, reg.issued), [Send(ExitEvent(ptyId, exitCode, signal))])
  }

  /** The `count` getter. */
  function Count(reg: Registry): nat
  {
    |reg.ptys|
  }

  /** A successful `create` with an id not already live adds exactly one
      entry. */
  lemma CreateCountsOne(reg: Registry, options: CreateOptions, host: Host, freshId: PtyId, spawned: SpawnOutcome)
    requires freshId !in reg.ptys
    requires spawned.Spawned?
    ensures freshId in Create(reg, options, host, freshId, spawned).reg.ptys
    ensures Count(Create(reg, options, host, freshId, spawned).reg) == Count(reg) + 1
  {
    var r := Create(reg, options, host, freshId, spawned);
    assert r.reg.ptys.Keys == reg.ptys.Keys + {freshId};
  }

  /** A failed `create` leaves the count where it was. */
  lemma CreateFailureKeepsCount(reg: Registry, options: CreateOptions, host: Host, freshId: PtyId, message: Option<string>)
    ensures Count(Create(reg, options, host, freshId, SpawnThrew(message)).reg) == Count(reg)
    ensures Create(reg, options, host, freshId, SpawnThrew(message)).outcome.Failure?
  {
  }

  /** `create({cols: 0, rows: 0})` asks for the default 80x24 terminal. */
  lemma ZeroGeometryGetsDefault(options: CreateOptions, host: Host)
    requires options.cols == Some(0) && options.rows == Some(0)
    ensures SpawnArgs(options, host).cols == 80 && SpawnArgs(options, host).rows == 24
  {
  }

  /** A second `destroy` of the same id does nothing. */
  lemma DestroyIdempotent(reg: Registry, ptyId: PtyId)
    ensures Destroy(Destroy(reg, ptyId).reg, ptyId) == Step(Destroy(reg, ptyId).reg, [])
  {
  }

  /** After an exit, `write`, `resize` and `destroy` for that id do nothing. */
  lemma ExitThenNoOps(reg: Registry, ptyId: PtyId, exitCode: int, signal: Option<int>, data: string, cols: int, rows: int)
    ensures var after := OnExit(reg, ptyId, exitCode, signal).reg;
      && Write(after, ptyId, data) == Step(after, [])
      && Resize(after, ptyId, cols, rows) == Step(after, [])
      && Destroy(after, ptyId) == Step(after, [])
  {
  }

  /** One registry operation, with the oracles' answers it depends on. */
  datatype Op =
    | CreateOp(options: CreateOptions, host: Host, freshId: PtyId, spawned: SpawnOutcome)
    | WriteOp(ptyId: PtyId, data: string)
    | ResizeOp(ptyId: PtyId, cols: int, rows: int)
    | DestroyOp(ptyId: PtyId)
    | DataOp(ptyId: PtyId, data: string)
    | ExitOp(ptyId: PtyId, exitCode: int, signal: Option<int>)

  function Apply(reg: Registry, op: Op): Registry
  {
    match op
    case CreateOp(options, host, freshId, spawned) => Create(reg, options, host, freshId, spawned).reg
    case WriteOp(ptyId, data) => Write(reg, ptyId, data).reg
    case ResizeOp(ptyId, cols, rows) => Resize(reg, ptyId, cols, rows).reg
    case DestroyOp(ptyId) => Destroy(reg, ptyId).reg
    case DataOp(ptyId, data) => OnData(reg, ptyId, data).reg
    case ExitOp(ptyId, exitCode, signal) => OnExit(reg, ptyId, exitCode, signal).reg
  }

  /** `randomUUID` never repeats: every create in the run draws an id that
      was not handed out before. */
  ghost predicate FreshIds(reg: Registry, ops: seq<Op>)
    decreases |ops|
  {
    |ops| == 0 ||
    ((ops[0].CreateOp? ==> ops[0].freshId !in reg.issued) && FreshIds(Apply(reg, ops[0]), ops[1..]))
  }

  function Run(reg: Registry, ops: seq<Op>): Registry
    decreases |ops|
  {
    if |ops| == 0 then reg else Run(Apply(reg, ops[0]), ops[1..])
  }

  /** Every operation keeps the live ids among the issued ones. */
  lemma ApplyKeepsValid(reg: Registry, op: Op)
    requires Valid(reg)
    ensures Valid(Apply(reg, op))
    ensures reg.issued <= Apply(reg, op).issued
  {
  }

  /** Once an id has been destroyed or has exited, no run of later
      operations with fresh ids makes it live again. */
  lemma {:induction false} RetiredIdStaysRetired(reg: Registry, ops: seq<Op>, ptyId: PtyId)
    requires Valid(reg)
    requires FreshIds(reg, ops)
    requires ptyId in reg.issued && ptyId !in reg.ptys
    ensures ptyId !in Run(reg, ops).ptys
    decreases |ops|
  {
    if |ops| > 0 {
      var next := Apply(reg, ops[0]);
      ApplyKeepsValid(reg, ops[0]);
      RetiredIdStaysRetired(next, ops[1..], ptyId);
    }
  }

  /** Live ids are always ids that were handed out, so an id `randomUUID`
      has never produced before is never already live, and a create with it
      adds one entry (`CreateCountsOne`) instead of replacing a terminal. */
  lemma {:induction false} RunKeepsValid(reg: Registry, ops: seq<Op>)
    requires Valid(reg)
    ensures Valid(Run(reg, ops))
    decreases |ops|
  {
    if |ops| > 0 {
      ApplyKeepsValid(reg, ops[0]);
      RunKeepsValid(Apply(reg, ops[0]), ops[1..]);
    }
  }
}

=== FILE: repo_sidebar.dfy ===
/** The repository sidebar's state (src/renderer/components/RepoSidebar.tsx):
    the set of expanded folders and the repository the selected path names. */
module RepoSidebar {
  import opened Wrappers
  import opened Chars

  /** The parts of a repository record the sidebar's logic reads. */
  datatype Repo = Repo(path: string, name: string, workspaceIds: seq<string>)

  /** `toggleFolder`: a copy of the set with the path added when it was
      absent and removed when it was present. */
  function ToggleFolder(expanded: set<string>, path: string): (r: set<string>)
    ensures path in r <==> path !in expanded
    ensures forall q :: q != path ==> (q in r <==> q in expanded)
  {
    if path in expanded then expanded - {path} else expanded + {path}
  }

  /** Toggling the same folder twice restores the set. */
  lemma ToggleTwice(expanded: set<string>, path: string)
    ensures ToggleFolder(ToggleFolder(expanded, path), path) == expanded
  {
    var once := ToggleFolder(expanded, path);
    var twice := ToggleFolder(once, path);
    assert forall q :: q in twice <==> q in expanded;
  }

  /** Toggles of different folders commute. */
  lemma ToggleCommutes(expanded: set<string>, p: string, q: string)
    ensures ToggleFolder(ToggleFolder(expanded, p), q) == ToggleFolder(ToggleFolder(expanded, q), p)
  {
    var a := ToggleFolder(ToggleFolder(expanded, p), q);
    var b := ToggleFolder(ToggleFolder(expanded, q), p);
    assert forall x :: x in a <==> x in b;
  }

  /** The index of the first repository at `path`, as `find` scans. */
  function FindFrom(repos: seq<Repo>, path: string, from: nat): (r: Option<nat>)
    requires from <= |repos|
    decreases |repos| - from
    ensures r.Some? ==> from <= r.value < |repos| && repos[r.value].path == path
    ensures r.Some? ==> forall k :: from <= k < r.value ==> repos[k].path != path
    ensures r.None? ==> forall k :: from <= k < |repos| ==> repos[k].path != path
  {
    if from == |repos| then None
    else if repos[from].path == path then Some(from)
    else FindFrom(repos, path, from + 1)
  }

  /** `selectedRepo`: nothing for an absent or empty path, else the first
      repository whose path is the selected one, if any. */
  function SelectedRepo(repos: seq<Repo>, selectedPath: Option<string>): (r: Option<Repo>)
    ensures !Truthy(selectedPath) ==> r.None?
    ensures r.Some? ==> exists k :: 0 <= k < |repos| && repos[k] == r.value
    ensures r.Some? ==> r.value.path == selectedPath.value
    ensures Truthy(selectedPath) && r.None? ==> forall k :: 0 <= k < |repos| ==> repos[k].path != selectedPath.value
  {
    if !Truthy(selectedPath) then None
    else
      match FindFrom(repos, selectedPath.value, 0)
      case None => None
      case Some(i) => Some(repos[i])
  }

  /** Among repositories sharing a path the first one is selected. */
  lemma SelectedIsFirst(repos: seq<Repo>, path: string, i: nat)
    requires path != ""
    requires i < |repos| && repos[i].path == path
    requires forall k :: 0 <= k < i ==> repos[k].path != path
    ensures SelectedRepo(repos, Some(path)) == Some(repos[i])
  {
    var r := FindFrom(repos, path, 0);
    assert r.Some?;
    assert r.value == i;
  }
}

=== FILE: suggestion_dropdown.dfy ===
/** The suggestion list under the chat input
    (src/renderer/components/ChatInput/SuggestionDropdown.tsx): splitting a
    path into directory and file name, telling directories from files, and
    the window of at most `maxVisible` items kept around the selection. */
module SuggestionDropdown {
  import opened Wrappers
  import opened Chars

  const DefaultMaxVisible: nat := 10

  datatype FilePath = FilePath(fileName: string, dirPath: string)

  /** `parseFilePath`: split at the last `/`; with none, the whole path is
      the file name. */
  function ParseFilePath(path: string): (r: FilePath)
    ensures '/' !in path ==> r == FilePath(path, "")
    ensures '/' in path ==> r.dirPath + "/" + r.fileName == path
    ensures '/' !in r.fileName
  {
    match LastIndexOf(path, '/')
    case None => FilePath(path, "")
    case Some(i) =>
      assert path == path[..i] + "/" + path[i + 1..];
      FilePath(path[i + 1..], path[..i])
  }

  /** Parsing undoes joining with `/`: a directory part and a file name
      without `/` come back from their join. */
  lemma ParseOfJoin(p: FilePath)
    requires '/' !in p.fileName
    ensures ParseFilePath(p.dirPath + "/" + p.fileName) == p
  {
    var s := p.dirPath + "/" + p.fileName;
    assert s[|p.dirPath|] == '/';
    forall k | |p.dirPath| < k < |s| ensures s[k] != '/' {
      assert s[k] == p.fileName[k - |p.dirPath| - 1];
    }
    LastIndexOfIs(s, '/', |p.dirPath|);
    assert s[..|p.dirPath|] == p.dirPath;
    assert s[|p.dirPath| + 1..] == p.fileName;
  }

  /** The split loses a leading `/` on a top-level name: `/a` and `a` show
      the same. */
  lemma TopLevelSlashLost(name: string)
    requires '/' !in name
    ensures ParseFilePath("/" + name) == ParseFilePath(name)
  {
    ParseOfJoin(FilePath(name, ""));
    assert "" + "/" + name == "/" + name;
  }

  lemma LastIndexOfIs(s: string, c: char, i: nat)
    requires i < |s| && s[i] == c
    requires forall k :: i < k < |s| ==> s[k] != c
    ensures LastIndexOf(s, c) == Some(i)
  {
    var r := LastIndexOf(s, c);
    assert r.Some?;
  }

  /** `isDirectory`: a trailing `/`, or no `.` anywhere. */
  function IsDirectory(path: string): (r: bool)
    ensures r <==> EndsWith(path, '/') || forall k :: 0 <= k < |path| ==> path[k] != '.'
  {
    ContainsIff(path, '.');
    EndsWith(path, '/') || !Contains(path, '.')
  }

  /** The first shown index: half a window before the selection, but not so
      late that the window runs past the end, and never negative. */
  function WindowStart(count: nat, selected: int, maxVisible: nat): (start: nat)
    ensures start <= count
    ensures count <= maxVisible ==> start == 0
    ensures count > maxVisible ==> start <= count - maxVisible
  {
    Max(0, Min(selected - maxVisible / 2, count - maxVisible))
  }

  /** The rendered window: nothing for an empty list, otherwise the start
      index and the items from there, at most `maxVisible` of them. */
  function Window<T>(items: seq<T>, selected: int, maxVisible: nat): (r: Option<(nat, seq<T>)>)
    ensures r.None? <==> |items| == 0
    ensures r.Some? ==> r.value.0 + |r.value.1| <= |items|
    ensures r.Some? ==> r.value.1 == items[r.value.0..r.value.0 + |r.value.1|]
    ensures r.Some? ==> |r.value.1| == Min(maxVisible, |items|)
  {
    if |items| == 0 then None
    else
      var start := WindowStart(|items|, selected, maxVisible);
      var end := Min(start + maxVisible, |items|);
      Some((start, items[start..end]))
  }

  /** A valid selection is always inside the window, at the position the
      list highlights. */
  lemma SelectionVisible<T>(items: seq<T>, selected: int, maxVisible: nat)
    requires maxVisible >= 1 && 0 <= selected < |items|
    ensures
      var (start, shown) := Window(items, selected, maxVisible).value;
      start <= selected < start + |shown| && shown[selected - start] == items[selected]
  {
  }
}

=== FILE: token_utils.dfy ===
/** `@`-token location and the slash-command cursor test
    (src/renderer/lib/tokenUtils.ts). The global regular expression
    `(?:^|\s)(@(?:"[^"]*"?|[^\s]*))` run with repeated `exec` is written out
    as a left-to-right scan: a match may begin at the start of the input or
    at a whitespace character followed by `@`, and the next search resumes
    where the previous match ended. */
module TokenUtils {
  import opened Wrappers
  import opened Chars

  datatype TokenRange = TokenRange(startIndex: nat, endIndex: nat, fullMatch: string)

  /** Whether the cursor lies within the token, both ends included. */
  predicate Covers(t: TokenRange, cursor: int) {
    t.startIndex <= cursor <= t.endIndex
  }

  /** If the regular expression can match at `p`, the index of its `@`:
      the `^` branch at index 0, otherwise the `\s` branch one further on. */
  function AtFrom(value: string, p: nat): (r: Option<nat>)
    ensures r.Some? ==> r.value < |value| && value[r.value] == '@'
    ensures r.Some? ==> r.value == 0 || IsSpace(value[r.value - 1])
    ensures r.Some? ==> p <= r.value <= p + 1
  {
    if p == 0 && |value| > 0 && value[0] == '@' then Some(0)
    else if p + 1 < |value| && IsSpace(value[p]) && value[p + 1] == '@' then Some(p + 1)
    else None
  }

  /** Where the token whose `@` is at `at` ends: after the closing quote (or
      at the end of input) for `@"…`, else at the first whitespace (or at the
      end of input). */
  function TokenEnd(value: string, at: nat): (e: nat)
    requires at < |value| && value[at] == '@'
    ensures at < e <= |value|
    ensures at + 1 < |value| && value[at + 1] == '"' ==>
      && e >= at + 2
      && (forall k :: at + 2 <= k < e - 1 ==> value[k] != '"')
      && ((e - 1 >= at + 2 && value[e - 1] == '"') || (e == |value| && forall k :: at + 2 <= k < e ==> value[k] != '"'))
    ensures !(at + 1 < |value| && value[at + 1] == '"') ==>
      && (forall k :: at < k < e ==> !IsSpace(value[k]))
      && (e < |value| ==> IsSpace(value[e]))
  {
    if at + 1 < |value| && value[at + 1] == '"' then
      match IndexFrom(value, '"', at + 2)
      case Some(q) => q + 1
      case None => |value|
    else SpaceFrom(value, at + 1)
  }

  /** Every match from index `p` on, in order: the sequence of ranges
      repeated `pattern.exec` produces. */
  function TokensFrom(value: string, p: nat): seq<TokenRange>
    decreases |value| - p
  {
    if p >= |value| then []
    else match AtFrom(value, p)
      case None => TokensFrom(value, p + 1)
      case Some(at) =>
        var e := TokenEnd(value, at);
        [TokenRange(at, e, value[at..e])] + TokensFrom(value, e)
  }

  function Tokens(value: string): seq<TokenRange> {
    TokensFrom(value, 0)
  }

  /** The scan loop of `findAtTokenAtCursor`, stopping at the first match
      that covers the cursor. */
  function FindFrom(value: string, cursor: int, p: nat): Option<TokenRange>
    decreases |value| - p
  {
    if p >= |value| then None
    else match AtFrom(value, p)
      case None => FindFrom(value, cursor, p + 1)
      case Some(at) =>
        var e := TokenEnd(value, at);
        if at <= cursor <= e then Some(TokenRange(at, e, value[at..e]))
        else FindFrom(value, cursor, e)
  }

  /** `findAtTokenAtCursor`: the first match of the pattern that covers the
      cursor, or none when no match covers it. */
  function FindAtTokenAtCursor(value: string, cursor: int): (r: Option<TokenRange>)
    ensures r.Some? ==> WellFormed(value, r.value) && Covers(r.value, cursor)
    ensures r.None? <==> forall k :: 0 <= k < |Tokens(value)| ==> !Covers(Tokens(value)[k], cursor)
    ensures r.Some? ==>
      exists k :: (0 <= k < |Tokens(value)| && Tokens(value)[k] == r.value
        && forall j :: 0 <= j < k ==> !Covers(Tokens(value)[j], cursor))
  {
    FindFromWellFormed(value, cursor, 0);
    FindFromIsFirstCovering(value, cursor, 0);
    assert Tokens(value) == TokensFrom(value, 0);
    FindFrom(value, cursor, 0)
  }

  /** `isCursorInSlashCommand`: only for input starting with `/`, and then
      exactly when no space precedes the cursor and the cursor is within the
      input. */
  function IsCursorInSlashCommand(value: string, cursor: int): (r: bool)
    ensures !StartsWith(value, '/') ==> !r
    ensures StartsWith(value, '/') ==>
      (r <==> cursor <= |value| && forall k :: 0 <= k < cursor && k < |value| ==> value[k] != ' ')
  {
    if !StartsWith(value, '/') then false
    else
      var commandEnd := match IndexOf(value, ' ') case Some(i) => i case None => |value|;
      cursor <= commandEnd
  }

  /** What every returned range satisfies: it starts with `@` at the start
      of input or just after whitespace, it is the slice of `value` it
      claims, and its body has one of the two shapes of the pattern. */
  ghost predicate WellFormed(value: string, t: TokenRange) {
    && t.startIndex < t.endIndex <= |value|
    && t.fullMatch == value[t.startIndex..t.endIndex]
    && t.endIndex == t.startIndex + |t.fullMatch|
    && t.fullMatch[0] == '@'
    && (t.startIndex == 0 || IsSpace(value[t.startIndex - 1]))
    && (if |t.fullMatch| >= 2 && t.fullMatch[1] == '"' then QuotedBody(value, t) else UnquotedBody(value, t))
  }

  /** `@"` followed by non-quotes up to and including the next quote, or up
      to the end of input when there is none. */
  ghost predicate QuotedBody(value: string, t: TokenRange)
    requires t.startIndex + 2 <= t.endIndex <= |value|
  {
    && (forall k :: t.startIndex + 2 <= k < t.endIndex - 1 ==> value[k] != '"')
    && (|| (t.endIndex - 1 >= t.startIndex + 2 && value[t.endIndex - 1] == '"')
        || (t.endIndex == |value| && forall k :: t.startIndex + 2 <= k < t.endIndex ==> value[k] != '"'))
  }

  /** `@` followed by the longest run of non-whitespace. */
  ghost predicate UnquotedBody(value: string, t: TokenRange)
    requires t.startIndex < t.endIndex <= |value|
  {
    && (forall k :: t.startIndex < k < t.endIndex ==> !IsSpace(value[k]))
    && (t.endIndex < |value| ==> IsSpace(value[t.endIndex]))
  }

  lemma MatchWellFormed(value: string, at: nat)
    requires at < |value| && value[at] == '@'
    requires at == 0 || IsSpace(value[at - 1])
    ensures WellFormed(value, TokenRange(at, TokenEnd(value, at), value[at..TokenEnd(value, at)]))
  {
    var e := TokenEnd(value, at);
    if at + 1 < |value| && value[at + 1] == '"' {
      match IndexFrom(value, '"', at + 2)
      case Some(q) =>
      case None =>
    }
  }

  lemma {:induction false} FindFromWellFormed(value: string, cursor: int, p: nat)
    ensures var r := FindFrom(value, cursor, p); r.Some? ==> WellFormed(value, r.value) && Covers(r.value, cursor)
    decreases |value| - p
  {
    if p < |value| {
      match AtFrom(value, p)
      case None => FindFromWellFormed(value, cursor, p + 1);
      case Some(at) =>
        MatchWellFormed(value, at);
        FindFromWellFormed(value, cursor, TokenEnd(value, at));
    }
  }

  lemma {:induction false} FindFromIsFirstCovering(value: string, cursor: int, p: nat)
    ensures FindFrom(value, cursor, p).None? <==>
      forall k :: 0 <= k < |TokensFrom(value, p)| ==> !Covers(TokensFrom(value, p)[k], cursor)
    ensures FindFrom(value, cursor, p).Some? ==>
      exists k :: 0 <= k < |TokensFrom(value, p)| && TokensFrom(value, p)[k] == FindFrom(value, cursor, p).value
        && forall j :: 0 <= j < k ==> !Covers(TokensFrom(value, p)[j], cursor)
    decreases |value| - p
  {
    if p < |value| {
      match AtFrom(value, p)
      case None =>
        assert TokensFrom(value, p) == TokensFrom(value, p + 1);
        assert FindFrom(value, cursor, p) == FindFrom(value, cursor, p + 1);
        FindFromIsFirstCovering(value, cursor, p + 1);
      case Some(at) =>
        var e := TokenEnd(value, at);
        var t := TokenRange(at, e, value[at..e]);
        var rest := TokensFrom(value, e);
        var ts := TokensFrom(value, p);
        assert ts == [t] + rest;
        if Covers(t, cursor) {
          assert FindFrom(value, cursor, p) == Some(t);
          assert ts[0] == t;
        } else {
          assert FindFrom(value, cursor, p) == FindFrom(value, cursor, e);
          FindFromIsFirstCovering(value, cursor, e);
          var r := FindFrom(value, cursor, e);
          assert forall k :: 1 <= k < |ts| ==> ts[k] == rest[k - 1];
          assert ts[0] == t;
          if r.Some? {
            FindFromWellFormed(value, cursor, e);
            var k :| 0 <= k < |rest| && rest[k] == r.value && forall j :: 0 <= j < k ==> !Covers(rest[j], cursor);
            assert ts[k + 1] == r.value;
            assert forall j :: 0 <= j < k + 1 ==> !Covers(ts[j], cursor) by {
              forall j | 0 <= j < k + 1 ensures !Covers(ts[j], cursor) {
                if j > 0 { assert ts[j] == rest[j - 1]; }
              }
            }
          } else {
            assert FindFrom(value, cursor, e).None?;
            assert forall k :: 0 <= k < |TokensFrom(value, e)| ==> !Covers(TokensFrom(value, e)[k], cursor);
            assert forall k :: 0 <= k < |rest| ==> !Covers(rest[k], cursor);
            assert forall k :: 0 <= k < |ts| ==> !Covers(ts[k], cursor) by {
              forall k | 0 <= k < |ts| ensures !Covers(ts[k], cursor) {
                if k > 0 { assert ts[k] == rest[k - 1]; }
              }
            }
          }
        }
    }
  }

  /** Every match the scan finds is well formed and lies at or after where
      the scan started. */
  lemma {:induction false} TokensFromWellFormed(value: string, p: nat)
    ensures forall k :: 0 <= k < |TokensFrom(value, p)| ==>
      WellFormed(value, TokensFrom(value, p)[k]) && p <= TokensFrom(value, p)[k].startIndex
    decreases |value| - p
  {
    if p < |value| {
      match AtFrom(value, p)
      case None =>
        assert TokensFrom(value, p) == TokensFrom(value, p + 1);
        TokensFromWellFormed(value, p + 1);
      case Some(at) =>
        var e := TokenEnd(value, at);
        MatchWellFormed(value, at);
        TokensFromWellFormed(value, e);
        var ts := TokensFrom(value, p);
        var rest := TokensFrom(value, e);
        assert ts == [TokenRange(at, e, value[at..e])] + rest;
        forall k | 0 <= k < |ts| ensures WellFormed(value, ts[k]) && p <= ts[k].startIndex {
          if k > 0 { assert ts[k] == rest[k - 1]; }
        }
    }
  }

  /** Matches come in increasing order with at least one character (the
      whitespace that starts the next match) between them. */
  lemma {:induction false} TokensFromOrdered(value: string, p: nat)
    ensures forall k :: 0 <= k < |TokensFrom(value, p)| - 1 ==>
      TokensFrom(value, p)[k].endIndex < TokensFrom(value, p)[k + 1].startIndex
    decreases |value| - p
  {
    if p < |value| {
      match AtFrom(value, p)
      case None =>
        assert TokensFrom(value, p) == TokensFrom(value, p + 1);
        TokensFromOrdered(value, p + 1);
      case Some(at) =>
        var e := TokenEnd(value, at);
        TokensFromOrdered(value, e);
        var ts := TokensFrom(value, p);
        var rest := TokensFrom(value, e);
        assert ts == [TokenRange(at, e, value[at..e])] + rest;
        if |rest| > 0 {
          TokensFromWellFormed(value, e);
          assert WellFormed(value, rest[0]) && e <= rest[0].startIndex;
          NextMatchAfterGap(value, at, rest[0]);
        }
        forall k | 0 <= k < |ts| - 1 ensures ts[k].endIndex < ts[k + 1].startIndex {
          if k > 0 { assert ts[k] == rest[k - 1] && ts[k + 1] == rest[k]; }
        }
    }
  }

  /** A match cannot start exactly where the previous one ended: the
      character before its `@` is whitespace, which the previous body would
      have stopped before (unquoted) or does not end with (quoted, ending in
      `"` or at the end of input). */
  lemma NextMatchAfterGap(value: string, at: nat, next: TokenRange)
    requires at < |value| && value[at] == '@'
    requires WellFormed(value, next) && TokenEnd(value, at) <= next.startIndex
    ensures TokenEnd(value, at) < next.startIndex
  {
    var e := TokenEnd(value, at);
    if at + 1 < |value| && value[at + 1] == '"' {
      assert e == |value| || value[e - 1] == '"';
    } else {
      assert e - 1 == at || !IsSpace(value[e - 1]);
    }
    assert e == |value| || !IsSpace(value[e - 1]);
  }
}

=== FILE: tool_message.dfy ===
/** The rendering decisions of a tool call and its result
    (src/renderer/components/messages/ToolMessage.tsx): the header's name
    and pending mark, which result body is shown, the text of a result, the
    old and new contents of a diff taken from the tool input, and the
    normalisation of reported todos. */
module ToolMessage {
  import opened Wrappers
  import opened Chars
  import opened Message
  import NestedValue

  /** `String(n)` for an integer. */
  function IntToString(n: int): (r: string)
    ensures |r| > 0
    ensures n < 0 <==> r[0] == '-'
  {
    if n < 0 then "-" + NatToString(-n) else NatToString(n)
  }

  function NatToString(n: nat): (r: string)
    ensures |r| > 0 && r[0] != '-'
    ensures forall k :: 0 <= k < |r| ==> '0' <= r[k] <= '9'
  {
    var d := ['0' + (n % 10) as char];
    if n < 10 then d else NatToString(n / 10) + d
  }

  /** The property key an `inputKey` value names once converted to a
      string, as property access does. */
  function PropertyKey(j: NestedValue.Json): string {
    match j
    case Null => "null"
    case Bool(b) => if b then "true" else "false"
    case Num(n) => IntToString(n)
    case Str(s) => s
    case Obj(_) => "[object Object]"
  }

  /** `extractValue`: a string is its own value; an object with an
      `inputKey` field names the tool input field to take; anything else
      gives `undefined` (`None`). */
  function ExtractValue(value: Option<NestedValue.Json>, input: Input): (r: Option<NestedValue.Json>)
    ensures value.Some? && value.value.Str? ==> r == value
    ensures value.Some? && value.value.Obj? && "inputKey" in value.value.fields ==>
      r == Lookup(input, PropertyKey(value.value.fields["inputKey"]))
    ensures r.Some? ==> (value.Some? && value.value.Str?) || (value.Some? && value.value.Obj? && "inputKey" in value.value.fields)
  {
    match value
    case Some(Str(_)) => value
    case Some(Obj(f)) => if "inputKey" in f then Lookup(input, PropertyKey(f["inputKey"])) else None
    case _ => None
  }

  /** A string-valued `inputKey` reference reads the named input field, and
      a reference to a string field gives the same as that string itself. */
  lemma ExtractByReference(input: Input, key: string)
    ensures ExtractValue(Some(NestedValue.Obj(map["inputKey" := NestedValue.Str(key)])), input) == Lookup(input, key)
    ensures key in input && input[key].Str? ==>
      ExtractValue(Some(NestedValue.Obj(map["inputKey" := NestedValue.Str(key)])), input) == ExtractValue(Some(input[key]), input)
  {
  }

  predicate Set(j: Option<NestedValue.Json>) {
    j.Some? && !NestedValue.Falsy(j.value)
  }

  /** `input[a] || input[b]`. */
  function Either(input: Input, a: string, b: string): (r: Option<NestedValue.Json>)
    ensures Set(Lookup(input, a)) ==> r == Lookup(input, a)
    ensures !Set(Lookup(input, a)) ==> r == Lookup(input, b)
  {
    if Set(Lookup(input, a)) then Lookup(input, a) else Lookup(input, b)
  }

  /** The diff viewer's old contents, new contents and file path: each from
      the first of two input fields that is set, through `extractValue`,
      with `''` (and `'file'` for the path) when nothing usable is there. */
  function DiffContents(input: Input): (r: (NestedValue.Json, NestedValue.Json, NestedValue.Json))
    ensures !NestedValue.Falsy(r.0) || r.0 == NestedValue.Str("")
    ensures !NestedValue.Falsy(r.1) || r.1 == NestedValue.Str("")
    ensures !NestedValue.Falsy(r.2)
    ensures "old_string" in input && input["old_string"] == NestedValue.Str("") && "originalContent" !in input ==> r.0 == NestedValue.Str("")
    // The old contents: a set string field is shown as it is, `old_string`
    // first; a set reference shows the field it names when that is set.
    ensures Set(Lookup(input, "old_string")) && input["old_string"].Str? ==> r.0 == input["old_string"]
    ensures !Set(Lookup(input, "old_string")) && Set(Lookup(input, "originalContent")) && input["originalContent"].Str? ==>
      r.0 == input["originalContent"]
    ensures !Set(Lookup(input, "old_string")) && !Set(Lookup(input, "originalContent")) ==> r.0 == NestedValue.Str("")
    ensures (&& Set(Lookup(input, "old_string")) && input["old_string"].Obj? && "inputKey" in input["old_string"].fields
             && Set(Lookup(input, PropertyKey(input["old_string"].fields["inputKey"])))) ==>
      r.0 == input[PropertyKey(input["old_string"].fields["inputKey"])]
    // The new contents, likewise from `new_string` and then `newContent`.
    ensures Set(Lookup(input, "new_string")) && input["new_string"].Str? ==> r.1 == input["new_string"]
    ensures !Set(Lookup(input, "new_string")) && Set(Lookup(input, "newContent")) && input["newContent"].Str? ==>
      r.1 == input["newContent"]
    ensures !Set(Lookup(input, "new_string")) && !Set(Lookup(input, "newContent")) ==> r.1 == NestedValue.Str("")
    ensures (&& Set(Lookup(input, "new_string")) && input["new_string"].Obj? && "inputKey" in input["new_string"].fields
             && Set(Lookup(input, PropertyKey(input["new_string"].fields["inputKey"])))) ==>
      r.1 == input[PropertyKey(input["new_string"].fields["inputKey"])]
    // The path: `file_path`, then `filePath`, then `'file'`.
    ensures Set(Lookup(input, "file_path")) ==> r.2 == input["file_path"]
    ensures !Set(Lookup(input, "file_path")) && Set(Lookup(input, "filePath")) ==> r.2 == input["filePath"]
    ensures !Set(Lookup(input, "file_path")) && !Set(Lookup(input, "filePath")) ==> r.2 == NestedValue.Str("file")
  {
    var oldValue := ExtractValue(Either(input, "old_string", "originalContent"), input);
    var newValue := ExtractValue(Either(input, "new_string", "newContent"), input);
    var path := Either(input, "file_path", "filePath");
    (if Set(oldValue) then oldValue.value else NestedValue.Str(""),
     if Set(newValue) then newValue.value else NestedValue.Str(""),
     if Set(path) then path.value else NestedValue.Str("file"))
  }

  /** A diff written with the snake-case old text and the camel-case new
      text and path: each slot shows the field that holds it. A reference
      to `content` shows that field. */
  lemma DiffExample()
    ensures DiffContents(map["old_string" := NestedValue.Str("a"), "newContent" := NestedValue.Str("b"),
                             "filePath" := NestedValue.Str("x.ts")])
      == (NestedValue.Str("a"), NestedValue.Str("b"), NestedValue.Str("x.ts"))
  {
  }

  lemma DiffReferenceExample()
    ensures DiffContents(map["old_string" := NestedValue.Obj(map["inputKey" := NestedValue.Str("content")]),
                             "content" := NestedValue.Str("c")])
      == (NestedValue.Str("c"), NestedValue.Str(""), NestedValue.Str("file"))
  {
  }

  /** The texts of the text parts, in order. */
  function TextsOf(parts: seq<ContentPart>): (texts: seq<string>)
    ensures |texts| <= |parts|
  {
    if |parts| == 0 then [] else TextOf(parts[0]) + TextsOf(parts[1..])
  }

  function TextOf(part: ContentPart): seq<string> {
    if part.TextPart? then [part.text] else []
  }

  /** Filtering the text parts respects concatenation, so it keeps their
      order. */
  lemma {:induction false} TextsOfAppend(a: seq<ContentPart>, b: seq<ContentPart>)
    decreases |a|
    ensures TextsOf(a + b) == TextsOf(a) + TextsOf(b)
  {
    if |a| == 0 {
      assert a + b == b;
    } else {
      assert (a + b)[0] == a[0];
      assert (a + b)[1..] == a[1..] + b;
      TextsOfAppend(a[1..], b);
      assert TextsOf(a + b) == TextOf(a[0]) + (TextsOf(a[1..]) + TextsOf(b));
    }
  }

  /** `getResultText`: the display string if there is one, else the model
      content as a string, or its text parts one per line. */
  function GetResultText(result: ToolResult): (r: string)
    ensures result.returnDisplay.Some? && result.returnDisplay.value.TextDisplay? ==> r == result.returnDisplay.value.s
    ensures !(result.returnDisplay.Some? && result.returnDisplay.value.TextDisplay?) ==>
      match result.llmContent
      case LlmText(s) => r == s
      case LlmParts(parts) => r == Join(TextsOf(parts), '\n')
  {
    if result.returnDisplay.Some? && result.returnDisplay.value.TextDisplay? then result.returnDisplay.value.s
    else
      match result.llmContent
      case LlmText(s) => s
      case LlmParts(parts) => Join(TextsOf(parts), '\n')
  }

  /** Single-line text parts can be read back from the joined text: it
      splits at line breaks into exactly those parts. */
  lemma ResultLinesAreTextParts(result: ToolResult)
    requires !(result.returnDisplay.Some? && result.returnDisplay.value.TextDisplay?)
    requires result.llmContent.LlmParts? && |TextsOf(result.llmContent.parts)| > 0
    requires forall k :: 0 <= k < |TextsOf(result.llmContent.parts)| ==> '\n' !in TextsOf(result.llmContent.parts)[k]
    ensures Split(GetResultText(result), '\n') == TextsOf(result.llmContent.parts)
  {
    SplitJoin(TextsOf(result.llmContent.parts), '\n');
  }

  datatype Todo = Todo(id: string, content: Option<string>, status: string, priority: string)

  /** The todo mapping of the todo list: `content || text`, `status` or
      else completed/pending from the flag, and `medium` priority by
      default. */
  function NormalizeTodo(t: RawTodo): (r: Todo)
    ensures r.id == t.id
    ensures r.status != "" && r.priority != ""
    ensures Truthy(t.status) ==> r.status == t.status.value
    ensures !Truthy(t.status) ==> (r.status == "completed" <==> t.completed) && (r.status == "pending" <==> !t.completed)
    ensures Truthy(t.content) ==> r.content == t.content
    ensures !Truthy(t.content) ==> r.content == t.text
    ensures Truthy(t.priority) ==> r.priority == t.priority.value
    ensures !Truthy(t.priority) ==> r.priority == "medium"
  {
    Todo(
      t.id,
      if Truthy(t.content) then t.content else t.text,
      Or(t.status, if t.completed then "completed" else "pending"),
      Or(t.priority, "medium"))
  }

  /** A todo in normalised form, written back as a report. */
  function AsRaw(t: Todo): RawTodo {
    RawTodo(t.id, t.content, None, Some(t.status), t.status == "completed", Some(t.priority))
  }

  /** Normalisation is idempotent: a normalised todo reported again comes
      out unchanged, except that empty content reads as absent. */
  lemma NormalizeIdempotent(t: RawTodo)
    ensures var n := NormalizeTodo(t);
      NormalizeTodo(AsRaw(n)) == n.(content := if Truthy(n.content) then n.content else None)
  {
  }

  function NormalizeTodos(ts: seq<RawTodo>): (r: seq<Todo>)
    ensures |r| == |ts|
    ensures forall k :: 0 <= k < |ts| ==> r[k] == NormalizeTodo(ts[k])
  {
    seq(|ts|, k requires 0 <= k < |ts| => NormalizeTodo(ts[k]))
  }

  /** The result bodies the component can show. */
  datatype Body = ErrorBody(message: string) | DiffBody(original: NestedValue.Json, updated: NestedValue.Json, filePath: NestedValue.Json) | TodoBody(todos: seq<Todo>) | TextBody(text: string)

  /** The four independent conditions of the result area, each adding its
      body when it holds. */
  function Bodies(input: Input, result: ToolResult): (r: seq<Body>)
  {
    var d := result.returnDisplay;
    (if result.isError then [ErrorBody(GetResultText(result))] else [])
    + (if !result.isError && d.Some? && d.value.DiffDisplay? then [DiffBody(DiffContents(input).0, DiffContents(input).1, DiffContents(input).2)] else [])
    + (if !result.isError && d.Some? && (d.value.TodoReadDisplay? || d.value.TodoWriteDisplay?)
       then [TodoBody(NormalizeTodos(d.value.todos))] else [])
    + (if !result.isError && (d.None? || d.value.TextDisplay?) then [TextBody(GetResultText(result))] else [])
  }

  /** At most one body shows, and exactly one unless the display is an
      object of a kind the component does not know. The error body wins
      over everything; the plain text shows only without a display or with
      a string one. */
  lemma OneBody(input: Input, result: ToolResult)
    ensures |Bodies(input, result)| <= 1
    ensures |Bodies(input, result)| == 0 <==>
      !result.isError && result.returnDisplay.Some? && result.returnDisplay.value.OtherObjectDisplay?
    ensures result.isError ==> Bodies(input, result) == [ErrorBody(GetResultText(result))]
    ensures (exists k :: 0 <= k < |Bodies(input, result)| && Bodies(input, result)[k].TextBody?) <==>
      !result.isError && (result.returnDisplay.None? || result.returnDisplay.value.TextDisplay?)
  {
    if !result.isError && (result.returnDisplay.None? || result.returnDisplay.value.TextDisplay?) {
      assert Bodies(input, result) == [TextBody(GetResultText(result))];
      assert Bodies(input, result)[0].TextBody?;
    }
  }

  /** The header: the display name or else the tool name, and a pending
      mark while there is no result. */
  function Header(toolUse: ToolUsePart, toolResult: Option<ToolResultPart>): (r: (string, bool))
    ensures Truthy(toolUse.displayName) ==> r.0 == toolUse.displayName.value
    ensures !Truthy(toolUse.displayName) ==> r.0 == toolUse.name
    ensures r.1 <==> toolResult.None?
  {
    (Or(toolUse.displayName, toolUse.name), toolResult.None?)
  }

  /** A pending call shows no result body; a call with a result is not
      pending. */
  function ShownBodies(toolUse: ToolUsePart, toolResult: Option<ToolResultPart>): (r: seq<Body>)
    ensures toolResult.None? ==> r == []
    ensures toolResult.Some? ==> r == Bodies(toolUse.input, toolResult.value.result)
  {
    if toolResult.None? then [] else Bodies(toolUse.input, toolResult.value.result)
  }
}

=== FILE: workspace_panel.dfy ===
/** The workspace panel's session and input state
    (src/renderer/components/WorkspacePanel.tsx): which session is active,
    how it follows a changed workspace, and the send guard. The send request
    itself is a parameter: it either resolves or rejects. */
module WorkspacePanel {
  import opened Wrappers
  import opened Chars

  /** The parts of a workspace record the panel's logic reads. */
  datatype Workspace = Workspace(id: string, sessionIds: seq<string>)

  datatype Panel = Panel(activeSessionId: Option<string>, inputValue: string, isLoading: bool)

  /** `workspace?.sessionIds[0] || null`. */
  function FirstSession(workspace: Option<Workspace>): (r: Option<string>)
    ensures r.Some? ==> workspace.Some? && |workspace.value.sessionIds| > 0 && r.value == workspace.value.sessionIds[0]
    ensures r.Some? ==> r.value != ""
    ensures r.None? ==> workspace.None? || |workspace.value.sessionIds| == 0 || workspace.value.sessionIds[0] == ""
  {
    if workspace.Some? && |workspace.value.sessionIds| > 0 && workspace.value.sessionIds[0] != ""
    then Some(workspace.value.sessionIds[0])
    else None
  }

  /** The panel's first state: the workspace's first session, no input, not
      loading. */
  function Initial(workspace: Option<Workspace>): (r: Panel)
    ensures r.inputValue == "" && !r.isLoading
    ensures r.activeSessionId.Some? ==> workspace.Some? && r.activeSessionId.value in workspace.value.sessionIds
    ensures workspace.Some? && |workspace.value.sessionIds| > 0 && workspace.value.sessionIds[0] != "" ==>
      r.activeSessionId == Some(workspace.value.sessionIds[0])
    ensures workspace.None? || |workspace.value.sessionIds| == 0 || workspace.value.sessionIds[0] == "" ==>
      r.activeSessionId.None?
  {
    Panel(FirstSession(workspace), "", false)
  }

  /** The session of the workspace the panel keeps active. */
  predicate Belongs(workspace: Option<Workspace>, active: Option<string>) {
    workspace.Some? && Truthy(active) && active.value in workspace.value.sessionIds
  }

  /** The effect run when the workspace or the active id changes: without a
      workspace nothing is active; a set id of the workspace stays; anything
      else falls back to the first session. */
  function Reconcile(workspace: Option<Workspace>, active: Option<string>): (r: Option<string>)
    ensures workspace.None? ==> r.None?
    ensures r.Some? ==> workspace.Some? && r.value in workspace.value.sessionIds
    ensures Belongs(workspace, active) ==> r == active
    ensures workspace.Some? && !Belongs(workspace, active) ==> r == FirstSession(workspace)
  {
    if workspace.None? then None
    else if Belongs(workspace, active) then active
    else FirstSession(workspace)
  }

  /** The effect settles at once: running it again changes nothing, so it
      does not loop. */
  lemma ReconcileIdempotent(workspace: Option<Workspace>, active: Option<string>)
    ensures Reconcile(workspace, Reconcile(workspace, active)) == Reconcile(workspace, active)
  {
  }

  /** The first run of the effect keeps the initial active id: the panel
      starts reconciled. */
  lemma InitialIsReconciled(workspace: Option<Workspace>)
    ensures Reconcile(workspace, Initial(workspace).activeSessionId) == Initial(workspace).activeSessionId
  {
  }

  /** How the send request ends. */
  datatype Outcome = Resolved | Rejected

  /** The request made by a send: session id (or `''`) and content. */
  datatype SendRequest = SendRequest(sessionId: string, content: string)

  /** `sendMessage(content)`: blank content or a send in progress does
      nothing. Otherwise the request goes to the active session (`''` when
      none); the input clears when it resolves, and loading ends either way.
      The last part is whether the rejection propagates. */
  function SendMessage(p: Panel, content: string, outcome: Outcome): (r: (Panel, Option<SendRequest>, bool))
    ensures AllSpace(content) || p.isLoading ==> r == (p, None, false)
    ensures !(AllSpace(content) || p.isLoading) ==>
      && r.1 == Some(SendRequest(Or(p.activeSessionId, ""), content))
      && !r.0.isLoading
      && r.0.activeSessionId == p.activeSessionId
      && (r.0.inputValue == "" <==> outcome == Resolved || p.inputValue == "")
      && (outcome == Rejected ==> r.0.inputValue == p.inputValue)
      && (r.2 <==> outcome == Rejected)
  {
    if |Trim(content)| == 0 || p.isLoading then (p, None, false)
    else
      var request := SendRequest(Or(p.activeSessionId, ""), content);
      match outcome
      case Resolved => (p.(inputValue := "", isLoading := false), Some(request), false)
      case Rejected => (p.(isLoading := false), Some(request), true)
  }

  /** `handleSetActiveSessionId`: switch session and clear the input. */
  function SetActiveSession(p: Panel, id: string): (r: Panel)
    ensures r.activeSessionId == Some(id) && r.inputValue == ""
    ensures r.isLoading == p.isLoading
  {
    p.(activeSessionId := Some(id), inputValue := "")
  }
}

=== FILE: wrappers.dfy ===
/** Optional values, standing in for the source's `T | null` and `T | undefined`. */
module Wrappers {

  datatype Option<+T> = None | Some(value: T) {

    /** The carried value, or `default` when there is none. */
    function GetOr(default: T): T {
      match this
      case Some(v) => v
      case None => default
    }
  }

  /** The outcome of an operation that may throw: a value or an error. */
  datatype Result<+R, +E> = Success(value: R) | Failure(error: E)

  /** Lookup in a map that yields `None` for a missing key, as a JavaScript
      property read yields `undefined`. */
  function Lookup<K, V>(m: map<K, V>, k: K): (r: Option<V>)
    ensures r.Some? <==> k in m
    ensures r.Some? ==> r.value == m[k]
  {
    if k in m then Some(m[k]) else None
  }
}
